=== FILE: README.md ===
# Knowledge Graph Editor: a Dafny model of its state and decision logic

The Knowledge Graph Editor is a browser application, with a Java service
behind it, for editing the instances of a knowledge graph. This project
models the parts of it that hold state and make decisions, and proves what
they promise.

- **Linked-instance table store** (`KgTable`, `KgTableClass`, `KgTableProperties`). It keeps:
  - the list of linked instances and their record cache;
  - a batched label-resolution queue, with a threshold policy (debounce, immediate dispatch or cancel);
  - a single-flight flag and per-id outcomes for each batch;
  - visibility bookkeeping.

  `Store` is a pure datatype whose transition functions specify every action. The class `KgTableStore` keeps the same state in mutable fields, and each of its methods is proved to perform the matching transition. The store invariant and the queue properties are proved about the transitions.
- **Multi-value text field store** (`InputTextMultiple`, with `JsonString` for `JSON.stringify` of strings):
  - list editing without duplicates;
  - a baseline and reset, a "reset to null" sentinel;
  - the warning messages.
- **Editor backend enrichment** (`Helpers`, `InstanceController`):
  - keying types by name;
  - merging type metadata into the types an instance lists;
  - the fields, promoted fields and label field of an instance;
  - the ids and pictures of the users of alternatives;
  - type names over a neighbour tree, and types and release status over a scope tree.
- **User profile endpoints** (`UserProfiles`, `UsersApi`, `UserApi`): space filtering and profile shaping.
- **UI decision tables**:
  - the authentication store (`AuthStores`);
  - the instance page's mode and permission dispatch (`Instances`, `InstanceView`);
  - the tab bar (`InstanceTabs`);
  - the delete section (`DeleteInstanceView`);
  - the items of a dynamic dropdown (`ListItemView`).

Conventions:
- A Java or JavaScript reference that may be null is an `Option`. An exception is the `Throws` case of `Outcome`.
- Where the Java code iterates over a `HashMap`, its order is an argument (`order`, any enumeration of the keys), and results are stated for every order.
- Service and network answers are arguments:
  - the summary response of the table store;
  - the workspace, release and user service maps;
  - the id service's simplification of an id;
  - the profile answer of the authentication store.

## Model

| member | source | states |
|---|---|---|
| `KgTable.Enqueue` | ui/src/CustomFields/KgTableStore.js:166-169 | Adding to the insertion-ordered id set: the id is present afterwards, membership is the old set plus the id, no duplicate appears, and the old queue is a prefix. |
| `KgTable.NewRecord` | ui/src/CustomFields/KgTableStore.js:146 | A fresh record carries its id, with no error, no fields, and neither fetching, fetched nor shown. |
| `KgTable.StringifyMessage` | ui/src/CustomFields/KgTableStore.js:219-221 | `JSON.stringify` of the error message: undefined for an absent message, `"null"` for null, and a string that parses back to the message otherwise. Only an absent message leaves the record without a truthy error. |
| `KgTable.NamedFields` | ui/src/CustomFields/KgTableStore.js:223-230 | A successful entry stores its payload fields, or `{}` when they are not an object, with `http://schema.org/name` set to `{name: "Name", value: name}`. No other key is touched. |
| `KgTable.Settle` | ui/src/CustomFields/KgTableStore.js:215-236 | The outcome of one batched id clears `isFetching` and keeps the id and `show`. It becomes fetched exactly when the response holds a data entry for the id. |
| `KgTable.MarkFetching` | ui/src/CustomFields/KgTableStore.js:207-211 | Every batched record is marked fetching with its error cleared. Every other record is unchanged. |
| `KgTable.SettleAll` | ui/src/CustomFields/KgTableStore.js:215-238 | Every batched record gets its `Settle` outcome. Every other record is unchanged. |
| `KgTable.Store.Batch` | ui/src/CustomFields/KgTableStore.js:206 | The batch is the first `min(size, 5000)` queued ids, in insertion order. |
| `KgTable.Store.FetchQueue` | ui/src/CustomFields/KgTableStore.js:201-211 | Nothing happens while a fetch is in flight. Otherwise the store is marked in flight with the batch, every batched record is fetching with its error cleared, and the queue and list are unchanged. |
| `KgTable.Store.ProcessQueue` | ui/src/CustomFields/KgTableStore.js:188-198 | Four cases: an empty queue cancels the timer; below the threshold the timer is re-armed; at the threshold with no fetch in flight the timer is cancelled and a batch dispatched; at the threshold while in flight nothing changes. Afterwards queued ids always have a timer or a fetch pending. |
| `KgTable.Store.TimerFires` | ui/src/CustomFields/KgTableStore.js:171 | A pending debounced call runs `fetchQueue` and disarms the timer. A cancelled one changes nothing. |
| `KgTable.Store.FetchInstance` | ui/src/CustomFields/KgTableStore.js:166-169 | Queues the id (as a set) and runs the policy. The list and records are unchanged. |
| `KgTable.Store.AddInstance` | ui/src/CustomFields/KgTableStore.js:137-152 | A known id is listed once more only if it is not listed, and is not queued again. An unknown id gets a fresh record, is appended to the list and is queued. |
| `KgTable.Store.ApplyResponse` | ui/src/CustomFields/KgTableStore.js:214-252 | After the response or a transport failure: every batched id is settled and leaves the queue, and the store is no longer in flight. |
| `KgTable.Store.CompleteFetch` | ui/src/CustomFields/KgTableStore.js:214-252 | The whole completion of a fetch: the queue loses exactly the batch, and the policy runs again, so pending ids keep progressing. |
| `KgTable.Store.ShowInstance` | ui/src/CustomFields/KgTableStore.js:82-89 | For an id with a record (the throwing case is `TryShowInstance`): the record is shown afterwards. `visibleInstances` grows by one only when it was not shown. Other records are unchanged. |
| `KgTable.Store.TryShowInstance` | ui/src/CustomFields/KgTableStore.js:82-89 | `showInstance` for any id: it throws exactly when the id has no record (reading `show` of `undefined`), and otherwise is the `ShowInstance` transition. |
| `KgTable.Store.RemoveInstance` | ui/src/CustomFields/KgTableStore.js:175-179 | The id leaves both the record map and the list, and everything else stays in order. The queue is untouched, so queued ids stay resolvable iff the removed id was not queued. |
| `KgTable.Store.RemoveAllInstancesAndValues` | ui/src/CustomFields/KgTableStore.js:181-186 | The value, the record map and the list are emptied. The queue is untouched. |
| `KgTable.Store.InjectOne` | ui/src/CustomFields/KgTableStore.js:265-271 | A falsy entry, or any entry once the value holds `max` items, is skipped. Otherwise the instance is added and its id appended to the value. |
| `KgTable.Store.InjectAll` | ui/src/CustomFields/KgTableStore.js:265-271 | The loop over the provided entries, one `InjectOne` at a time, keeps every queued id resolvable. |
| `KgTable.Store.InjectValue` | ui/src/CustomFields/KgTableStore.js:256-272 | The value and list are cleared and then refilled from the provided entries. Queued ids stay resolvable. |
| `KgTable.Store.List` | ui/src/CustomFields/KgTableStore.js:67-135 | One row per listed instance (`RowOf`), with data cells only for settled records, one per column of `DataColumns`. It is undefined, because the source throws, exactly when a settled record lacks a column. What the rows hold is stated by `UnsettledRowsAreBare`, `SettledRowCells`, `FetchedNameShows` and `FirstErrorBreaksList`. |
| `KgTableProperties.UnsettledRowsAreBare` | ui/src/CustomFields/KgTableStore.js:123-135 | While no listed record is settled, `list` is defined and every row holds only the id and the record. |
| `KgTableProperties.SettledRowCells` | ui/src/CustomFields/KgTableStore.js:67-135 | A settled row has exactly the data columns plus `id` and `instance`. Each data cell is the field's `value`. The id and the record keep their cells unless a column of that name overwrites them. |
| `KgTableProperties.FetchedNameShows` | ui/src/CustomFields/KgTableStore.js:67-135 | Once the first record is fetched without error, the first row's name cell is the fetched name. |
| `KgTableProperties.FirstErrorBreaksList` | ui/src/CustomFields/KgTableStore.js:76-135 | When the first record carries an error, the columns fall back to `id`. A later settled record without an `id` field then makes `list` throw. |
| `KgTable.Initial` | ui/src/CustomFields/KgTableStore.js:61-64 | The empty store satisfies the invariant and is progressing. |
| `KgTableProperties.FetchQueueValid` | ui/src/CustomFields/KgTableStore.js:201-211 | Dispatch keeps the store invariant: the batch is a capped prefix of the queue, and records are fetching only while in flight. |
| `KgTableProperties.ProcessQueueValid` | ui/src/CustomFields/KgTableStore.js:188-198 | The policy keeps the store invariant. |
| `KgTableProperties.TimerFiresValid` | ui/src/CustomFields/KgTableStore.js:171 | A firing timer keeps the store invariant. |
| `KgTableProperties.FetchInstanceValid` | ui/src/CustomFields/KgTableStore.js:166-169 | Queueing an id keeps the store invariant. |
| `KgTableProperties.AddInstanceValid` | ui/src/CustomFields/KgTableStore.js:137-152 | Adding an instance keeps the store invariant. |
| `KgTableProperties.CompleteFetchValid` | ui/src/CustomFields/KgTableStore.js:214-252 | Completion keeps the store invariant: no record is left fetching outside a batch in flight. |
| `KgTableProperties.ApplyResponseValid` | ui/src/CustomFields/KgTableStore.js:214-252 | Settling a response keeps the store invariant. |
| `KgTableProperties.ShowInstanceValid` | ui/src/CustomFields/KgTableStore.js:82-89 | Showing a record keeps the store invariant. |
| `KgTableProperties.RemoveInstanceValid` | ui/src/CustomFields/KgTableStore.js:175-179 | Removing an instance keeps the store invariant. |
| `KgTableProperties.InjectValueValid` | ui/src/CustomFields/KgTableStore.js:256-272 | Injecting a value keeps the store invariant. |
| `KgTableProperties.RemoveAllInstancesAndValuesValid` | ui/src/CustomFields/KgTableStore.js:181-186 | Clearing the table keeps the store invariant. |
| `KgTableProperties.InjectAllValid` | ui/src/CustomFields/KgTableStore.js:265-271 | Each injected entry keeps the store invariant. |
| `KgTableProperties.ActionsKeepProgress` | ui/src/CustomFields/KgTableStore.js:137-198 | Every action leaves no queued id without a pending timer or fetch. |
| `KgTableProperties.AddInstanceIdempotent` | ui/src/CustomFields/KgTableStore.js:137-152 | Adding the same id twice equals adding it once: no second enqueue and no second listing. |
| `KgTableProperties.ShowInstanceIdempotent` | ui/src/CustomFields/KgTableStore.js:82-89 | Showing a record twice equals showing it once. |
| `KgTableProperties.CompleteFetchSettlesBatch` | ui/src/CustomFields/KgTableStore.js:236-252 | Every batched id leaves the queue and is no longer fetching after completion, with the outcome `Settle` assigns. |
| `KgTableProperties.CompleteFetchKeepsOthers` | ui/src/CustomFields/KgTableStore.js:214-252 | Records outside the batch are unchanged, unless the re-run policy dispatches them at once. |
| `KgTableProperties.ProcessQueueSpares` | ui/src/CustomFields/KgTableStore.js:188-198 | The policy leaves alone a record that is neither queued nor in flight. |
| `KgTableProperties.CompleteFetchDrainsFront` | ui/src/CustomFields/KgTableStore.js:206-252 | The queue after completion is the old queue without its front batch. The store stays in flight iff the rest reaches the threshold. |
| `KgTableProperties.CompleteFetchOutcome` | ui/src/CustomFields/KgTableStore.js:215-252 | The per-id outcomes after completion. A transport failure gives `Error fetching instance <id> (<detail>)`. A missing entry gives `Error fetching instance <id>`. An error entry gives the stringified message. A data entry sets the fields with the name and marks the record fetched. Only a data entry changes the fields. |
| `KgTableProperties.FirstRecordDecidesColumns` | ui/src/CustomFields/KgTableStore.js:67-120 | The first listed record decides the columns (`IsInitialized`, `HasInitializationError`, `DataColumns`). After its fetch succeeds, the table is initialised without error and has the name column. After it fails for want of an entry, or the request fails, or its entry carries an error whose message is not undefined (`null` included), the table is in its initialisation error with only the id column. |
| `KgTableProperties.HasMoreOptionsCases` | ui/src/CustomFields/KgTableStore.js:162-164 | `hasMoreOptions` is false while an options request runs and true while the total is unknown. It is false once the total is reached, and true below a known total when no request runs. |
| `KgTableProperties.VisibleCountMatchesRows` | ui/src/CustomFields/KgTableStore.js:91-110 | While `visibleInstances` counts the shown listed records, `visibleInstancesCount` equals the number of rows `isInstanceVisible` (`IsInstanceVisible`) reports visible. |
| `KgTableProperties.ShowInstanceKeepsAccounting` | ui/src/CustomFields/KgTableStore.js:82-89 | `showInstance` keeps `visibleInstances` equal to the number of shown listed records. |
| `KgTableProperties.NoSecondDispatch` | ui/src/CustomFields/KgTableStore.js:201-205 | While a fetch is in flight, no action starts another batch or changes the batch in flight. |
| `KgTableProperties.InjectValueShape` | ui/src/CustomFields/KgTableStore.js:256-272 | The value becomes the first `max` truthy entries. The list holds each of those ids once, in order of first occurrence. Each has a record, and every new id is queued. |
| `KgTableProperties.InjectAllShape` | ui/src/CustomFields/KgTableStore.js:265-271 | Starting from an empty value and list, the loop yields the first `max` truthy ids as the value, and the list holds each of them once. |
| `KgTableProperties.InjectOneKeepsShape` | ui/src/CustomFields/KgTableStore.js:265-271 | One accepted entry is appended to the value. The list stays the value without duplicates, and a new id is queued. |
| `KgTableClass.MarkBatch` | ui/src/CustomFields/KgTableStore.js:207-211 | The marking loop computes `MarkFetching`: every batched record is fetching with its error cleared. |
| `KgTableClass.SettleBatch` | ui/src/CustomFields/KgTableStore.js:215-249 | The settling loop computes `SettleAll`, and the queue loses exactly the batch. |
| `KgTableClass.KgTableStore.FetchQueue` | ui/src/CustomFields/KgTableStore.js:201-211 | Updates the fields in place to the `Store.FetchQueue` transition. |
| `KgTableClass.KgTableStore.ProcessQueue` | ui/src/CustomFields/KgTableStore.js:188-198 | Updates the fields in place to the `Store.ProcessQueue` transition. |
| `KgTableClass.KgTableStore.AddInstance` | ui/src/CustomFields/KgTableStore.js:137-152 | Updates the fields in place to the `Store.AddInstance` transition and returns the id's record. |
| `KgTableClass.KgTableStore.TimerFires` | ui/src/CustomFields/KgTableStore.js:171 | Updates the fields in place to the `Store.TimerFires` transition. |
| `KgTableClass.KgTableStore.FetchInstance` | ui/src/CustomFields/KgTableStore.js:166-169 | Updates the fields in place to the `Store.FetchInstance` transition. |
| `KgTableClass.KgTableStore.CompleteFetch` | ui/src/CustomFields/KgTableStore.js:212-253 | Updates the fields in place to the `Store.CompleteFetch` transition. |
| `KgTableClass.KgTableStore.ShowInstance` | ui/src/CustomFields/KgTableStore.js:82-89 | For an id without a record it throws and changes nothing. Otherwise it updates the fields in place to the `Store.ShowInstance` transition. |
| `KgTableClass.KgTableStore.VisibleInstancesCount` | ui/src/CustomFields/KgTableStore.js:91-102 | The count-down loop returns `min(default, rows) + visibleInstances` minus the shown records of the default prefix. While `visibleInstances` counts the shown listed records, this is the number of rows `isInstanceVisible` reports visible. |
| `KgTableClass.KgTableStore.RemoveInstance` | ui/src/CustomFields/KgTableStore.js:175-179 | Updates the fields in place to the `Store.RemoveInstance` transition. |
| `KgTableClass.KgTableStore.RemoveAllInstancesAndValues` | ui/src/CustomFields/KgTableStore.js:181-186 | Updates the fields in place to the `Store.RemoveAllInstancesAndValues` transition. |
| `KgTableClass.KgTableStore.InjectValue` | ui/src/CustomFields/KgTableStore.js:256-272 | Updates the fields in place to the `Store.InjectValue` transition. |
| `KgTableClass.KgTableStore.constructor` | ui/src/CustomFields/KgTableStore.js:61-64 | The new store is the injection of the provided value into an empty store. It satisfies the invariant. |
| `JsonString.ParseStringify` | ui/src/CustomFields/KgTableStore.js:220 | The stringified error message decodes back to the message. |
| `JsonString.Stringify` | ui/src/CustomFields/KgTableStore.js:220 | `JSON.stringify` of a string: a quoted string at least two characters longer than its input. |
| `JsonString.StringifyInjective` | ui/src/CustomFields/KgTableStore.js:220 | Distinct messages give distinct stringified errors. |
| `InputTextMultiple.IndexOf` | ui/src/Fields/Stores/InputTextMultipleStore.js:235-239 | `indexOf`: -1 iff the value is absent, otherwise the first index holding it. |
| `InputTextMultiple.Delete` | ui/src/Fields/Stores/InputTextMultipleStore.js:213-217 | After `deleteValue` a string is in the list iff it was there before and differs from the value. The list never grows. |
| `InputTextMultiple.Insert` | ui/src/Fields/Stores/InputTextMultipleStore.js:203-211 | Empty or present values change nothing. Otherwise the value is placed at the index (splice semantics), or appended when the index is -1 or missing, and the other elements keep their order. No duplicate is ever created. |
| `InputTextMultiple.MoveAfter` | ui/src/Fields/Stores/InputTextMultipleStore.js:235-240 | `moveValueAfter` removes the value, then inserts it at `after`'s index in the shortened list, or at the end. |
| `InputTextMultiple.RemoveLast` | ui/src/Fields/Stores/InputTextMultipleStore.js:250-254 | `removeLastValue` is a no-op on an empty list. Otherwise it drops every copy of the last value. |
| `InputTextMultiple.DeleteMultiset` | ui/src/Fields/Stores/InputTextMultipleStore.js:213-217 | Deleting removes every copy of the value and nothing else. |
| `InputTextMultiple.NoDupInsert` | ui/src/Fields/Stores/InputTextMultipleStore.js:203-209 | Inserting a new value into a list without duplicates keeps it without duplicates. |
| `InputTextMultiple.MoveAfterPermutes` | ui/src/Fields/Stores/InputTextMultipleStore.js:235-240 | Moving a value that occurs once permutes the list. |
| `InputTextMultiple.MoveAfterNoDup` | ui/src/Fields/Stores/InputTextMultipleStore.js:235-240 | Moving keeps a list without duplicates. |
| `InputTextMultiple.RemoveLastDropsLast` | ui/src/Fields/Stores/InputTextMultipleStore.js:250-254 | In a list without duplicates, `removeLastValue` drops exactly the last element. |
| `InputTextMultiple.Changed` | ui/src/Fields/Stores/InputTextMultipleStore.js:186-188 | `hasChanged` (length or position comparison) holds iff the list differs from the baseline. |
| `InputTextMultiple.Normalize` | ui/src/Fields/Stores/InputTextMultipleStore.js:190-195 | `updateValue` input: an array as is, a scalar as a singleton, null or undefined as empty. |
| `InputTextMultiple.FieldState.ReturnValue` | ui/src/Fields/Stores/InputTextMultipleStore.js:100-105 | The reset sentinel iff the list is empty and marked reset to null, otherwise the list. |
| `InputTextMultiple.FieldState.SetValues` | ui/src/Fields/Stores/InputTextMultipleStore.js:223-233 | Null empties the list and sets the mark. An empty array is ignored while marked. Any other array replaces the list and clears the mark. |
| `InputTextMultiple.FieldState.UpdateValue` | ui/src/Fields/Stores/InputTextMultipleStore.js:190-195 | Both baseline and list become the normalised input, so nothing has changed and the mark is cleared. |
| `InputTextMultiple.FieldState.Reset` | ui/src/Fields/Stores/InputTextMultipleStore.js:197-200 | The list becomes a copy of the baseline, so nothing has changed. |
| `InputTextMultiple.ResetToNullSticks` | ui/src/Fields/Stores/InputTextMultipleStore.js:223-233 | After a reset to null the field returns the sentinel, and an empty `setValues` does not undo it. |
| `InputTextMultiple.RegexRules` | ui/src/Fields/Stores/InputTextMultipleStore.js:48-60 | The rules are the validation rules in order, or the single rule made from the deprecated `regex` when there are none. |
| `InputTextMultiple.RegexWarningIsFirstReport` | ui/src/Fields/Stores/InputTextMultipleStore.js:127-139 | `regexWarning` is truthy iff some rule reports (a value fails it and its message is non-empty). It is then the message of the first reporting rule in rule order. |
| `InputTextMultiple.NatToString` | ui/src/Fields/Stores/InputTextMultipleStore.js:146-154 | Numbers in messages print as non-empty strings of decimal digits. |
| `InputTextMultiple.WarningMessages` | ui/src/Fields/Stores/InputTextMultipleStore.js:146-180 | No message for an unchanged list. With both bounds set, an item-count message iff the length is outside them. A length message iff some value is longer than `maxLength` in UTF-16 code units (`TooLong`). For a changed list the item-count message is `NumberOfItemsMessage` of its length, whose single-bound cases `NumberOfItemsCases` gives. The regex message is exactly the truthy `regexWarning`. |
| `InputTextMultiple.NoWarningsWhenUnchanged` | ui/src/Fields/Stores/InputTextMultipleStore.js:156-200 | After `updateValue` or `reset` there is no warning at all. |
| `InputTextMultiple.Utf16Length` | ui/src/Fields/Stores/InputTextMultipleStore.js:171 | JavaScript's `length`, counted in UTF-16 code units: at least the number of characters and at most twice it. |
| `InputTextMultiple.Utf16LengthOfBmp` | ui/src/Fields/Stores/InputTextMultipleStore.js:171 | The code-unit length equals the character count exactly when every character is in the Basic Multilingual Plane. |
| `InputTextMultiple.AstralValueExceedsOne` | ui/src/Fields/Stores/InputTextMultipleStore.js:170-173 | A changed value of one character outside the Basic Multilingual Plane gets the length message when `maxLength` is 1. |
| `InputTextMultiple.NumberOfItemsCases` | ui/src/Fields/Stores/InputTextMultipleStore.js:146-169 | The item-count message (`NumberOfItemsMessage`), one case per bound. With only `minItems` positive, it warns below it or above a `maxItems` of 0. With only `maxItems` positive, it warns above it. Within two positive bounds it is silent, and without a positive bound there is none. |
| `InputTextMultiple.RequiredWarningFollowsList` | ui/src/Fields/Stores/InputTextMultipleStore.js:107-115 | `RequiredValidationWarning` holds iff the field is required and its list is empty. It holds after `removeAllValues` and never after a non-empty `setValues` or an insertion. After an empty `setValues` it holds only if the list was empty or not marked reset to null. |
| `InputTextMultiple.DeprecatedRegexThrows` | ui/src/Fields/Stores/InputTextMultipleStore.js:53-60 | As written, a field with only the deprecated `regex` throws on any non-empty list. |
| `InputTextMultiple.DeprecatedRegexReports` | ui/src/Fields/Stores/InputTextMultipleStore.js:127-139 | With the deprecated pattern compiled, the warning is its message exactly when some value fails the pattern. |
| `InputTextMultiple.InputTextMultipleStore.constructor` | ui/src/Fields/Stores/InputTextMultipleStore.js:46-60 | A new store has an empty list and baseline, and rules built from the definition. |
| `InputTextMultiple.InputTextMultipleStore.InsertValue` | ui/src/Fields/Stores/InputTextMultipleStore.js:203-211 | Updates the list in place to `Insert`. |
| `InputTextMultiple.InputTextMultipleStore.DeleteValue` | ui/src/Fields/Stores/InputTextMultipleStore.js:213-217 | Updates the list in place to `Delete`. |
| `InputTextMultiple.InputTextMultipleStore.AddValue` | ui/src/Fields/Stores/InputTextMultipleStore.js:219-221 | Appends through `insertValue`. |
| `InputTextMultiple.InputTextMultipleStore.RemoveValue` | ui/src/Fields/Stores/InputTextMultipleStore.js:242-244 | Deletes through `deleteValue`. |
| `InputTextMultiple.InputTextMultipleStore.SetValues` | ui/src/Fields/Stores/InputTextMultipleStore.js:223-233 | Updates the fields in place to `FieldState.SetValues`. |
| `InputTextMultiple.InputTextMultipleStore.RemoveAllValues` | ui/src/Fields/Stores/InputTextMultipleStore.js:246-248 | A reset to null. |
| `InputTextMultiple.InputTextMultipleStore.MoveValueAfter` | ui/src/Fields/Stores/InputTextMultipleStore.js:235-240 | Updates the list in place to `MoveAfter`. |
| `InputTextMultiple.InputTextMultipleStore.RemoveLastValue` | ui/src/Fields/Stores/InputTextMultipleStore.js:250-254 | Updates the list in place to `RemoveLast`. |
| `InputTextMultiple.InputTextMultipleStore.UpdateValue` | ui/src/Fields/Stores/InputTextMultipleStore.js:190-195 | Updates the fields in place to `FieldState.UpdateValue`. |
| `InputTextMultiple.InputTextMultipleStore.Reset` | ui/src/Fields/Stores/InputTextMultipleStore.js:197-200 | Updates the fields in place to `FieldState.Reset`. |
| `Helpers.TypesByName` | editor/src/main/java/eu/ebrains/kg/editor/helpers/Helpers.java:13-18 | Throws iff some result is null or two non-null types share a name. Otherwise the keys are exactly the names of the non-null types, each mapped to the type of that name. |
| `Helpers.CollectSpec` | editor/src/main/java/eu/ebrains/kg/editor/helpers/Helpers.java:14-17 | The collection, in iteration order, throws on a null result or a repeated name. Otherwise it keys each non-null type by its name and drops null data. |
| `Helpers.TypesByNameKeepsNonNull` | editor/src/main/java/eu/ebrains/kg/editor/helpers/Helpers.java:14-17 | Every result with data has its type in the map under its own name. |
| `Helpers.IsNestedField` | editor/src/main/java/eu/ebrains/kg/editor/helpers/Helpers.java:20-22 | The test never throws; its meaning is stated by `Helpers.NestedFieldNullSafe`. |
| `Helpers.NestedFieldNullSafe` | editor/src/main/java/eu/ebrains/kg/editor/helpers/Helpers.java:20-22 | The null check makes the test total. For a field without a widget it is false where calling `equals` directly would throw. Otherwise it agrees with `equals`. |
| `InstanceController.GetFilteredTypes` | editor/src/main/java/eu/ebrains/kg/editor/controllers/InstanceController.java:80-84 | Keys are exactly the instance's type names, each mapped to its lookup, which may be null. |
| `InstanceController.EnrichSimpleType` | editor/src/main/java/eu/ebrains/kg/editor/controllers/InstanceController.java:86-93 | Color, label and label field are copied only when the name has an entry with data. Otherwise the type is unchanged. |
| `InstanceController.EnrichTypes` | editor/src/main/java/eu/ebrains/kg/editor/controllers/InstanceController.java:110 | Each listed type is enriched in place. |
| `InstanceController.EnrichSimpleTypeIdempotent` | editor/src/main/java/eu/ebrains/kg/editor/controllers/InstanceController.java:86-93 | Enriching a type twice equals enriching it once. |
| `InstanceController.EnrichTypesFixed` | editor/src/main/java/eu/ebrains/kg/editor/controllers/InstanceController.java:86-93 | Enriched types are a fixed point of enrichment. |
| `InstanceController.AllData` | editor/src/main/java/eu/ebrains/kg/editor/controllers/InstanceController.java:113-114 | Reading the data of the values throws iff an entry is null. Otherwise it yields the data of the non-null results. |
| `InstanceController.FieldsToMap` | editor/src/main/java/eu/ebrains/kg/editor/controllers/InstanceController.java:154-156 | Throws iff two fields share a fully qualified name. Otherwise each field is keyed by that name. |
| `InstanceController.AllFields` | editor/src/main/java/eu/ebrains/kg/editor/controllers/InstanceController.java:113-115 | The flattened fields are exactly the fields some type declares. |
| `InstanceController.AllPromoted` | editor/src/main/java/eu/ebrains/kg/editor/controllers/InstanceController.java:120-122 | The flattened promoted names are exactly those some type promotes. |
| `InstanceController.QualifiedNamesNoDup` | editor/src/main/java/eu/ebrains/kg/editor/controllers/InstanceController.java:154-156 | In distinct fields, the fully qualified names are distinct iff no two fields share one. `toMap` therefore throws exactly on such a pair. |
| `InstanceController.KeepPromoted` | editor/src/main/java/eu/ebrains/kg/editor/controllers/InstanceController.java:141 | Keeps exactly the fields whose fully qualified name is promoted, in order and without duplicates. |
| `InstanceController.LabelFieldSpec` | editor/src/main/java/eu/ebrains/kg/editor/controllers/InstanceController.java:123-124 | The lazy `findFirst`: null iff every entry is skipped. It throws iff the first non-skipped result has a null label field. Otherwise it is the label field of a first non-skipped entry. |
| `InstanceController.NameFrom` | editor/src/main/java/eu/ebrains/kg/editor/controllers/InstanceController.java:148-149 | The cast of the original map's value: an absent or null value gives null, a string gives that string, any other value throws. |
| `InstanceController.EnrichTypesAndFields` | editor/src/main/java/eu/ebrains/kg/editor/controllers/InstanceController.java:107-108 | Without type information the instance is untouched. |
| `InstanceController.EnrichTypesAndFieldsSpec` | editor/src/main/java/eu/ebrains/kg/editor/controllers/InstanceController.java:107-126 | Throws iff a null entry, two clashing fields or a null label field is met. Otherwise: the types are enriched; the fields are exactly the declared ones keyed by their name; the promoted fields are exactly the declared ones without duplicates; the label field is the first one found. |
| `InstanceController.EnrichTypesAndSearchableFieldsSpec` | editor/src/main/java/eu/ebrains/kg/editor/controllers/InstanceController.java:128-152 | Untouched without type information. Otherwise the fields are exactly the declared fields that are promoted. The name is set from the original map only when a label field exists. The throwing cases are stated. |
| `InstanceController.EnrichTypesAndSearchableFields` | editor/src/main/java/eu/ebrains/kg/editor/controllers/InstanceController.java:128-129 | Without type information the instance is untouched. |
| `InstanceController.PromotedKept` | editor/src/main/java/eu/ebrains/kg/editor/controllers/InstanceController.java:134-143 | The fields kept for a summary are the declared fields with a promoted name, keyed by that name. `toMap` throws on them iff two different such fields share a name. |
| `InstanceController.EnrichName` | editor/src/main/java/eu/ebrains/kg/editor/controllers/InstanceController.java:159-172 | Untouched without type information. Otherwise the types are enriched and the name is taken at the label field only when one exists. |
| `InstanceController.UserIds` | editor/src/main/java/eu/ebrains/kg/editor/controllers/InstanceController.java:194-198 | The user ids asked about hold no duplicates, and are exactly the non-null simplified ids of the alternatives' users. |
| `InstanceController.UsersOf` | editor/src/main/java/eu/ebrains/kg/editor/controllers/InstanceController.java:194-195 | The users of a list of alternatives are exactly those of its members. |
| `InstanceController.AllUsers` | editor/src/main/java/eu/ebrains/kg/editor/controllers/InstanceController.java:194-195 | The stream of all users covers exactly the users of every alternative list. |
| `InstanceController.SimplifiedIds` | editor/src/main/java/eu/ebrains/kg/editor/controllers/InstanceController.java:196-199 | The mapped stream holds exactly the non-null simplified ids. |
| `InstanceController.EnrichAlternatives` | editor/src/main/java/eu/ebrains/kg/editor/controllers/InstanceController.java:193-211 | Only the alternatives change and their shape is kept. Every user's id becomes the id service's simplification of it, and its picture becomes the pictures map's entry for the new id, or null without one. |
| `InstanceController.EnrichedIdsRequested` | editor/src/main/java/eu/ebrains/kg/editor/controllers/InstanceController.java:194-210 | Every non-null enriched user id is one the user service was asked about. |
| `InstanceController.FindTypesInNeighbor` | editor/src/main/java/eu/ebrains/kg/editor/controllers/InstanceController.java:231-242 | The accumulator grows by exactly the type names of the neighbour and all its inbound and outbound descendants. Null lists are skipped. |
| `InstanceController.FindTypesInNeighbors` | editor/src/main/java/eu/ebrains/kg/editor/controllers/InstanceController.java:236-240 | The `forEach` over a list adds the type names of every tree in it. |
| `InstanceController.TypeNamesOfUnion` | editor/src/main/java/eu/ebrains/kg/editor/controllers/InstanceController.java:231-242 | The type names of two node sets together are the union of theirs, which is why the accumulator can be threaded. |
| `InstanceController.EnrichTypesInNeighborComplete` | editor/src/main/java/eu/ebrains/kg/editor/controllers/InstanceController.java:219-229 | After `enrichTypesInNeighbor` no node of the tree has a type left to enrich. |
| `InstanceController.EnrichTypesInNeighborKeepsNodes` | editor/src/main/java/eu/ebrains/kg/editor/controllers/InstanceController.java:219-229 | `enrichTypesInNeighbor` only enriches types. Every node of the result is a node of the original tree with the same id and its own types enriched (a null list stays null). The tree holds the same ids. |
| `InstanceController.EnrichTypesInNeighbor` | editor/src/main/java/eu/ebrains/kg/editor/controllers/InstanceController.java:219-229 | The node keeps its id and has its own types enriched. Its inbound and outbound lists stay null or non-null and keep their lengths. |
| `InstanceController.EnrichTypesInNeighbors` | editor/src/main/java/eu/ebrains/kg/editor/controllers/InstanceController.java:223-228 | A list of neighbours keeps its length, and each entry is its original neighbour enriched by `enrichTypesInNeighbor`. |
| `InstanceController.EnrichTypesInNeighborsComplete` | editor/src/main/java/eu/ebrains/kg/editor/controllers/InstanceController.java:223-228 | No node of any enriched tree in the list has a type left to enrich. |
| `InstanceController.EnrichTypesInNeighborsKeepNodes` | editor/src/main/java/eu/ebrains/kg/editor/controllers/InstanceController.java:223-228 | Every node of the enriched list's trees is an original node with its own types enriched, and the ids are kept. |
| `InstanceController.FindTypesAndIdsInScope` | editor/src/main/java/eu/ebrains/kg/editor/controllers/InstanceController.java:257-263 | Collects the type names and the id of every node of the scope tree. |
| `InstanceController.ReleaseStatusStamped` | editor/src/main/java/eu/ebrains/kg/editor/controllers/InstanceController.java:265-271 | Every node ends with the status of its id's entry, or null without one. Ids and types are kept. |
| `InstanceController.FindTypesAndIdsInScopes` | editor/src/main/java/eu/ebrains/kg/editor/controllers/InstanceController.java:260-262 | The `forEach` over children collects the type names and ids of every tree in the list. |
| `InstanceController.IdsOfUnion` | editor/src/main/java/eu/ebrains/kg/editor/controllers/InstanceController.java:257-263 | The ids of two node sets together are the union of theirs. |
| `InstanceController.EnrichReleaseStatusInScope` | editor/src/main/java/eu/ebrains/kg/editor/controllers/InstanceController.java:265-271 | The node keeps its id and types. |
| `InstanceController.EnrichReleaseStatusInScopes` | editor/src/main/java/eu/ebrains/kg/editor/controllers/InstanceController.java:268-270 | A list of children keeps its length. |
| `InstanceController.ReleaseStatusStampedAll` | editor/src/main/java/eu/ebrains/kg/editor/controllers/InstanceController.java:268-270 | Every node of every tree in the list ends with its id's release status, with ids and types kept. |
| `InstanceController.EnrichTypesInScope` | editor/src/main/java/eu/ebrains/kg/editor/controllers/InstanceController.java:273-278 | The node keeps its id and status and has its own types enriched. Its children stay null or non-null and keep their number. |
| `InstanceController.EnrichTypesInScopes` | editor/src/main/java/eu/ebrains/kg/editor/controllers/InstanceController.java:275-277 | A list of children keeps its length, and each child is its original enriched by `enrichTypesInScope`. |
| `InstanceController.TypesInScopeEnriched` | editor/src/main/java/eu/ebrains/kg/editor/controllers/InstanceController.java:273-278 | No node has a type left to enrich. Every node is an original node with the same id and status and its own types enriched. No id is lost. |
| `InstanceController.TypesInScopesEnriched` | editor/src/main/java/eu/ebrains/kg/editor/controllers/InstanceController.java:275-277 | The same over a list of trees: every node is an original node with the same id and status and its own types enriched. |
| `InstanceController.ScopeFullyEnriched` | editor/src/main/java/eu/ebrains/kg/editor/controllers/InstanceController.java:245-255 | After the scope enrichment every node is an original node of the same id with its own types enriched and its id's release status. No type is left to enrich, and the tree holds the same ids. |
| `UserProfiles.Keep` | service/src/main/java/eu/ebrains/kg/service/api/Users.java:71 | The filter keeps exactly the relevant spaces. |
| `UserProfiles.KeepAppend` | service/src/main/java/eu/ebrains/kg/service/api/Users.java:71 | Filtering keeps the original relative order. |
| `UserProfiles.SimplifiedId` | service/src/main/java/eu/ebrains/kg/service/api/Users.java:65-68 | The id is replaced only by a non-null simplified id. |
| `UserProfiles.KeepIdempotent` | service/src/main/java/eu/ebrains/kg/service/api/Users.java:71 | Filtering already filtered spaces changes nothing. |
| `UsersApi.IsUserRelevantSpace` | service/src/main/java/eu/ebrains/kg/service/api/Users.java:57-59 | A space is kept iff it is not a client space, not an internal space (null counting as false), and readable. |
| `UsersApi.GetUserProfile` | service/src/main/java/eu/ebrains/kg/service/api/Users.java:62-77 | Null without a profile. The id is simplified when possible. Spaces are left unset when the space service answers null, and otherwise are `Keep` of the answer: the relevant spaces in the service's order, repeats included. The picture is unchanged. |
| `UserApi.IsUserRelevantSpace` | service/src/main/java/eu/ebrains/kg/service/api/User.java:56-58 | A space is kept iff it is neither a client nor an internal space, with null counting as false. There is no permission check. |
| `UserApi.UsersKeepsReadableOfUser` | service/src/main/java/eu/ebrains/kg/service/api/User.java:56-58 | The spaces `/users/me` keeps are the readable ones among those `/user` keeps, in the same order. |
| `UserApi.GetUserProfile` | service/src/main/java/eu/ebrains/kg/service/api/User.java:61-79 | As for `/users/me`, with the spaces `Keep` of the answer under the other filter, in order. The picture is set only when the pictures map and its entry for the (new) id are non-null. |
| `AuthStores.AccessToken` | ui/src/Stores/AuthStore.js:70-76 | The empty string unless authenticated. Authenticated, it is the provider's token, and it throws when there is no provider client. |
| `AuthStores.Workspaces` | ui/src/Stores/AuthStore.js:82-88 | Non-empty iff the user has a non-empty workspaces array, and then exactly that array. |
| `AuthStores.SpaceIndex` | ui/src/Stores/AuthStore.js:91 | The first space of a string, if any. |
| `AuthStores.FirstWordIsMatch` | ui/src/Stores/AuthStore.js:91-98 | The extracted first word is exactly the group of `^([^ ]+) .*$` when that pattern matches. |
| `AuthStores.FirstName` | ui/src/Stores/AuthStore.js:90-107 | The given name; else the name's first word, or the whole name when the pattern fails; else the user name; else "". |
| `AuthStores.FirstNameFromName` | ui/src/Stores/AuthStore.js:96-101 | Taken from the name, the first name is a non-empty prefix of it: either the whole name, or a run without spaces followed by a space. |
| `AuthStores.LoadedUser` | ui/src/Stores/AuthStore.js:127-128 | The stored user is the answer's data, or a user without names, and its workspaces are always an array. |
| `AuthStores.AuthStore.constructor` | ui/src/Stores/AuthStore.js:22-68 | A new store is unauthenticated, without a user, and initializing. |
| `AuthStores.AuthStore.Logout` | ui/src/Stores/AuthStore.js:109-116 | Leaves `authSuccess` false, `isUserAuthorized` false, no user, `isTokenExpired` true, and `isLogout` true with one logout redirect. Without a provider client it throws before the redirect. |
| `AuthStores.AuthStore.Login` | ui/src/Stores/AuthStore.js:185-189 | Asks for the login redirect only when not authenticated and a provider client is set. Nothing else changes. |
| `AuthStores.AuthStore.RetrieveUserProfile` | ui/src/Stores/AuthStore.js:118-147 | Acts only when authenticated without a user. A profile authorizes and loads the user. A 403 leaves the user unauthorized without an error. Other failures set the error. The request flag ends cleared, and the result is whether a user is loaded. |
| `Instances.InstancePathRoundTrip` | ui/src/Views/Instance/Tabs.js:95-102 | Instance paths are unambiguous: `ParseInstancePath` gives back the id and mode from the path that `InstancePath` builds. |
| `InstanceView.View` | ui/src/Views/Instance/Instance.js:104-166 | Create, edit, view and release need `canCreate`, `canWrite`, `canRead` and `canRelease` respectively, each with type support. Graph, manage and raw need only `canRead`. Anything else gives the refusal. |
| `InstanceView.ReadlessModes` | ui/src/Views/Instance/Instance.js:110-165 | Without `canRead`, only create, edit and release can open, and only with type support. |
| `InstanceView.UnknownModeRefused` | ui/src/Views/Instance/Instance.js:104-166 | A mode the page does not know always gives the refusal. |
| `InstanceView.ActionLabel` | ui/src/Views/Instance/Instance.js:169-177 | The verb of the refusal sentence; what it promises is stated by `InstanceView.ActionLabelVerbs` and `InstanceView.RefusalFor`. |
| `InstanceView.ActionLabelVerbs` | ui/src/Views/Instance/Instance.js:169-177 | Every known mode has one of six verbs. Two modes share a verb only when they are view and raw, which both need the read permission. |
| `InstanceView.RefusalFor` | ui/src/Views/Instance/Instance.js:179-193 | The refusal pane's sentence names the refused action through `ActionLabel` and names the instance. Its button follows `NoPermissionLink`. |
| `InstanceView.ViewRefusalLoops` | ui/src/Views/Instance/Instance.js:125-189 | A reader whose instance has unsupported types is refused the view mode with the verb "view". The refusal's button leads back to that same refused view. |
| `InstanceView.NoPermissionLink` | ui/src/Views/Instance/Instance.js:187-189 | The refusal links to the instance's view page when it can be read, otherwise to browse. |
| `InstanceView.NoPermissionLinkOpens` | ui/src/Views/Instance/Instance.js:125-130 | The link to the instance opens a view the user may see. |
| `InstanceView.SaveBarHidden` | ui/src/Views/Instance/Instance.js:209 | The save bar's visibility; how it relates to the tabs is stated by `InstanceTabs.SaveBarBesideEditTab`. |
| `InstanceTabs.Tab` | ui/src/Views/Instance/Tabs.js:108-114 | Every tab but edit is disabled in create mode. A tab is active in its own mode, and edit also in create mode. View needs read, and edit needs write or create. The other tabs are hidden for a new instance. For an existing instance, invite needs `canInviteForSuggestion`, graph and raw need read, release needs `canRelease`, and manage needs delete or create. |
| `InstanceTabs.Render` | ui/src/Views/Instance/Tabs.js:66-87 | A hidden tab renders nothing. A tab is clickable iff it is shown, not disabled and not active. |
| `InstanceTabs.HandleClick` | ui/src/Views/Instance/Tabs.js:95-102 | View navigates to `/instances/{id}`. Any other mode navigates to `/instances/{id}/{mode}`. |
| `InstanceTabs.OneActiveTab` | ui/src/Views/Instance/Tabs.js:108-114 | At most one tab is active in any mode. |
| `InstanceTabs.CreateModeLocksTabs` | ui/src/Views/Instance/Tabs.js:72-80 | In create mode no tab can be clicked: `Click`, the navigation of a click on a rendered tab, is `None`. |
| `InstanceTabs.ClickLeavesMode` | ui/src/Views/Instance/Tabs.js:72-102 | A click opens the tab's own mode, which is never the current one. |
| `InstanceTabs.OpenModeHasTab` | ui/src/Views/Instance/Tabs.js:108-114 | A mode the page opens has its tab shown and active, except manage. |
| `InstanceTabs.ManageOpensWithoutTab` | ui/src/Views/Instance/Tabs.js:113 | For every reader of an existing instance who may neither delete nor create, the manage view opens while the manage tab is hidden. |
| `InstanceTabs.SaveBarBesideEditTab` | ui/src/Views/Instance/Instance.js:209-210 | The save bar shows whenever changes are unsaved. It always shows in edit mode, where the edit tab is active. The only page with an active edit tab and no save bar is a create page with nothing unsaved. |
| `DeleteInstanceView.Delete` | ui/src/Views/Instance/InstanceManage/DeleteInstance.js:61-110 | A fetch error comes first, with a retry. A missing or unfetched status shows the loading notice. Otherwise the button is disabled, and the released explanation shown, iff the status is not "UNRELEASED". |
| `DeleteInstanceView.DeleteInstance` | ui/src/Views/Instance/InstanceManage/DeleteInstance.js:137-169 | The delete part appears only with `canDelete`, and the error dialog with a deletion error. The spinner appears only without an error, while a named instance is being deleted. |
| `DeleteInstanceView.DeleteOnlyUnreleased` | ui/src/Views/Instance/InstanceManage/DeleteInstance.js:99-104 | The delete button can be pressed (`CanPressDelete`) iff the user may delete and the status was fetched without error as "UNRELEASED". |
| `DeleteInstanceView.DialogExcludesSpinner` | ui/src/Views/Instance/InstanceManage/DeleteInstance.js:153-168 | The error dialog and the spinner never show together. |
| `ListItemView.GetLabel` | ui/src/Fields/DynamicDropdown/ListItem.js:81-92 | "Unknown instance" without a record, then "Not found" on error, then the id while fetching, then the name. |
| `ListItemView.LabelPrecedence` | ui/src/Fields/DynamicDropdown/ListItem.js:171-175 | With the derived flags `HasError` and `IsFetching`, in the item's `Label` an error outranks fetching. The name shows iff the record exists without error and nothing is fetching. |
| `ListItemView.IsDisabled` | ui/src/Fields/DynamicDropdown/ListItem.js:176 | The disabled flag of the item; its effect on dragging is stated by `ListItemView.DragOnlyPlainItems`. |
| `ListItemView.DragOnlyPlainItems` | ui/src/Fields/DynamicDropdown/ListItem.js:176-231 | `Draggable` holds iff the item is editable, its field is enabled and it does not point to itself. A self-pointing editable item is shown disabled and cannot be dragged, although its drag-start handler is attached. |
| `ListItemView.Attached` | ui/src/Fields/DynamicDropdown/ListItem.js:178-247 | Which handlers each rendering attaches (read-only, circular, plain), with the delete icon only when not disabled. |
| `ListItemView.Forwarded` | ui/src/Fields/DynamicDropdown/ListItem.js:107-169 | Click, delete, drag, drop and key events are forwarded only with pointer events enabled. Focus, blur and mouse events are always forwarded when attached and provided. |
| `ListItemView.PointerEventsOff` | ui/src/Fields/DynamicDropdown/ListItem.js:107-169 | With pointer events off, only focus, blur and mouse events of a plain editable item get through. |
| `ListItemView.ReadOnlyForwardsNoEdits` | ui/src/Fields/DynamicDropdown/ListItem.js:178-204 | A read-only item never forwards delete, drag, drop or key events. |
| `ListItemView.LabelRequests` | ui/src/Fields/DynamicDropdown/ListItem.js:100-105 | The label fetches over a sequence of renderings. The effect runs on mount and when `instanceId` or `fetchLabel` changed (`EffectRuns`). There is at most one request per rendering, and each request is for an instance rendered with `fetchLabel` set. |
| `ListItemView.RerenderRequestsNothing` | ui/src/Fields/DynamicDropdown/ListItem.js:100-105 | Rendering again with the same props asks for no label. |
| `ListItemView.NewInstanceRequestsOnce` | ui/src/Fields/DynamicDropdown/ListItem.js:100-105 | Switching to another instance with `fetchLabel` set asks for its label exactly once. |
| `ListItemView.NoFetchLabelNoRequests` | ui/src/Fields/DynamicDropdown/ListItem.js:100-105 | Without `fetchLabel`, no rendering asks for a label. |

## Left out

- Network and service calls are not made; their answers are arguments. This covers `API.axios.post`, the workspace, release, user and space clients, and the id service.
- Time: the lodash `debounce` becomes a "timer armed" flag plus a `TimerFires` action. The `async`/`await` suspension of `fetchQueue` is split into dispatch and completion.
- MobX observability and the hbp-quickfire `FormStore` base class, which defines `addValue` and `registerProvidedValue`.
- Provided entries and the stored value are modelled by their instance ids. The source passes the record that `addInstance` returns to `addValue`, and `addInstance` reads the id as `value[mappingValue]`. The model assumes that `addValue` appends that record's id to `value`, and that the provided value is the injected list.
- `fetchOptions`, `setUserInput` and `loadMoreOptions` of the table store (the options dropdown), and its `columns` labels.
- `KgTable.Store.CompleteFetch`: a success entry whose `fields` is null is not modelled; an entry's `fields` is an object or absent. In the source `typeof null` is `"object"`, so the name assignment at `KgTableStore.js` line 226 throws a TypeError inside the `try`. The `catch` then gives every batched id the error `Error fetching instance <id> (<message>)`, clears `isFetching` and dequeues it. Ids settled earlier in the loop keep their new `fields` and `isFetched` and get that error as well. Nothing escapes to the caller.
- `KgTable.Store.CompleteFetch`: an error `message` that is a number, a boolean, an array or an object is not modelled; `ErrorMessage` is undefined, null or a string. The source stores `JSON.stringify` of it (`"42"`, `"true"`, `"{...}"`), a truthy error like a string's.
- `KgTable.Store.CompleteFetch`, `KgTable.Store.FetchQueue`: a queued id whose record was removed is excluded by the requirement `Resolvable`; `KgTable.Store.RemoveInstance` states when removal breaks it. In the source, dispatch then throws when it marks the missing record (line 209), after `isFetchingQueue` was set; completion throws when it updates the missing record, and again in the `catch` (line 246). Either way the returned promise is rejected with `isFetchingQueue` still true, so no later batch is ever sent.
- `InputTextMultiple.WarningMessages`: an item bound is a number or undefined (`None`); a `null` bound is not modelled. In the source a comparison with `null` compares with 0, so with `minItems` 2, `maxItems` null and three values, `3 > null` holds and line 166 reports "Number of values should be smaller than null", where an undefined `maxItems` reports nothing.
- The regular expression engine: a pattern is a string, and matching is the parameter `matches`.
- `AuthStores.AuthStore.RetrieveUserProfile`: the workspaces are kept in the order received; the `localeCompare` sort is not modelled. The intermediate "retrieving" state during the request is not a separate step.
- Keycloak script loading, `initializeKeycloak`, `authenticate` and the Sentry setup in `AuthStore.js`. The identity provider is a token value plus a log of requested redirects.
- `simplifyIdsOfLinks` and `simplifyIdIfObjectIsAMap`, which rewrite field values through the id service. The IdController is not part of this model. The field values of an instance are therefore not modelled.
- `SerializationUtils.clone`: fields are values, so cloning is the identity. More generally, the Java setters become functional updates of values, so sharing of objects between instances is not modelled.
- A Java exception in the source can leave an instance partly mutated. The model returns `Throws` and keeps no partial result.
- A type with a null `fields` or `promotedFields` map, and a scope with a null `types` list: the model takes these to be present (the source would throw).
- The orchestrators `enrichInstance`, `enrichInstances`, `enrichNeighborRecursivelyWithTypeInformation` and the `getTypesByName` overloads of `InstanceController`. Only their steps are modelled; `EnrichScope` composes the scope steps.
- `getUsers` (user search) of `Users.java`.
- The React rendering itself: markup, styles, analytics tracking of tab clicks, and the route tables.
- `Tabs` with a null instance: the source dereferences it when building the tabs, so the model takes it to be present.
- The invite mode has a tab but no case in the page's view switch, so it falls to the refusal like any unknown mode. The model states this (`InstanceView.View`) and does not model the invitation view.
- `stopPropagation` and the `preventDefault` of drag-over in `ListItem.js`: these are browser event plumbing, outside the model of which callbacks are reached.
- The WebStorage availability check and the Matomo tracking calls of the authentication store.
- `InstanceController.EnrichTypesAndFields`, `InstanceController.EnrichTypesAndSearchableFields`: `.distinct()` on fields compares them with `StructureOfField.equals`, which is not part of this model; `Dedup` takes it to be equality of the modelled parts of a field.
- `InstanceController.UserIds`, `InstanceController.EnrichAlternatives`: a null `alternatives` map or a null `users` list makes the source throw a NullPointerException; the model's types have no null there, so these cases are not covered.
- `idController.simplifyId` is not part of this model. `InstanceController.EnrichAlternatives` takes it to replace the user's id by the simplification that the `simplify` parameter gives.

## Findings

| source | as written | input that shows it | evidently intended | confidence | as-written member | corrected member |
|---|---|---|---|---|---|---|
| ui/src/Fields/Stores/InputTextMultipleStore.js:53-60 and 127-139 | The deprecated `regex` property is stored as a bare string in the rule, and `regexWarning` calls `.test` on it. | A definition `{regex: "^a$"}` without `validation`, and a value `["b"]`: `"^a$".test` is not a function, so a TypeError is thrown. | The pattern is compiled like the validation rules, and the warning is its message when a value fails it. | not executed | `InputTextMultiple.DeprecatedRegexThrows` | `InputTextMultiple.DeprecatedRegexReports` |

=== FILE: auth_store.dfy ===
/**
 * The browser's authentication store (`AuthStore`): whether the identity
 * provider accepted the user, the profile of the signed-in user, and the
 * values the views read from them (access token, workspaces, first name).
 *
 * The identity provider client (Keycloak) is a value holding the token; the
 * redirects the store asks it for are recorded, in order, in `providerCalls`.
 * The profile request is not made: its answer is an argument.
 */
module AuthStores {
  import opened Wrappers

  /** A workspace of the user: the part this model reads. */
  datatype Workspace = Workspace(name: string)

  /** The profile of the signed-in user; `workspaces` is `None` when it is not an array. */
  datatype User = User(
    givenName: Option<string>,
    name: Option<string>,
    username: Option<string>,
    workspaces: Option<seq<Workspace>>)

  /** The identity provider client once it is set up: the part this model reads. */
  datatype Keycloak = Keycloak(token: string)

  /** A redirect the store asks the identity provider for. */
  datatype ProviderCall = LoginRedirect | LogoutRedirect(redirectUri: string)

  /**
   * The answer to the profile request: a body, whose `data` may be missing;
   * a rejection with status 403; or any other failure, carrying the
   * exception's message, or the exception itself when it has none.
   */
  datatype ProfileAnswer = Profile(data: Option<User>) | Forbidden | Failed(reason: string)

  /** `accessToken`: the provider's token while authenticated, the empty string otherwise. */
  function AccessToken(authSuccess: bool, keycloak: Option<Keycloak>): (r: Outcome<string>)
    ensures !authSuccess ==> r == Done("")
    ensures authSuccess ==> (r.Done? <==> keycloak.Some?)
    ensures authSuccess && keycloak.Some? ==> r.value == keycloak.value.token
  {
    if !authSuccess then Done("")
    else if keycloak.None? then Throws
    else Done(keycloak.value.token)
  }

  /** `hasWorkspaces`: a user is loaded and their workspaces form a non-empty array. */
  predicate HasWorkspaces(user: Option<User>) {
    user.Some? && user.value.workspaces.Some? && |user.value.workspaces.value| > 0
  }

  /** `workspaces`: the user's workspaces, or none unless the user has a non-empty array of them. */
  function Workspaces(user: Option<User>): (r: seq<Workspace>)
    ensures r != [] <==> HasWorkspaces(user)
    ensures HasWorkspaces(user) ==> r == user.value.workspaces.value
  {
    if HasWorkspaces(user) then user.value.workspaces.value else []
  }

  /** A character that ends a line for a JavaScript regular expression (`.` does not match it). */
  predicate LineTerminator(c: char) {
    c == '\n' || c == '\r' || c == '\U{2028}' || c == '\U{2029}'
  }

  /** The index of the first space of `s`, if any. */
  function SpaceIndex(s: string): (r: Option<nat>)
    ensures r.None? <==> ' ' !in s
    ensures r.Some? ==> r.value < |s| && s[r.value] == ' ' && ' ' !in s[..r.value]
  {
    if s == [] then None
    else if s[0] == ' ' then Some(0)
    else
      match SpaceIndex(s[1..])
      case None => None
      case Some(i) =>
        assert s[..i + 1] == [s[0]] + s[1..][..i];
        Some(i + 1)
  }

  /**
   * The pattern `^([^ ]+) .*$` matches `name` with `p` as its group: `p` is
   * a non-empty run of non-spaces that starts the name and is followed by a
   * space, and nothing after that space ends a line.
   */
  ghost predicate PatternMatches(name: string, p: string) {
    && p != []
    && ' ' !in p
    && |p| < |name| && name[..|p|] == p && name[|p|] == ' '
    && forall c | c in name[|p| + 1..] :: !LineTerminator(c)
  }

  /** The group captured by `^([^ ]+) .*$` on `name`, when the pattern matches. */
  function FirstWord(name: string): Option<string> {
    match SpaceIndex(name)
    case None => None
    case Some(i) =>
      if i > 0 && forall c | c in name[i + 1..] :: !LineTerminator(c) then Some(name[..i]) else None
  }

  /** `FirstWord` is exactly the pattern's match: it returns `p` iff the pattern matches with group `p`. */
  lemma FirstWordIsMatch(name: string, p: string)
    ensures FirstWord(name) == Some(p) <==> PatternMatches(name, p)
  {
    if PatternMatches(name, p) {
      var i := SpaceIndex(name).value;
      assert name[|p|] == ' ';
    }
  }

  /**
   * `firstName`: the given name if it is non-empty; else, when the name is
   * non-empty, its first word when the pattern matches and the whole name
   * otherwise; else the user name if non-empty; else the empty string.
   */
  function FirstName(user: Option<User>): (r: string)
    ensures user.None? ==> r == ""
    ensures user.Some? && Truthy(user.value.givenName) ==> r == user.value.givenName.value
    ensures user.Some? && !Truthy(user.value.givenName) && Truthy(user.value.name) ==>
      r == FirstWord(user.value.name.value).GetOr(user.value.name.value)
    ensures user.Some? && !Truthy(user.value.givenName) && !Truthy(user.value.name) ==>
      r == if Truthy(user.value.username) then user.value.username.value else ""
  {
    if user.None? then ""
    else
      var u := user.value;
      if Truthy(u.givenName) then u.givenName.value
      else if Truthy(u.name) then
        match FirstWord(u.name.value)
        case Some(first) => first
        case None => u.name.value
      else if Truthy(u.username) then u.username.value
      else ""
  }

  /** Without a given name, the first name taken from the name is a prefix of it, and is the whole name or has no space. */
  lemma FirstNameFromName(user: Option<User>)
    requires user.Some? && !Truthy(user.value.givenName) && Truthy(user.value.name)
    ensures var n, r := user.value.name.value, FirstName(user);
      && r != ""
      && |r| <= |n| && n[..|r|] == r
      && (r == n || (' ' !in r && n[|r|] == ' '))
  {
    var n := user.value.name.value;
    match FirstWord(n)
    case None =>
    case Some(p) =>
      FirstWordIsMatch(n, p);
  }

  /** `data && data.data ? data.data : { workspaces: [] }`, with the workspaces made an array. */
  function LoadedUser(data: Option<User>): (u: User)
    ensures u.workspaces.Some?
    ensures data.Some? && data.value.workspaces.Some? ==> u == data.value
    ensures data.Some? && data.value.workspaces.None? ==> u == data.value.(workspaces := Some([]))
    ensures data.None? ==> u.workspaces == Some([]) && !Truthy(u.givenName) && !Truthy(u.name) && !Truthy(u.username)
  {
    var user := data.GetOr(User(None, None, None, Some([])));
    if user.workspaces.Some? then user else user.(workspaces := Some([]))
  }

  class AuthStore {
    var isUserAuthorized: bool
    var user: Option<User>
    var isRetrievingUserProfile: bool
    /** `false` in the source when there is no error. */
    var userProfileError: Option<string>
    var authError: Option<string>
    var authSuccess: bool
    var isTokenExpired: bool
    var isInitializing: bool
    var isLogout: bool
    var keycloak: Option<Keycloak>
    /** The redirects requested from the identity provider so far. */
    var providerCalls: seq<ProviderCall>

    /** A new store: not authenticated, no user, initializing. */
    constructor()
      ensures !isUserAuthorized && user.None? && !isRetrievingUserProfile && userProfileError.None?
      ensures authError.None? && !authSuccess && !isTokenExpired && isInitializing && !isLogout
      ensures keycloak.None? && providerCalls == []
    {
      isUserAuthorized := false;
      user := None;
      isRetrievingUserProfile := false;
      userProfileError := None;
      authError := None;
      authSuccess := false;
      isTokenExpired := false;
      isInitializing := true;
      isLogout := false;
      keycloak := None;
      providerCalls := [];
    }

    /**
     * `logout`: clears the authentication and the user, marks the token
     * expired, asks the provider to log out with a redirect to
     * `<origin><rootPath>/logout` and marks the store logged out.  Without a
     * provider client the call throws after the first four updates, and the
     * store is not marked logged out.
     */
    method Logout(origin: string, rootPath: string) returns (threw: bool)
      modifies this
      ensures threw <==> old(keycloak).None?
      ensures !authSuccess && isTokenExpired && !isUserAuthorized && user.None?
      ensures isLogout == (old(isLogout) || !threw)
      ensures providerCalls == old(providerCalls) + (if threw then [] else [LogoutRedirect(origin + rootPath + "/logout")])
      ensures AccessToken(authSuccess, keycloak) == Done("") && Workspaces(user) == [] && FirstName(user) == ""
      ensures isRetrievingUserProfile == old(isRetrievingUserProfile) && userProfileError == old(userProfileError)
      ensures authError == old(authError) && isInitializing == old(isInitializing) && keycloak == old(keycloak)
    {
      authSuccess := false;
      isTokenExpired := true;
      isUserAuthorized := false;
      user := None;
      if keycloak.None? {
        return true;
      }
      providerCalls := providerCalls + [LogoutRedirect(origin + rootPath + "/logout")];
      isLogout := true;
      threw := false;
    }

    /** `login`: asks the provider for the login redirect, unless already authenticated or there is no provider client. */
    method Login()
      modifies this
      ensures providerCalls == old(providerCalls) + (if !authSuccess && keycloak.Some? then [LoginRedirect] else [])
      ensures isUserAuthorized == old(isUserAuthorized) && user == old(user)
      ensures isRetrievingUserProfile == old(isRetrievingUserProfile) && userProfileError == old(userProfileError)
      ensures authError == old(authError) && authSuccess == old(authSuccess) && isTokenExpired == old(isTokenExpired)
      ensures isInitializing == old(isInitializing) && isLogout == old(isLogout) && keycloak == old(keycloak)
    {
      if !authSuccess && keycloak.Some? {
        providerCalls := providerCalls + [LoginRedirect];
      }
    }

    /**
     * `retrieveUserProfile`, from the request to its settlement: only when
     * authenticated and no user is loaded.  A profile makes the user
     * authorized and loaded; a 403 leaves them unauthorized without an
     * error; any other failure leaves them unauthorized with the error's
     * reason.  The request flag ends cleared.  Returns whether a user is
     * loaded.
     */
    method RetrieveUserProfile(answer: ProfileAnswer) returns (hasUserProfile: bool)
      modifies this
      ensures hasUserProfile <==> user.Some?
      ensures !(old(authSuccess) && old(user).None?) ==>
        isUserAuthorized == old(isUserAuthorized) && user == old(user)
        && isRetrievingUserProfile == old(isRetrievingUserProfile) && userProfileError == old(userProfileError)
      ensures old(authSuccess) && old(user).None? ==>
        && !isRetrievingUserProfile
        && (isUserAuthorized <==> answer.Profile?)
        && (answer.Profile? ==> user == Some(LoadedUser(answer.data)) && userProfileError.None?)
        && (answer.Forbidden? ==> user.None? && userProfileError.None?)
        && (answer.Failed? ==> user.None? && userProfileError == Some(answer.reason))
      ensures authError == old(authError) && authSuccess == old(authSuccess) && isTokenExpired == old(isTokenExpired)
      ensures isInitializing == old(isInitializing) && isLogout == old(isLogout) && keycloak == old(keycloak)
      ensures providerCalls == old(providerCalls)
    {
      if authSuccess && user.None? {
        userProfileError := None;
        isRetrievingUserProfile := true;
        match answer {
          case Profile(data) =>
            isUserAuthorized := true;
            user := Some(LoadedUser(data));
            isRetrievingUserProfile := false;
          case Forbidden =>
            isUserAuthorized := false;
            isRetrievingUserProfile := false;
          case Failed(reason) =>
            isUserAuthorized := false;
            userProfileError := Some(reason);
            isRetrievingUserProfile := false;
        }
      }
      hasUserProfile := user.Some?;
    }
  }
}

=== FILE: delete_instance.dfy ===
/**
 * The delete section of the instance's manage page (`DeleteInstance`): the
 * release status decides whether the instance may be deleted, and the
 * application store's deletion progress decides the error dialog and the
 * spinner.
 */
module DeleteInstanceView {
  import opened Wrappers
  import opened Instances

  /** The release status of the instance as the status store holds it. */
  datatype Status = Status(hasFetchError: bool, fetchError: string, isFetched: bool, data: Option<string>)

  /**
   * What the `Delete` part shows: the fetch error with a retry, the
   * retrieving notice, or the status explanation with the delete button.
   */
  datatype DeletePanel =
    | FetchFailed(message: string)
    | Retrieving
    | Ready(releasedExplanation: bool, buttonVariant: string, buttonDisabled: bool)

  /** The status that allows deletion. */
  const Unreleased := "UNRELEASED"

  /**
   * `Delete`: a fetch error comes first and offers a retry; a missing or
   * unfetched status shows the retrieving notice; otherwise the button is
   * disabled, grey and explained as released iff the status is not
   * unreleased, and red with the irreversibility warning otherwise.
   */
  function Delete(status: Option<Status>): (r: DeletePanel)
    ensures r.FetchFailed? <==> status.Some? && status.value.hasFetchError
    ensures r.FetchFailed? ==> r.message == status.value.fetchError
    ensures r.Retrieving? <==> status.None? || (!status.value.hasFetchError && !status.value.isFetched)
    ensures r.Ready? ==> status.Some? && !status.value.hasFetchError && status.value.isFetched
    ensures r.Ready? ==> (r.buttonDisabled <==> status.value.data != Some(Unreleased))
    ensures r.Ready? ==> r.releasedExplanation == r.buttonDisabled
    ensures r.Ready? ==> r.buttonVariant == if r.buttonDisabled then "secondary" else "danger"
  {
    if status.Some? && status.value.hasFetchError then FetchFailed(status.value.fetchError)
    else if status.None? || !status.value.isFetched then Retrieving
    else
      var released := status.value.data != Some(Unreleased);
      Ready(released, if released then "secondary" else "danger", released)
  }

  /** The deletion progress of the application store. */
  datatype Deletion = Deletion(deleteInstanceError: Option<string>, isDeletingInstance: bool, instanceToDelete: Option<string>)

  /** The whole section: the delete part, the error dialog and the spinner, each absent or present. */
  datatype Page = Page(panel: Option<DeletePanel>, errorDialog: Option<string>, spinner: Option<string>)

  /**
   * `DeleteInstance`: the delete part only with the delete permission; the
   * error dialog with the deletion error; the spinner, naming the instance
   * being deleted, only without an error while a deletion of a named
   * instance is in progress.
   */
  function DeleteInstance(instance: Instance, status: Option<Status>, deletion: Deletion): (page: Page)
    ensures page.panel.Some? <==> instance.permissions.canDelete
    ensures page.panel.Some? ==> page.panel.value == Delete(status)
    ensures page.errorDialog.Some? <==> Truthy(deletion.deleteInstanceError)
    ensures page.errorDialog.Some? ==> page.errorDialog == deletion.deleteInstanceError
    ensures page.spinner.Some? <==>
      !Truthy(deletion.deleteInstanceError) && deletion.isDeletingInstance && Truthy(deletion.instanceToDelete)
    ensures page.spinner.Some? ==> page.spinner.value == "Deleting instance " + deletion.instanceToDelete.value + "..."
  {
    Page(
      if instance.permissions.canDelete then Some(Delete(status)) else None,
      if Truthy(deletion.deleteInstanceError) then deletion.deleteInstanceError else None,
      if !Truthy(deletion.deleteInstanceError) && deletion.isDeletingInstance && Truthy(deletion.instanceToDelete)
      then Some("Deleting instance " + deletion.instanceToDelete.value + "...") else None)
  }

  /** The delete button can be pressed on the page. */
  predicate CanPressDelete(page: Page) {
    page.panel.Some? && page.panel.value.Ready? && !page.panel.value.buttonDisabled
  }

  /**
   * Deletion is offered only to a user with the delete permission, for an
   * instance whose status was fetched without error and is unreleased; and
   * in that case it is always offered.
   */
  lemma DeleteOnlyUnreleased(instance: Instance, status: Option<Status>, deletion: Deletion)
    ensures CanPressDelete(DeleteInstance(instance, status, deletion)) <==>
      && instance.permissions.canDelete
      && status.Some? && !status.value.hasFetchError && status.value.isFetched
      && status.value.data == Some(Unreleased)
  {
  }

  /** The error dialog and the spinner never show together. */
  lemma DialogExcludesSpinner(instance: Instance, status: Option<Status>, deletion: Deletion)
    ensures var page := DeleteInstance(instance, status, deletion);
      !(page.errorDialog.Some? && page.spinner.Some?)
  {
  }
}

=== FILE: helpers.dfy ===
/**
 * The editor backend's shared helpers (`Helpers.java`) and the value types
 * they work on: the structure of a type and of its fields as the workspace
 * service reports them, wrapped in a core result whose data may be null.
 *
 * Java references that may be null are `Option`s; a Java map whose values may
 * be null is a `map` to `Option`s.  Where the source iterates over a
 * `HashMap`, whose order is not specified, the order is an explicit argument
 * (`order`, an enumeration of the map's keys) and every result is stated for
 * every such order.
 */
module Helpers {
  import opened Wrappers

  /** The structure of one field of a type (`StructureOfField`): the part this model reads. */
  datatype StructureOfField = StructureOfField(
    fullyQualifiedName: string,
    widget: Option<string>,
    displayLabel: Option<string>)

  /** The structure of a type (`StructureOfType`); `fields` are the values of its field map, `displayLabel` is its `label`. */
  datatype StructureOfType = StructureOfType(
    name: string,
    color: Option<string>,
    displayLabel: Option<string>,
    labelField: Option<string>,
    fields: seq<StructureOfField>,
    promotedFields: seq<string>)

  /** Type results keyed by type name; a `None` value is a null entry of the Java map. */
  type TypeResults = map<string, Option<CoreResult<StructureOfType>>>

  /** `order` lists every key of `m` exactly once: one possible iteration order of a `HashMap`. */
  predicate Enumerates<K(==,!new), V>(order: seq<K>, m: map<K, V>) {
    NoDup(order) && (forall k | k in m :: k in order) && (forall k | k in order :: k in m)
  }

  /** `Map.get`: the entry, or null when the key is absent. */
  function Get<V>(m: map<string, Option<V>>, k: string): (r: Option<V>)
    ensures k !in m ==> r.None?
    ensures k in m ==> r == m[k]
  {
    if k in m then m[k] else None
  }

  /** The name of the type a result holds, when the result and its data are both non-null. */
  function NameAt(results: TypeResults, k: string): Option<string>
    requires k in results
  {
    match results[k]
    case None => None
    case Some(res) => if res.data.Some? then Some(res.data.value.name) else None
  }

  /** The names of the non-null types of the results, in iteration order. */
  function Names(results: TypeResults, order: seq<string>): seq<string>
    requires forall k | k in order :: k in results
  {
    if order == [] then []
    else (if NameAt(results, order[0]).Some? then [NameAt(results, order[0]).value] else [])
         + Names(results, order[1..])
  }

  /** A name listed in `Names` is the name of some listed result. */
  lemma {:induction false} NamesMembers(results: TypeResults, order: seq<string>)
    requires forall k | k in order :: k in results
    ensures forall n :: n in Names(results, order) <==> exists k | k in order :: NameAt(results, k) == Some(n)
  {
    if order != [] {
      NamesMembers(results, order[1..]);
      forall n | exists k | k in order :: NameAt(results, k) == Some(n)
        ensures n in Names(results, order)
      {
        var k :| k in order && NameAt(results, k) == Some(n);
        if k != order[0] {
          assert k in order[1..];
        }
      }
    }
  }

  /** A sequence with a new head is duplicate-free iff its tail is and the head is new. */
  lemma NoDupCons<T>(x: T, s: seq<T>)
    ensures NoDup([x] + s) <==> x !in s && NoDup(s)
  {
    if x in s {
      var j :| 0 <= j < |s| && s[j] == x;
      assert ([x] + s)[0] == ([x] + s)[j + 1];
    } else if NoDup([x] + s) {
      forall i, j | 0 <= i < j < |s|
        ensures s[i] != s[j]
      {
        assert ([x] + s)[i + 1] == s[i] && ([x] + s)[j + 1] == s[j];
      }
    }
  }

  /**
   * `getTypesByName`: the non-null types of the results keyed by their own
   * names.  Reading the data of a null result throws (`KGCoreResult::getData`
   * on null), and two types with one name make `Collectors.toMap` throw.
   */
  function TypesByName(results: TypeResults, order: seq<string>): (r: Outcome<map<string, StructureOfType>>)
    requires Enumerates(order, results)
    ensures r.Throws? <==>
      (exists k | k in results :: results[k].None?) || !NoDup(Names(results, order))
    ensures r.Done? ==> forall n :: n in r.value <==> exists k | k in results :: NameAt(results, k) == Some(n)
    ensures r.Done? ==> forall n | n in r.value ::
      r.value[n].name == n && exists k | k in results :: results[k] == Some(CoreResult(Some(r.value[n])))
  {
    CollectSpec(results, order);
    NamesMembers(results, order);
    Collect(results, order)
  }

  /** The collection of `TypesByName`, one result at a time along `order`. */
  function Collect(results: TypeResults, order: seq<string>): Outcome<map<string, StructureOfType>>
    requires forall k | k in order :: k in results
  {
    if order == [] then Done(map[])
    else
      match results[order[0]]
      case None => Throws
      case Some(res) =>
        match Collect(results, order[1..])
        case Throws => Throws
        case Done(m) =>
          match res.data
          case None => Done(m)
          case Some(t) => if t.name in m then Throws else Done(m[t.name := t])
  }

  /** `Names` of a non-empty order: the head's name, if any, then the rest. */
  lemma NamesHead(results: TypeResults, order: seq<string>)
    requires order != [] && forall k | k in order :: k in results
    ensures NoDup(Names(results, order)) <==>
      NoDup(Names(results, order[1..])) &&
      (NameAt(results, order[0]).Some? ==> NameAt(results, order[0]).value !in Names(results, order[1..]))
  {
    if NameAt(results, order[0]).Some? {
      NoDupCons(NameAt(results, order[0]).value, Names(results, order[1..]));
    } else {
      assert Names(results, order) == Names(results, order[1..]);
    }
  }

  /** What `Collect` computes: it throws on a null result or a repeated name, and otherwise keys each type by its name. */
  lemma {:induction false} CollectSpec(results: TypeResults, order: seq<string>)
    requires forall k | k in order :: k in results
    ensures var r := Collect(results, order);
      && (r.Throws? <==> (exists k | k in order :: results[k].None?) || !NoDup(Names(results, order)))
      && (r.Done? ==> forall n :: n in r.value <==> n in Names(results, order))
      && (r.Done? ==> forall n | n in r.value ::
            r.value[n].name == n && exists k | k in order :: results[k] == Some(CoreResult(Some(r.value[n]))))
  {
    if order != [] {
      var k := order[0];
      CollectSpec(results, order[1..]);
      NamesHead(results, order);
      assert forall k' | k' in order[1..] :: k' in order;
      assert forall k' | k' in order :: k' == k || k' in order[1..];
    }
  }

  /** The result keeps exactly the types of the non-null results, each under its own name. */
  lemma TypesByNameKeepsNonNull(results: TypeResults, order: seq<string>, k: string)
    requires Enumerates(order, results) && k in results
    requires TypesByName(results, order).Done?
    ensures results[k].Some?
    ensures results[k].value.data.Some? ==> var t := results[k].value.data.value;
      t.name in TypesByName(results, order).value && TypesByName(results, order).value[t.name] == t
  {
    var m := TypesByName(results, order).value;
    if results[k].value.data.Some? {
      var t := results[k].value.data.value;
      assert NameAt(results, k) == Some(t.name);
      assert t.name in m;
      var k' :| k' in results && results[k'] == Some(CoreResult(Some(m[t.name])));
      if k' != k {
        NamesDistinctKeys(results, order, k, k');
      }
    }
  }

  /** When `Names` has no duplicate, two keys with one type name are the same key. */
  lemma {:induction false} NamesDistinctKeys(results: TypeResults, order: seq<string>, k1: string, k2: string)
    requires forall k | k in order :: k in results
    requires NoDup(order) && NoDup(Names(results, order))
    requires k1 in order && k2 in order && NameAt(results, k1).Some?
    requires NameAt(results, k1) == NameAt(results, k2)
    ensures k1 == k2
  {
    var n := NameAt(results, k1).value;
    NamesHead(results, order);
    NamesMembers(results, order[1..]);
    if k1 != order[0] && k2 != order[0] {
      assert k1 in order[1..] && k2 in order[1..];
      assert NoDup(order[1..]);
      NamesDistinctKeys(results, order[1..], k1, k2);
    }
  }

  /** `isNestedField`: the field's widget is present and is "Nested". */
  function IsNestedField(field: StructureOfField): (r: bool)
    ensures r <==> field.widget == Some("Nested")
  {
    field.widget.Some? && field.widget.value == "Nested"
  }

  /** `a.equals(b)` called on a reference that may be null: on null it throws. */
  function StringEquals(a: Option<string>, b: string): Outcome<bool> {
    if a.None? then Throws else Done(a.value == b)
  }

  /**
   * The null check makes the nested-field test total: for a field without a
   * widget it is false where calling `equals` directly would throw, and
   * otherwise it agrees with `equals`.
   */
  lemma NestedFieldNullSafe(field: StructureOfField)
    ensures field.widget.None? ==> !IsNestedField(field) && StringEquals(field.widget, "Nested").Throws?
    ensures field.widget.Some? ==> StringEquals(field.widget, "Nested") == Done(IsNestedField(field))
  {
  }
}

=== FILE: input_text_multiple.dfy ===
/**
 * The store of a multi-value text field (`InputTextMultipleStore`): an ordered
 * list of distinct strings edited by insert, delete, move and remove-last, a
 * baseline (`initialValue`) with reset and change detection, a "reset to null"
 * flag, and the warnings shown for the list (item count, value length, the
 * first failing validation pattern).
 *
 * The list operations are functions on sequences with their properties; the
 * class `InputTextMultipleStore` holds the mutable state and its methods are
 * proved to perform the matching `FieldState` transitions.  Values are the
 * strings the text inputs produce; a regular expression is a pattern string
 * and matching is a parameter `matches(pattern, value)`.
 */
module InputTextMultiple {
  import opened Wrappers

  /** What `returnValue` sends when the list was emptied by a reset to null. */
  const ResetValueUrl: string := "https://core.kg.ebrains.eu/vocab/resetValue"

  /** The message of the single rule built from the deprecated `regex` property. */
  const DeprecatedRegexMessage: string := "this is not a valid value"

  // ------------------------------------------------------------ list editing

  /** `Array.prototype.indexOf`: the first index of `v`, or -1. */
  function IndexOf(s: seq<string>, v: string): (i: int)
    ensures -1 <= i < |s|
    ensures i == -1 <==> v !in s
    ensures 0 <= i ==> s[i] == v && v !in s[..i]
  {
    if s == [] then -1
    else if s[0] == v then 0
    else
      var j := IndexOf(s[1..], v);
      assert j >= 0 ==> s[..j + 1] == [s[0]] + s[1..][..j];
      if j == -1 then -1 else j + 1
  }

  /** Where `splice(index, 0, v)` inserts into a list of length `len`: negative indices count from the end. */
  function SpliceStart(len: nat, index: int): (k: nat)
    ensures k <= len
    ensures 0 <= index <= len ==> k == index
  {
    if index < 0 then (if len + index < 0 then 0 else len + index)
    else if index > len then len
    else index
  }

  /** The position `insertValue` puts a new value at: the splice start, or the end without an index (or with -1). */
  function InsertPosition(len: nat, index: Option<int>): (k: nat)
    ensures k <= len
  {
    if index.Some? && index.value != -1 then SpliceStart(len, index.value) else len
  }

  /** `deleteValue`: every element equal to `v` is filtered out; the others keep their order. */
  function Delete(s: seq<string>, v: string): (r: seq<string>)
    ensures forall x :: x in r <==> x in s && x != v
    ensures |r| <= |s|
  {
    if s == [] then []
    else
      assert forall x :: x in s <==> x == s[0] || x in s[1..];
      (if s[0] == v then [] else [s[0]]) + Delete(s[1..], v)
  }

  /**
   * `insertValue`: an empty value or one already in the list changes nothing;
   * otherwise the value is inserted at `InsertPosition` and nothing else moves
   * out of order.
   */
  function Insert(s: seq<string>, v: string, index: Option<int>): (r: seq<string>)
    ensures v == "" || v in s ==> r == s
    ensures v != "" && v !in s ==>
      && |r| == |s| + 1
      && r[InsertPosition(|s|, index)] == v
      && (forall i | 0 <= i < InsertPosition(|s|, index) :: r[i] == s[i])
      && (forall i | InsertPosition(|s|, index) < i < |r| :: r[i] == s[i - 1])
      && Delete(r, v) == s
      && multiset(r) == multiset(s) + multiset{v}
    ensures NoDup(s) ==> NoDup(r)
  {
    if v != "" && IndexOf(s, v) == -1 then
      var k := InsertPosition(|s|, index);
      SpliceFacts(s, k, v);
      s[..k] + [v] + s[k..]
    else s
  }

  /** What splicing a new value `v` in at `k` does. */
  lemma SpliceFacts(s: seq<string>, k: nat, v: string)
    requires k <= |s| && v !in s
    ensures var r := s[..k] + [v] + s[k..];
      && |r| == |s| + 1 && r[k] == v
      && (forall i | 0 <= i < k :: r[i] == s[i])
      && (forall i | k < i < |r| :: r[i] == s[i - 1])
      && Delete(r, v) == s
      && multiset(r) == multiset(s) + multiset{v}
      && (NoDup(s) ==> NoDup(r))
  {
    SpliceDelete(s, k, v);
    SpliceMultiset(s, k, v);
    NoDupInsert(s, k, v);
  }

  lemma SpliceDelete(s: seq<string>, k: nat, v: string)
    requires k <= |s| && v !in s
    ensures Delete(s[..k] + [v] + s[k..], v) == s
  {
    var a, b := s[..k], s[k..];
    assert a + [v] + b == a + ([v] + b);
    DeleteSplit(a, [v] + b, v);
    DeleteAbsent(a, v);
    DeleteHead(b, v);
    assert a + b == s;
  }

  lemma DeleteHead(b: seq<string>, v: string)
    requires v !in b
    ensures Delete([v] + b, v) == b
  {
    assert ([v] + b)[1..] == b;
    DeleteAbsent(b, v);
  }

  lemma SpliceMultiset(s: seq<string>, k: nat, v: string)
    requires k <= |s|
    ensures multiset(s[..k] + [v] + s[k..]) == multiset(s) + multiset{v}
  {
    assert s[..k] + s[k..] == s;
    calc {
      multiset(s[..k] + [v] + s[k..]);
      multiset(s[..k]) + multiset{v} + multiset(s[k..]);
      multiset(s[..k] + s[k..]) + multiset{v};
    }
  }

  /** `moveValueAfter`: delete the value, then insert it at the index of `after` in the shortened list. */
  function MoveAfter(s: seq<string>, v: string, after: string): (r: seq<string>)
    ensures v == "" ==> r == s
    ensures v != "" ==> Delete(r, v) == Delete(s, v) && v in r && |r| == |Delete(s, v)| + 1
    ensures v != "" ==> multiset(r) == multiset(Delete(s, v)) + multiset{v}
    ensures v != "" && after != v && after in s ==>
      var k := IndexOf(Delete(s, v), after); r[k] == v && r[k + 1] == after
    ensures v != "" && (after == v || after !in s) ==> r == Delete(s, v) + [v]
  {
    if v == "" then s
    else
      var shorter := Delete(s, v);
      MovedFacts(s, v, after);
      Insert(shorter, v, Some(IndexOf(shorter, after)))
  }

  /** What inserting the value back at `after`'s index of the shortened list gives. */
  lemma MovedFacts(s: seq<string>, v: string, after: string)
    requires v != ""
    ensures var shorter := Delete(s, v);
      var r := Insert(shorter, v, Some(IndexOf(shorter, after)));
      && Delete(r, v) == shorter && v in r && |r| == |shorter| + 1
      && multiset(r) == multiset(shorter) + multiset{v}
      && (after != v && after in s ==>
            var k := IndexOf(shorter, after); r[k] == v && r[k + 1] == after)
      && (after == v || after !in s ==> r == shorter + [v])
  {
    var shorter := Delete(s, v);
    var k := IndexOf(shorter, after);
    var r := Insert(shorter, v, Some(k));
    assert v !in shorter;
    if after != v && after in s {
      assert after in shorter;
      assert InsertPosition(|shorter|, Some(k)) == k;
      assert r[k + 1] == shorter[k];
    }
    if after == v || after !in s {
      assert k == -1;
      assert InsertPosition(|shorter|, Some(k)) == |shorter|;
      SnocParts(r, shorter, v);
    }
  }

  /** A list one longer than `s` that agrees with `s` and ends with `v` is `s + [v]`. */
  lemma SnocParts(r: seq<string>, s: seq<string>, v: string)
    requires |r| == |s| + 1 && r[|s|] == v
    requires forall i | 0 <= i < |s| :: r[i] == s[i]
    ensures r == s + [v]
  {
  }

  /** `removeLastValue`: delete (every occurrence of) the last value; nothing on an empty list. */
  function RemoveLast(s: seq<string>): (r: seq<string>)
    ensures s == [] ==> r == []
    ensures s != [] ==> s[|s| - 1] !in r && |r| < |s|
    ensures s != [] ==> forall x :: x in r <==> x in s && x != s[|s| - 1]
  {
    if |s| > 0 then
      assert s[|s| - 1] in s;
      DeleteShrinks(s, s[|s| - 1]);
      Delete(s, s[|s| - 1])
    else s
  }

  // ------------------------------------------------------- list facts

  lemma {:induction false} DeleteSplit(a: seq<string>, b: seq<string>, v: string)
    ensures Delete(a + b, v) == Delete(a, v) + Delete(b, v)
  {
    if a != [] {
      assert (a + b)[1..] == a[1..] + b;
      DeleteSplit(a[1..], b, v);
    } else {
      assert a + b == b;
    }
  }

  lemma {:induction false} DeleteAbsent(s: seq<string>, v: string)
    requires v !in s
    ensures Delete(s, v) == s
  {
    if s != [] {
      DeleteAbsent(s[1..], v);
    }
  }

  lemma {:induction false} DeleteShrinks(s: seq<string>, v: string)
    requires v in s
    ensures |Delete(s, v)| < |s|
  {
    if s[0] != v {
      DeleteShrinks(s[1..], v);
    }
  }

  /** Deleting removes every copy of `v` and no copy of anything else. */
  lemma {:induction false} DeleteMultiset(s: seq<string>, v: string)
    ensures forall x :: multiset(Delete(s, v))[x] == if x == v then 0 else multiset(s)[x]
  {
    if s != [] {
      DeleteMultiset(s[1..], v);
      assert s == [s[0]] + s[1..];
      assert multiset(s) == multiset{s[0]} + multiset(s[1..]);
    }
  }

  lemma {:induction false} DeleteNoDup(s: seq<string>, v: string)
    requires NoDup(s)
    ensures NoDup(Delete(s, v))
  {
    if s != [] {
      assert NoDup(s[1..]);
      DeleteNoDup(s[1..], v);
      assert s[0] !in s[1..];
    }
  }

  lemma NoDupInsert(s: seq<string>, k: nat, v: string)
    requires k <= |s| && v !in s
    ensures NoDup(s) ==> NoDup(s[..k] + [v] + s[k..])
  {
    var r := s[..k] + [v] + s[k..];
    if NoDup(s) {
      forall i, j | 0 <= i < j < |r|
        ensures r[i] != r[j]
      {
        if i != k && j != k {
          var i' := if i < k then i else i - 1;
          var j' := if j < k then j else j - 1;
          assert r[i] == s[i'] && r[j] == s[j'];
        } else if i == k {
          assert r[j] in s;
        } else {
          assert r[i] in s;
        }
      }
    }
  }

  /**
   * Moving a value that occurs once is a permutation of the list, and moving
   * within a list without duplicates keeps it without duplicates.
   */
  lemma MoveAfterPermutes(s: seq<string>, v: string, after: string)
    requires v != "" && multiset(s)[v] == 1
    ensures multiset(MoveAfter(s, v, after)) == multiset(s)
  {
    DeleteRestores(s, v);
  }

  /** Deleting a value that occurs once and adding it back gives the same multiset. */
  lemma DeleteRestores(s: seq<string>, v: string)
    requires multiset(s)[v] == 1
    ensures multiset(Delete(s, v)) + multiset{v} == multiset(s)
  {
    DeleteMultiset(s, v);
    var m := multiset(Delete(s, v)) + multiset{v};
    forall x
      ensures m[x] == multiset(s)[x]
    {
      if x == v {
        assert m[x] == 0 + 1;
      } else {
        assert m[x] == multiset(Delete(s, v))[x];
      }
    }
    assert m == multiset(s);
  }

  lemma MoveAfterNoDup(s: seq<string>, v: string, after: string)
    requires NoDup(s)
    ensures NoDup(MoveAfter(s, v, after))
  {
    DeleteNoDup(s, v);
  }

  /** In a list without duplicates, removing the last value drops exactly the last element. */
  lemma RemoveLastDropsLast(s: seq<string>)
    requires NoDup(s) && s != []
    ensures RemoveLast(s) == s[..|s| - 1]
  {
    var init := s[..|s| - 1];
    var last := s[|s| - 1];
    assert s == init + [last];
    assert last !in init;
    DeleteSplit(init, [last], last);
    DeleteAbsent(init, last);
  }

  // ------------------------------------------------------ change detection

  /** `hasChanged` as the source compares: the lengths differ, or some position holds another value. */
  function Changed(value: seq<string>, initial: seq<string>): (r: bool)
    ensures r <==> value != initial
  {
    var differs := |value| != |initial| || exists i | 0 <= i < |value| :: value[i] != initial[i];
    assert !differs ==> value == initial;
    differs
  }

  /** What `updateValue` accepts: an array, a single non-null value, or null/undefined. */
  datatype Input = Many(items: seq<string>) | One(item: string) | Absent

  /** The list `updateValue` makes of its input. */
  function Normalize(input: Input): (r: seq<string>)
    ensures input.Many? ==> r == input.items
    ensures input.One? ==> r == [input.item]
    ensures input.Absent? ==> r == []
  {
    match input
    case Many(items) => items
    case One(item) => [item]
    case Absent => []
  }

  /** What `returnValue` yields: the reset sentinel, or the list. */
  datatype Returned = ResetSentinel | Values(items: seq<string>) {
    function Url(): Option<string> {
      if ResetSentinel? then Some(ResetValueUrl) else None
    }
  }

  /** The mutable part of the store. */
  datatype FieldState = FieldState(value: seq<string>, initialValue: seq<string>, returnAsNull: bool) {

    function HasChanged(): bool {
      Changed(value, initialValue)
    }

    /** `returnValue`: the reset sentinel when the list is empty after a reset to null, else the list. */
    function ReturnValue(): (r: Returned)
      ensures r.ResetSentinel? <==> value == [] && returnAsNull
      ensures r.Values? ==> r.items == value
    {
      if |value| == 0 && returnAsNull then ResetSentinel else Values(value)
    }

    function InsertValue(v: string, index: Option<int>): FieldState {
      this.(value := Insert(value, v, index))
    }

    function DeleteValue(v: string): FieldState {
      this.(value := Delete(value, v))
    }

    function MoveValueAfter(v: string, after: string): FieldState {
      this.(value := MoveAfter(value, v, after))
    }

    function RemoveLastValue(): FieldState {
      this.(value := RemoveLast(value))
    }

    /**
     * `setValues`: null or undefined empties the list and marks it reset to
     * null; an empty array is ignored while so marked; any other array
     * replaces the list and clears the mark.
     */
    function SetValues(values: Option<seq<string>>): (r: FieldState)
      ensures r.initialValue == initialValue
      ensures values.None? ==> r.value == [] && r.returnAsNull
      ensures values.Some? && values.value == [] && returnAsNull ==> r == this
      ensures values.Some? && (values.value != [] || !returnAsNull) ==>
        r.value == values.value && !r.returnAsNull
    {
      match values
      case Some(vs) =>
        if |vs| > 0 || !returnAsNull then this.(returnAsNull := false, value := vs) else this
      case None => this.(returnAsNull := true, value := [])
    }

    /** `updateValue`: the normalised input becomes both the baseline and the list. */
    function UpdateValue(input: Input): (r: FieldState)
      ensures r.value == Normalize(input) && !r.HasChanged() && !r.returnAsNull
    {
      var values := Normalize(input);
      FieldState(values, values, false)
    }

    /** `reset`: back to a copy of the baseline. */
    function Reset(): (r: FieldState)
      ensures r.initialValue == initialValue && !r.HasChanged() && !r.returnAsNull
    {
      this.(returnAsNull := false, value := initialValue)
    }
  }

  /** After `removeAllValues` the field returns the reset sentinel, and an empty `setValues` does not undo it. */
  lemma ResetToNullSticks(s: FieldState)
    ensures s.SetValues(None).ReturnValue() == ResetSentinel
    ensures s.SetValues(None).SetValues(Some([])).ReturnValue() == ResetSentinel
  {
  }

  // --------------------------------------------------------------- warnings

  /** A validation rule as the field definition gives it. */
  datatype ValidationRule = ValidationRule(regex: string, errorMessage: Option<string>)

  /** A compiled rule: a pattern and the message to show when a value fails it. */
  datatype Rule = Rule(pattern: string, errorMessage: Option<string>)

  /** The field definition's limits and rules; a `None` limit is absent. */
  datatype Config = Config(
    isRequired: bool,
    maxLength: Option<nat>,
    minItems: Option<nat>,
    maxItems: Option<nat>,
    rules: seq<Rule>)

  /** JavaScript truthiness of an optional number: absent and 0 are falsy. */
  predicate Positive(n: Option<nat>) {
    n.Some? && n.value > 0
  }

  /** `count < limit` in JavaScript, where a comparison with undefined is false. */
  predicate Below(count: nat, limit: Option<nat>) {
    limit.Some? && count < limit.value
  }

  /** `count > limit`, false against undefined. */
  predicate Above(count: nat, limit: Option<nat>) {
    limit.Some? && count > limit.value
  }

  /** Whether the deprecated single `regex` property is used: it is set and no validation rules are. */
  predicate UsesDeprecatedRegex(validation: Option<seq<ValidationRule>>, regex: Option<string>) {
    Truthy(regex) && !(validation.Some? && |validation.value| > 0)
  }

  /**
   * The rules of the field, with the deprecated `regex` compiled like the
   * validation rules are (see the findings: the source keeps it a string).
   */
  function RegexRules(validation: Option<seq<ValidationRule>>, regex: Option<string>): (rules: seq<Rule>)
    ensures UsesDeprecatedRegex(validation, regex) ==> rules == [Rule(regex.value, Some(DeprecatedRegexMessage))]
    ensures !UsesDeprecatedRegex(validation, regex) && validation.Some? ==>
      |rules| == |validation.value| && forall i | 0 <= i < |rules| ::
        rules[i] == Rule(validation.value[i].regex, validation.value[i].errorMessage)
    ensures !UsesDeprecatedRegex(validation, regex) && validation.None? ==> rules == []
  {
    if UsesDeprecatedRegex(validation, regex) then [Rule(regex.value, Some(DeprecatedRegexMessage))]
    else if validation.Some? then
      seq(|validation.value|, i requires 0 <= i < |validation.value| =>
        Rule(validation.value[i].regex, validation.value[i].errorMessage))
    else []
  }

  /** Some value of the list fails the rule's pattern. */
  predicate Fails(rule: Rule, value: seq<string>, matches: (string, string) -> bool) {
    exists v | v in value :: !matches(rule.pattern, v)
  }

  /**
   * `regexWarning`: the rules are reduced in order, and a rule is only looked
   * at while the message so far is falsy; a rule some value fails sets the
   * message to its own (possibly missing or empty) error message.
   */
  function RegexWarning(rules: seq<Rule>, value: seq<string>, matches: (string, string) -> bool): Option<string> {
    if rules == [] then None
    else
      var message := RegexWarning(rules[..|rules| - 1], value, matches);
      var rule := rules[|rules| - 1];
      if !Truthy(message) && Fails(rule, value, matches) then rule.errorMessage else message
  }

  /** A rule that produces a visible warning: some value fails it and its message is non-empty. */
  predicate Reports(rule: Rule, value: seq<string>, matches: (string, string) -> bool) {
    Truthy(rule.errorMessage) && Fails(rule, value, matches)
  }

  /**
   * The warning is the message of the first reporting rule, in rule order,
   * and there is a (truthy) warning exactly when some rule reports.
   */
  lemma {:induction false} RegexWarningIsFirstReport(rules: seq<Rule>, value: seq<string>, matches: (string, string) -> bool)
    ensures Truthy(RegexWarning(rules, value, matches)) <==>
      exists i | 0 <= i < |rules| :: Reports(rules[i], value, matches)
    ensures forall i | 0 <= i < |rules| && Reports(rules[i], value, matches) &&
        (forall j | 0 <= j < i :: !Reports(rules[j], value, matches)) ::
      RegexWarning(rules, value, matches) == rules[i].errorMessage
  {
    if rules != [] {
      var init := rules[..|rules| - 1];
      RegexWarningIsFirstReport(init, value, matches);
      assert forall i | 0 <= i < |init| :: init[i] == rules[i];
      if exists i | 0 <= i < |rules| :: Reports(rules[i], value, matches) {
        var i :| 0 <= i < |rules| && Reports(rules[i], value, matches);
        if i < |init| {
          assert Reports(init[i], value, matches);
        }
      }
    }
  }

  /** The UTF-16 code units of one character: two outside the Basic Multilingual Plane, one inside it. */
  function CodeUnits(c: char): nat {
    if c as int >= 0x1_0000 then 2 else 1
  }

  /** JavaScript's `length` of a string: the number of its UTF-16 code units. */
  function Utf16Length(v: string): (n: nat)
    ensures |v| <= n <= 2 * |v|
  {
    if v == [] then 0 else Utf16Length(v[..|v| - 1]) + CodeUnits(v[|v| - 1])
  }

  /** The length in code units is the number of characters exactly when no character lies outside the Basic Multilingual Plane. */
  lemma {:induction false} Utf16LengthOfBmp(v: string)
    ensures Utf16Length(v) == |v| <==> forall i | 0 <= i < |v| :: v[i] as int < 0x1_0000
  {
    if v != [] {
      var init := v[..|v| - 1];
      Utf16LengthOfBmp(init);
      assert forall i | 0 <= i < |init| :: init[i] == v[i];
    }
  }

  /** `val.length > this.maxLength`, the length counted in code units. */
  predicate TooLong(v: string, maxLength: nat) {
    Utf16Length(v) > maxLength
  }

  /** Every message of `warningMessages`, by key. */
  datatype Messages = Messages(numberOfItems: Option<string>, maxValues: Option<string>, regex: Option<string>)

  function Digit(d: nat): char
    requires d < 10
  {
    "0123456789"[d]
  }

  /** Decimal text of a number, as a template literal prints it. */
  function NatToString(n: nat): (s: string)
    ensures |s| >= 1 && forall c | c in s :: '0' <= c <= '9'
  {
    if n < 10 then [Digit(n)] else NatToString(n / 10) + [Digit(n % 10)]
  }

  /** `requiredValidationWarning`. */
  predicate RequiredValidationWarning(c: Config, value: seq<string>) {
    c.isRequired && |value| == 0
  }

  /** The item-count message of `warningMessages` for a changed list of `n` values. */
  function NumberOfItemsMessage(c: Config, n: nat): Option<string> {
    if !(Positive(c.minItems) || Positive(c.maxItems)) then None
    else if Positive(c.minItems) && Positive(c.maxItems) then
      if n < c.minItems.value || n > c.maxItems.value then
        Some("Number of values should be between " + NatToString(c.minItems.value)
             + " and " + NatToString(c.maxItems.value))
      else None
    else if Below(n, c.minItems) then
      Some("Number of values should be bigger than " + NatToString(c.minItems.value))
    else if Above(n, c.maxItems) then
      Some("Number of values should be smaller than " + NatToString(c.maxItems.value))
    else None
  }

  /**
   * `warningMessages`: nothing for an unchanged list; otherwise the item-count
   * message, the value-length message and the regex message, each when it applies.
   */
  function WarningMessages(c: Config, s: FieldState, matches: (string, string) -> bool): (m: Messages)
    ensures !s.HasChanged() ==> m == Messages(None, None, None)
    ensures Positive(c.minItems) && Positive(c.maxItems) ==>
      (m.numberOfItems.Some? <==>
        s.HasChanged() && (|s.value| < c.minItems.value || |s.value| > c.maxItems.value))
    ensures !Positive(c.minItems) && !Positive(c.maxItems) ==> m.numberOfItems.None?
    ensures s.HasChanged() ==> m.numberOfItems == NumberOfItemsMessage(c, |s.value|)
    ensures m.maxValues.Some? <==>
      s.HasChanged() && Positive(c.maxLength) && exists v | v in s.value :: TooLong(v, c.maxLength.value)
    ensures m.regex.Some? <==> s.HasChanged() && Truthy(RegexWarning(c.rules, s.value, matches))
    ensures m.regex.Some? ==> m.regex == RegexWarning(c.rules, s.value, matches)
  {
    if !s.HasChanged() then Messages(None, None, None)
    else
      var maxValues :=
        if Positive(c.maxLength) && exists v | v in s.value :: TooLong(v, c.maxLength.value)
        then Some("Maximum characters allowed per value: " + NatToString(c.maxLength.value))
        else None;
      var warning := RegexWarning(c.rules, s.value, matches);
      Messages(NumberOfItemsMessage(c, |s.value|), maxValues, if Truthy(warning) then warning else None)
  }

  /** After `updateValue` or `reset` there is no warning message at all. */
  lemma NoWarningsWhenUnchanged(c: Config, s: FieldState, input: Input, matches: (string, string) -> bool)
    ensures WarningMessages(c, s.UpdateValue(input), matches) == Messages(None, None, None)
    ensures WarningMessages(c, s.Reset(), matches) == Messages(None, None, None)
  {
  }

  /**
   * A value of one character outside the Basic Multilingual Plane is two
   * code units long, so a limit of one character already warns about it.
   */
  lemma AstralValueExceedsOne(c: Config, matches: (string, string) -> bool)
    requires c.maxLength == Some(1)
    ensures WarningMessages(c, FieldState(["\U{1F600}"], [], false), matches).maxValues.Some?
  {
    var v := "\U{1F600}";
    assert v[..0] == [];
    assert TooLong(v, 1);
    assert v in ["\U{1F600}"];
  }

  /**
   * The item-count message with one bound only: below a positive `minItems`,
   * or above a `maxItems` that is set (a `maxItems` of 0 then warns about any
   * value); within two positive bounds there is no message, and without a
   * positive bound there is none either.
   */
  lemma NumberOfItemsCases(c: Config, n: nat)
    ensures Positive(c.minItems) && !Positive(c.maxItems) ==>
      (NumberOfItemsMessage(c, n).Some? <==> n < c.minItems.value || Above(n, c.maxItems))
    ensures !Positive(c.minItems) && Positive(c.maxItems) ==>
      (NumberOfItemsMessage(c, n).Some? <==> n > c.maxItems.value)
    ensures Positive(c.minItems) && Positive(c.maxItems) && c.minItems.value <= n <= c.maxItems.value ==>
      NumberOfItemsMessage(c, n).None?
    ensures Positive(c.minItems) && n < c.minItems.value ==>
      NumberOfItemsMessage(c, n).Some?
    ensures !Positive(c.minItems) && !Positive(c.maxItems) ==> NumberOfItemsMessage(c, n).None?
  {
  }

  /**
   * A required field warns exactly while its list is empty: right after
   * `removeAllValues`, never after `setValues` or an insertion gives it a
   * value, and after an empty `setValues` only if the list was empty or not
   * marked reset to null.
   */
  lemma RequiredWarningFollowsList(c: Config, s: FieldState, values: seq<string>, v: string)
    ensures RequiredValidationWarning(c, s.SetValues(None).value) <==> c.isRequired
    ensures values != [] ==> !RequiredValidationWarning(c, s.SetValues(Some(values)).value)
    ensures RequiredValidationWarning(c, s.SetValues(Some([])).value) <==>
      c.isRequired && (s.returnAsNull ==> s.value == [])
    ensures v != "" ==> !RequiredValidationWarning(c, s.InsertValue(v, None).value)
  {
  }

  // --------------------------------------------------------------- findings

  /**
   * The rules as the source builds them: the validation rules are compiled
   * with `new RegExp`, but the deprecated `regex` property is stored as the
   * bare string.
   */
  datatype SourcePattern = Compiled(source: string) | BareString(source: string)
  datatype SourceRule = SourceRule(pattern: SourcePattern, errorMessage: Option<string>)

  function RegexRulesAsWritten(validation: Option<seq<ValidationRule>>, regex: Option<string>): (rules: seq<SourceRule>)
    ensures UsesDeprecatedRegex(validation, regex) ==>
      rules == [SourceRule(BareString(regex.value), Some(DeprecatedRegexMessage))]
  {
    if UsesDeprecatedRegex(validation, regex) then [SourceRule(BareString(regex.value), Some(DeprecatedRegexMessage))]
    else if validation.Some? then
      seq(|validation.value|, i requires 0 <= i < |validation.value| =>
        SourceRule(Compiled(validation.value[i].regex), validation.value[i].errorMessage))
    else []
  }

  /**
   * `regexWarning` over the rules as built: calling `.test` on a bare string
   * throws a TypeError, which happens as soon as such a rule is looked at with
   * a non-empty list.
   */
  function RegexWarningAsWritten(rules: seq<SourceRule>, value: seq<string>, matches: (string, string) -> bool)
    : Outcome<Option<string>>
  {
    if rules == [] then Done(None)
    else
      match RegexWarningAsWritten(rules[..|rules| - 1], value, matches)
      case Throws => Throws
      case Done(message) =>
        var rule := rules[|rules| - 1];
        if Truthy(message) || value == [] then Done(message)
        else if rule.pattern.BareString? then Throws
        else if exists v | v in value :: !matches(rule.pattern.source, v) then Done(rule.errorMessage)
        else Done(message)
  }

  /** As written, a field defined with only the deprecated `regex` throws on any non-empty list. */
  lemma DeprecatedRegexThrows(pattern: string, v: string, matches: (string, string) -> bool)
    requires pattern != ""
    ensures RegexWarningAsWritten(RegexRulesAsWritten(None, Some(pattern)), [v], matches) == Throws
  {
    var rules := RegexRulesAsWritten(None, Some(pattern));
    assert rules[..0] == [];
  }

  /** Compiling the deprecated pattern, the warning is its message exactly when some value fails the pattern. */
  lemma DeprecatedRegexReports(pattern: string, value: seq<string>, matches: (string, string) -> bool)
    requires pattern != ""
    ensures var rules := RegexRules(None, Some(pattern));
      (RegexWarning(rules, value, matches) == Some(DeprecatedRegexMessage) <==>
         exists v | v in value :: !matches(pattern, v))
      && (RegexWarning(rules, value, matches).None? <==> forall v | v in value :: matches(pattern, v))
  {
    var rules := RegexRules(None, Some(pattern));
    assert rules[..0] == [];
  }

  // ------------------------------------------------------------------ store

  class InputTextMultipleStore {
    var value: seq<string>
    var initialValue: seq<string>
    var returnAsNull: bool
    const config: Config

    function State(): FieldState
      reads this
    {
      FieldState(value, initialValue, returnAsNull)
    }

    /** A fresh store: empty list and baseline, the rules built from the definition. */
    constructor (isRequired: bool, maxLength: Option<nat>, minItems: Option<nat>, maxItems: Option<nat>,
                 validation: Option<seq<ValidationRule>>, regex: Option<string>)
      ensures State() == FieldState([], [], false)
      ensures config == Config(isRequired, maxLength, minItems, maxItems, RegexRules(validation, regex))
    {
      value, initialValue, returnAsNull := [], [], false;
      config := Config(isRequired, maxLength, minItems, maxItems, RegexRules(validation, regex));
    }

    method InsertValue(v: string, index: Option<int>)
      modifies this
      ensures State() == old(State()).InsertValue(v, index)
    {
      if v != "" && IndexOf(value, v) == -1 {
        if index.Some? && index.value != -1 {
          var k := SpliceStart(|value|, index.value);
          value := value[..k] + [v] + value[k..];
        } else {
          value := value + [v];
        }
      }
    }

    method DeleteValue(v: string)
      modifies this
      ensures State() == old(State()).DeleteValue(v)
    {
      value := Delete(value, v);
    }

    /** `addValue`: insert at the end. */
    method AddValue(v: string)
      modifies this
      ensures State() == old(State()).InsertValue(v, None)
    {
      InsertValue(v, None);
    }

    /** `removeValue`. */
    method RemoveValue(v: string)
      modifies this
      ensures State() == old(State()).DeleteValue(v)
    {
      DeleteValue(v);
    }

    method SetValues(values: Option<seq<string>>)
      modifies this
      ensures State() == old(State()).SetValues(values)
    {
      if values.Some? {
        if |values.value| > 0 || !returnAsNull {
          returnAsNull := false;
          value := values.value;
        }
      } else {
        returnAsNull := true;
        value := [];
      }
    }

    /** `removeAllValues`: a reset to null. */
    method RemoveAllValues()
      modifies this
      ensures State() == old(State()).SetValues(None)
    {
      SetValues(None);
    }

    method MoveValueAfter(v: string, after: string)
      modifies this
      ensures State() == old(State()).MoveValueAfter(v, after)
    {
      if v != "" {
        DeleteValue(v);
        InsertValue(v, Some(IndexOf(value, after)));
      }
    }

    method RemoveLastValue()
      modifies this
      ensures State() == old(State()).RemoveLastValue()
    {
      if |value| > 0 {
        DeleteValue(value[|value| - 1]);
      }
    }

    method UpdateValue(input: Input)
      modifies this
      ensures State() == old(State()).UpdateValue(input)
    {
      returnAsNull := false;
      var values := match input
        case Many(items) => items
        case One(item) => [item]
        case Absent => [];
      initialValue := values;
      value := values;
    }

    method Reset()
      modifies this
      ensures State() == old(State()).Reset()
    {
      returnAsNull := false;
      value := initialValue;
    }
  }
}

=== FILE: instance_controller.dfy ===
/**
 * The enrichment logic of the editor backend's `InstanceController`: type
 * metadata is merged into the types an instance lists, the instance's fields
 * are rebuilt from the structures of its types, its name is read from the
 * label field, and neighbour and scope trees are walked to collect type
 * names and ids and to stamp type metadata and release status on every node.
 *
 * The workspace, release, user and id services are not called: their answers
 * are arguments.  The Java objects the controller updates through setters
 * are values here, and each enrichment returns the updated value; an
 * exception is `Throws`.
 */
module InstanceController {
  import opened Wrappers
  import opened Helpers

  /** A type as an instance lists it (`SimpleType`); `displayLabel` is its `label`. */
  datatype SimpleType = SimpleType(
    name: string,
    color: Option<string>,
    displayLabel: Option<string>,
    labelField: Option<string>)

  /** A value of the instance's original JSON document: a string, null, or anything else. */
  datatype Raw = Text(text: string) | Null | NonText

  /** A user shown with an alternative value (`UserSummary`). */
  datatype UserSummary = UserSummary(id: Option<string>, picture: Option<string>)

  /** An alternative value proposed for a field (`Alternative`): the part this model reads. */
  datatype Alternative = Alternative(users: seq<UserSummary>)

  /** The full instance the editor opens (`InstanceFull`). */
  datatype InstanceFull = InstanceFull(
    id: string,
    types: seq<SimpleType>,
    fields: map<string, StructureOfField>,
    promotedFields: seq<string>,
    labelField: Option<string>,
    alternatives: map<string, seq<Alternative>>)

  /** An instance as a search result lists it (`InstanceSummary`). */
  datatype InstanceSummary = InstanceSummary(
    id: string,
    types: seq<SimpleType>,
    fields: map<string, StructureOfField>,
    name: Option<string>)

  /** An instance reduced to its label (`InstanceLabel`). */
  datatype InstanceLabel = InstanceLabel(id: string, types: seq<SimpleType>, name: Option<string>)

  // ---------------------------------------------------------------------
  // Simple types

  /** The structure recorded for `name`: null when the entry or its data is null. */
  function TypeData(typesByName: TypeResults, name: string): Option<StructureOfType> {
    match Get(typesByName, name)
    case None => None
    case Some(res) => res.data
  }

  /**
   * `enrichSimpleType`: when the type's name has an entry with data, the
   * type takes its color, label and label field; otherwise it is unchanged.
   */
  function EnrichSimpleType(t: SimpleType, typesByName: TypeResults): (r: SimpleType)
    ensures r.name == t.name
    ensures TypeData(typesByName, t.name).None? ==> r == t
    ensures TypeData(typesByName, t.name).Some? ==>
      var d := TypeData(typesByName, t.name).value;
      r.color == d.color && r.displayLabel == d.displayLabel && r.labelField == d.labelField
  {
    match TypeData(typesByName, t.name)
    case None => t
    case Some(d) => t.(color := d.color, displayLabel := d.displayLabel, labelField := d.labelField)
  }

  /** Enriching a type a second time changes nothing: its name, hence its entry, stays the same. */
  lemma EnrichSimpleTypeIdempotent(t: SimpleType, typesByName: TypeResults)
    ensures EnrichSimpleType(EnrichSimpleType(t, typesByName), typesByName) == EnrichSimpleType(t, typesByName)
  {
  }

  /** `types.forEach(t -> enrichSimpleType(t, typesByName))`. */
  function EnrichTypes(types: seq<SimpleType>, typesByName: TypeResults): (r: seq<SimpleType>)
    ensures |r| == |types|
    ensures forall i | 0 <= i < |types| :: r[i] == EnrichSimpleType(types[i], typesByName)
  {
    seq(|types|, i requires 0 <= i < |types| => EnrichSimpleType(types[i], typesByName))
  }

  /**
   * `getFilteredTypes`: one entry per type the instance lists, holding the
   * lookup of its name, null when the name is unknown.
   */
  method GetFilteredTypes(typesByName: TypeResults, types: seq<SimpleType>) returns (result: TypeResults)
    ensures forall n :: n in result <==> exists t | t in types :: t.name == n
    ensures forall n | n in result :: result[n] == Get(typesByName, n)
  {
    result := map[];
    for i := 0 to |types|
      invariant forall n :: n in result <==> exists t | t in types[..i] :: t.name == n
      invariant forall n | n in result :: result[n] == Get(typesByName, n)
    {
      assert forall t :: t in types[..i + 1] <==> t in types[..i] || t == types[i];
      result := result[types[i].name := Get(typesByName, types[i].name)];
    }
    assert types[..|types|] == types;
  }

  // ---------------------------------------------------------------------
  // The stream pipelines over the values of `typesByName`

  /** `f` is a field of a type some non-null entry holds. */
  predicate Declares(typesByName: TypeResults, f: StructureOfField) {
    exists k | k in typesByName :: typesByName[k].Some? && typesByName[k].value.data.Some? &&
      f in typesByName[k].value.data.value.fields
  }

  /** `p` is a promoted field of a type some non-null entry holds. */
  predicate Promotes(typesByName: TypeResults, p: string) {
    exists k | k in typesByName :: typesByName[k].Some? && typesByName[k].value.data.Some? &&
      p in typesByName[k].value.data.value.promotedFields
  }

  /**
   * `values().stream().map(KGCoreResult::getData).filter(Objects::nonNull)`,
   * consumed to the end: a null entry throws.
   */
  function AllData(typesByName: TypeResults, order: seq<string>): (r: Outcome<seq<StructureOfType>>)
    requires forall k | k in order :: k in typesByName
    ensures r.Throws? <==> exists k | k in order :: typesByName[k].None?
    ensures r.Done? ==> forall d :: d in r.value <==> exists k | k in order :: typesByName[k] == Some(CoreResult(Some(d)))
  {
    if order == [] then Done([])
    else
      assert forall k | k in order :: k == order[0] || k in order[1..];
      match typesByName[order[0]]
      case None => Throws
      case Some(res) =>
        match AllData(typesByName, order[1..])
        case Throws => Throws
        case Done(rest) => Done(if res.data.Some? then [res.data.value] + rest else rest)
  }

  /** `map(t -> t.getFields().values()).flatMap(Collection::stream)`. */
  function AllFields(types: seq<StructureOfType>): (r: seq<StructureOfField>)
    ensures forall f :: f in r <==> exists d | d in types :: f in d.fields
  {
    if types == [] then [] else types[0].fields + AllFields(types[1..])
  }

  /** `map(StructureOfType::getPromotedFields).flatMap(Collection::stream)`. */
  function AllPromoted(types: seq<StructureOfType>): (r: seq<string>)
    ensures forall p :: p in r <==> exists d | d in types :: p in d.promotedFields
  {
    if types == [] then [] else types[0].promotedFields + AllPromoted(types[1..])
  }

  /** The fully qualified names of the fields, in order. */
  function QualifiedNames(fields: seq<StructureOfField>): (r: seq<string>)
    ensures |r| == |fields| && forall i | 0 <= i < |fields| :: r[i] == fields[i].fullyQualifiedName
    ensures forall k :: k in r <==> exists f | f in fields :: f.fullyQualifiedName == k
  {
    if fields == [] then [] else [fields[0].fullyQualifiedName] + QualifiedNames(fields[1..])
  }

  /**
   * `convertFieldsToMap`: the fields keyed by their fully qualified names;
   * `Collectors.toMap` throws when two fields share a name.
   */
  function FieldsToMap(fields: seq<StructureOfField>): (r: Outcome<map<string, StructureOfField>>)
    ensures r.Throws? <==> !NoDup(QualifiedNames(fields))
    ensures r.Done? ==> forall k :: k in r.value <==> k in QualifiedNames(fields)
    ensures r.Done? ==> forall k | k in r.value :: r.value[k] in fields && r.value[k].fullyQualifiedName == k
  {
    if fields == [] then Done(map[])
    else
      var f := fields[0];
      NoDupCons(f.fullyQualifiedName, QualifiedNames(fields[1..]));
      match FieldsToMap(fields[1..])
      case Throws => Throws
      case Done(m) =>
        if f.fullyQualifiedName in m then Throws else Done(m[f.fullyQualifiedName := f])
  }

  /**
   * `...map(StructureOfType::getLabelField).findFirst().orElse(null)`: the
   * stream is lazy, so only the entries up to the first non-null data are
   * read; a null entry among them throws, and so does a null label field of
   * that first data (`findFirst` rejects a null element).
   */
  function LabelField(typesByName: TypeResults, order: seq<string>): Outcome<Option<string>>
    requires forall k | k in order :: k in typesByName
  {
    if order == [] then Done(None)
    else
      match typesByName[order[0]]
      case None => Throws
      case Some(res) =>
        match res.data
        case None => LabelField(typesByName, order[1..])
        case Some(d) => if d.labelField.None? then Throws else Done(d.labelField)
  }

  /** Every entry of `order` before position `i` is non-null with null data: the lazy stream reads past them. */
  predicate SkippedBefore(typesByName: TypeResults, order: seq<string>, i: int)
    requires forall k | k in order :: k in typesByName
    requires 0 <= i <= |order|
  {
    forall j | 0 <= j < i :: typesByName[order[j]] == Some(CoreResult(None))
  }

  /** The entry for `k` stops the label-field lookup with an exception: it is null, or its data has no label field. */
  predicate NullLabelAt(typesByName: TypeResults, k: string)
    requires k in typesByName
  {
    typesByName[k].None? || (typesByName[k].value.data.Some? && typesByName[k].value.data.value.labelField.None?)
  }

  /**
   * The label field is the one of the first entry with data; the lookup
   * throws iff a null entry or a null label field is reached first, and it
   * is null iff no entry has data.
   */
  lemma {:induction false} LabelFieldSpec(typesByName: TypeResults, order: seq<string>)
    requires forall k | k in order :: k in typesByName
    ensures var r := LabelField(typesByName, order);
      && (r == Done(None) <==> SkippedBefore(typesByName, order, |order|))
      && (r.Throws? <==> (exists i | 0 <= i < |order| ::
            SkippedBefore(typesByName, order, i) && NullLabelAt(typesByName, order[i])))
      && (r.Done? && r.value.Some? ==> (exists i | 0 <= i < |order| ::
            SkippedBefore(typesByName, order, i) && TypeData(typesByName, order[i]).Some? &&
            TypeData(typesByName, order[i]).value.labelField == r.value))
  {
    if order != [] {
      var tail := order[1..];
      LabelFieldSpec(typesByName, tail);
      forall i | 0 <= i < |tail|
        ensures SkippedBefore(typesByName, order, i + 1) <==>
          typesByName[order[0]] == Some(CoreResult(None)) && SkippedBefore(typesByName, tail, i)
      {
        assert forall j | 0 <= j < i :: tail[j] == order[j + 1];
      }
      assert SkippedBefore(typesByName, order, |order|) <==>
        typesByName[order[0]] == Some(CoreResult(None)) && SkippedBefore(typesByName, tail, |tail|) by {
        assert forall j | 0 <= j < |tail| :: tail[j] == order[j + 1];
      }
      if typesByName[order[0]] == Some(CoreResult(None)) {
        var r := LabelField(typesByName, tail);
        if r.Throws? {
          var i :| 0 <= i < |tail| && SkippedBefore(typesByName, tail, i) && NullLabelAt(typesByName, tail[i]);
          assert SkippedBefore(typesByName, order, i + 1);
        }
        if r.Done? && r.value.Some? {
          var i :| 0 <= i < |tail| && SkippedBefore(typesByName, tail, i) &&
            TypeData(typesByName, tail[i]).Some? && TypeData(typesByName, tail[i]).value.labelField == r.value;
          assert SkippedBefore(typesByName, order, i + 1);
        }
      } else {
        assert SkippedBefore(typesByName, order, 0);
        forall i | 1 <= i < |order|
          ensures !SkippedBefore(typesByName, order, i)
        {
          assert typesByName[order[0]] != Some(CoreResult(None));
        }
      }
    }
  }

  /** `(String) originalMap.get(labelField)`: a missing key or a JSON null is null; a non-string fails the cast. */
  function NameFrom(originalMap: map<string, Raw>, labelField: string): (r: Outcome<Option<string>>)
    ensures r.Throws? <==> labelField in originalMap && originalMap[labelField].NonText?
    ensures r.Done? && r.value.Some? <==> labelField in originalMap && originalMap[labelField].Text?
    ensures r.Done? && r.value.Some? ==> r.value.value == originalMap[labelField].text
  {
    if labelField !in originalMap then Done(None)
    else match originalMap[labelField]
      case Text(s) => Done(Some(s))
      case Null => Done(None)
      case NonText => Throws
  }

  /** `fields.stream().filter(f -> promotedFields.contains(f.getFullyQualifiedName()))`. */
  function KeepPromoted(fields: seq<StructureOfField>, promoted: seq<string>): (r: seq<StructureOfField>)
    ensures forall f :: f in r <==> f in fields && f.fullyQualifiedName in promoted
    ensures NoDup(fields) ==> NoDup(r)
  {
    if fields == [] then []
    else
      var rest := KeepPromoted(fields[1..], promoted);
      assert fields == [fields[0]] + fields[1..];
      NoDupCons(fields[0], fields[1..]);
      if fields[0].fullyQualifiedName in promoted then
        NoDupCons(fields[0], rest);
        [fields[0]] + rest
      else rest
  }

  /** Two different fields declared by the types share a fully qualified name. */
  ghost predicate FieldClash(typesByName: TypeResults) {
    exists f1, f2 | Declares(typesByName, f1) && Declares(typesByName, f2) ::
      f1 != f2 && f1.fullyQualifiedName == f2.fullyQualifiedName
  }

  /** Two different declared fields share a fully qualified name that is a promoted field. */
  ghost predicate PromotedFieldClash(typesByName: TypeResults) {
    exists f1, f2 | Declares(typesByName, f1) && Declares(typesByName, f2) ::
      f1 != f2 && f1.fullyQualifiedName == f2.fullyQualifiedName && Promotes(typesByName, f1.fullyQualifiedName)
  }

  /** Two different fields of the list share a fully qualified name. */
  predicate NameShared(fields: seq<StructureOfField>) {
    exists f1, f2 | f1 in fields && f2 in fields :: f1 != f2 && f1.fullyQualifiedName == f2.fullyQualifiedName
  }

  /** Among distinct fields, the names repeat iff two different fields share one. */
  lemma QualifiedNamesNoDup(fields: seq<StructureOfField>)
    requires NoDup(fields)
    ensures NoDup(QualifiedNames(fields)) <==> !NameShared(fields)
  {
    var q := QualifiedNames(fields);
    if NameShared(fields) {
      var f1, f2 :| f1 in fields && f2 in fields && f1 != f2 && f1.fullyQualifiedName == f2.fullyQualifiedName;
      var i :| 0 <= i < |fields| && fields[i] == f1;
      var j :| 0 <= j < |fields| && fields[j] == f2;
      assert q[i] == q[j] && i != j;
    }
    if !NoDup(q) {
      var i, j :| 0 <= i < j < |q| && q[i] == q[j];
      assert fields[i] in fields && fields[j] in fields && fields[i] != fields[j];
    }
  }

  /** The data the full stream yields are exactly the data of the entries. */
  lemma AllDataDeclares(typesByName: TypeResults, order: seq<string>)
    requires Enumerates(order, typesByName) && AllData(typesByName, order).Done?
    ensures forall f :: f in Dedup(AllFields(AllData(typesByName, order).value)) <==> Declares(typesByName, f)
    ensures forall p :: p in Dedup(AllPromoted(AllData(typesByName, order).value)) <==> Promotes(typesByName, p)
  {
    var datas := AllData(typesByName, order).value;
    forall f | Declares(typesByName, f)
      ensures f in AllFields(datas)
    {
      var k :| k in typesByName && typesByName[k].Some? && typesByName[k].value.data.Some? &&
        f in typesByName[k].value.data.value.fields;
      assert typesByName[k].value.data.value in datas;
    }
    forall p | Promotes(typesByName, p)
      ensures p in AllPromoted(datas)
    {
      var k :| k in typesByName && typesByName[k].Some? && typesByName[k].value.data.Some? &&
        p in typesByName[k].value.data.value.promotedFields;
      assert typesByName[k].value.data.value in datas;
    }
  }

  /** The new name: unchanged without a label field, otherwise the original document's value at it. */
  function NameFromLabelField(name: Option<string>, originalMap: map<string, Raw>, labelField: Option<string>): Outcome<Option<string>> {
    match labelField
    case None => Done(name)
    case Some(l) => NameFrom(originalMap, l)
  }

  /**
   * `enrichTypesAndFields`: with type information, enrich the listed
   * types, rebuild the fields from the distinct fields the types declare,
   * and set the distinct promoted fields and the label field.
   */
  function EnrichTypesAndFields(instance: InstanceFull, typesByName: Option<TypeResults>, order: seq<string>): (r: Outcome<InstanceFull>)
    requires typesByName.Some? ==> Enumerates(order, typesByName.value)
    ensures typesByName.None? ==> r == Done(instance)
  {
    match typesByName
    case None => Done(instance)
    case Some(tb) =>
      match AllData(tb, order)
      case Throws => Throws
      case Done(datas) =>
        match FieldsToMap(Dedup(AllFields(datas)))
        case Throws => Throws
        case Done(fields) =>
          match LabelField(tb, order)
          case Throws => Throws
          case Done(labelField) =>
            Done(instance.(types := EnrichTypes(instance.types, tb), fields := fields,
                           promotedFields := Dedup(AllPromoted(datas)), labelField := labelField))
  }

  /**
   * The full enrichment throws iff an entry is null, two declared fields
   * share a name, or the first data has no label field; otherwise the types
   * are enriched, the fields are exactly the declared fields keyed by name,
   * the promoted fields are the distinct promoted fields, and the label
   * field is the first data's.
   */
  lemma EnrichTypesAndFieldsSpec(instance: InstanceFull, typesByName: TypeResults, order: seq<string>)
    requires Enumerates(order, typesByName)
    ensures var r := EnrichTypesAndFields(instance, Some(typesByName), order);
      && (r.Throws? <==>
            (exists k | k in typesByName :: typesByName[k].None?) || FieldClash(typesByName) ||
            LabelField(typesByName, order).Throws?)
      && (r.Done? ==>
            && r.value.id == instance.id && r.value.alternatives == instance.alternatives
            && r.value.types == EnrichTypes(instance.types, typesByName)
            && (forall k :: k in r.value.fields <==> exists f | Declares(typesByName, f) :: f.fullyQualifiedName == k)
            && (forall k | k in r.value.fields ::
                  Declares(typesByName, r.value.fields[k]) && r.value.fields[k].fullyQualifiedName == k)
            && NoDup(r.value.promotedFields)
            && (forall p :: p in r.value.promotedFields <==> Promotes(typesByName, p))
            && r.value.labelField == LabelField(typesByName, order).value)
  {
    var all := AllData(typesByName, order);
    if all.Done? {
      AllDataDeclares(typesByName, order);
      var fields := Dedup(AllFields(all.value));
      QualifiedNamesNoDup(fields);
    }
  }

  /**
   * `enrichTypesAndSearchableFields`: with type information, enrich the
   * listed types, keep only the declared fields that are promoted, and take
   * the name from the original document at the label field, if there is one.
   */
  function EnrichTypesAndSearchableFields(
    instance: InstanceSummary, originalMap: map<string, Raw>, typesByName: Option<TypeResults>, order: seq<string>)
    : (r: Outcome<InstanceSummary>)
    requires typesByName.Some? ==> Enumerates(order, typesByName.value)
    ensures typesByName.None? ==> r == Done(instance)
  {
    match typesByName
    case None => Done(instance)
    case Some(tb) =>
      match AllData(tb, order)
      case Throws => Throws
      case Done(datas) =>
        var promoted := Dedup(AllPromoted(datas));
        match FieldsToMap(KeepPromoted(Dedup(AllFields(datas)), promoted))
        case Throws => Throws
        case Done(fields) =>
          match LabelField(tb, order)
          case Throws => Throws
          case Done(labelField) =>
            match NameFromLabelField(instance.name, originalMap, labelField)
            case Throws => Throws
            case Done(name) =>
              Done(instance.(types := EnrichTypes(instance.types, tb), fields := fields, name := name))
  }

  /**
   * The summary keeps exactly the declared fields whose names are promoted,
   * keyed by name; it throws iff an entry is null, two such fields share a
   * name, the label-field lookup throws, or the document's value at the
   * label field is not a string.  The name changes only when there is a
   * label field.
   */
  lemma EnrichTypesAndSearchableFieldsSpec(
    instance: InstanceSummary, originalMap: map<string, Raw>, typesByName: TypeResults, order: seq<string>)
    requires Enumerates(order, typesByName)
    ensures var r := EnrichTypesAndSearchableFields(instance, originalMap, Some(typesByName), order);
      var lookup := LabelField(typesByName, order);
      && (r.Throws? <==>
            (exists k | k in typesByName :: typesByName[k].None?) || PromotedFieldClash(typesByName) ||
            lookup.Throws? || (lookup.value.Some? && NameFrom(originalMap, lookup.value.value).Throws?))
      && (r.Done? ==>
            && r.value.id == instance.id
            && r.value.types == EnrichTypes(instance.types, typesByName)
            && (forall k :: k in r.value.fields <==>
                  Promotes(typesByName, k) && exists f | Declares(typesByName, f) :: f.fullyQualifiedName == k)
            && (forall k | k in r.value.fields ::
                  Declares(typesByName, r.value.fields[k]) && r.value.fields[k].fullyQualifiedName == k)
            && (lookup.value.None? ==> r.value.name == instance.name)
            && (lookup.value.Some? ==> r.value.name == NameFrom(originalMap, lookup.value.value).value))
  {
    var r := EnrichTypesAndSearchableFields(instance, originalMap, Some(typesByName), order);
    var all := AllData(typesByName, order);
    if all.Done? {
      PromotedKept(typesByName, order);
      var datas := all.value;
      var m := FieldsToMap(KeepPromoted(Dedup(AllFields(datas)), Dedup(AllPromoted(datas))));
      if m.Done? && LabelField(typesByName, order).Done? {
        assert r.Done? ==> r.value.fields == m.value;
      }
    }
  }

  /** The map of the promoted fields kept: the declared fields with a promoted name, keyed by it; `toMap` fails iff two clash. */
  lemma PromotedKept(typesByName: TypeResults, order: seq<string>)
    requires Enumerates(order, typesByName) && AllData(typesByName, order).Done?
    ensures var datas := AllData(typesByName, order).value;
      var m := FieldsToMap(KeepPromoted(Dedup(AllFields(datas)), Dedup(AllPromoted(datas))));
      && (m.Throws? <==> PromotedFieldClash(typesByName))
      && (m.Done? ==> forall k :: k in m.value <==>
            Promotes(typesByName, k) && exists f | Declares(typesByName, f) :: f.fullyQualifiedName == k)
      && (m.Done? ==> forall k | k in m.value ::
            Declares(typesByName, m.value[k]) && m.value[k].fullyQualifiedName == k)
  {
    var datas := AllData(typesByName, order).value;
    AllDataDeclares(typesByName, order);
    var kept := KeepPromoted(Dedup(AllFields(datas)), Dedup(AllPromoted(datas)));
    assert forall f :: f in kept <==> Declares(typesByName, f) && Promotes(typesByName, f.fullyQualifiedName);
    QualifiedNamesNoDup(kept);
    assert NameShared(kept) <==> PromotedFieldClash(typesByName);
  }

  /**
   * `enrichName`: with type information, enrich the listed types and take
   * the name from the original document at the label field, if there is
   * one.  Only the label-field stream reads the entries, lazily.
   */
  function EnrichName(
    instance: InstanceLabel, originalMap: map<string, Raw>, typesByName: Option<TypeResults>, order: seq<string>)
    : (r: Outcome<InstanceLabel>)
    requires typesByName.Some? ==> Enumerates(order, typesByName.value)
    ensures typesByName.None? ==> r == Done(instance)
    ensures typesByName.Some? ==>
      var lookup := LabelField(typesByName.value, order);
      && (r.Throws? <==> lookup.Throws? || (lookup.value.Some? && NameFrom(originalMap, lookup.value.value).Throws?))
      && (r.Done? ==> r.value.id == instance.id && r.value.types == EnrichTypes(instance.types, typesByName.value))
      && (r.Done? && lookup.value.None? ==> r.value.name == instance.name)
      && (r.Done? && lookup.value.Some? ==> r.value.name == NameFrom(originalMap, lookup.value.value).value)
  {
    match typesByName
    case None => Done(instance)
    case Some(tb) =>
      match LabelField(tb, order)
      case Throws => Throws
      case Done(labelField) =>
        match NameFromLabelField(instance.name, originalMap, labelField)
        case Throws => Throws
        case Done(name) => Done(instance.(types := EnrichTypes(instance.types, tb), name := name))
  }

  // ---------------------------------------------------------------------
  // Alternatives

  /** The users of a list of alternatives, in order. */
  function UsersOf(alternatives: seq<Alternative>): (r: seq<UserSummary>)
    ensures forall u :: u in r <==> exists a | a in alternatives :: u in a.users
  {
    if alternatives == [] then [] else alternatives[0].users + UsersOf(alternatives[1..])
  }

  /** `getAlternatives().values().stream().flatMap(...).map(Alternative::getUsers).flatMap(...)`. */
  function AllUsers(alternatives: map<string, seq<Alternative>>, order: seq<string>): (r: seq<UserSummary>)
    requires forall k | k in order :: k in alternatives
    ensures forall u :: u in r <==> exists k | k in order :: u in UsersOf(alternatives[k])
  {
    if order == [] then []
    else
      assert forall k | k in order :: k == order[0] || k in order[1..];
      UsersOf(alternatives[order[0]]) + AllUsers(alternatives, order[1..])
  }

  /** The simplified ids of the users, nulls dropped. */
  function SimplifiedIds(users: seq<UserSummary>, simplify: Option<string> -> Option<string>): (r: seq<string>)
    ensures forall x :: x in r <==> exists u | u in users :: simplify(u.id) == Some(x)
  {
    if users == [] then []
    else
      (if simplify(users[0].id).Some? then [simplify(users[0].id).value] else []) + SimplifiedIds(users[1..], simplify)
  }

  /** Some user of some alternative has the simplified id `x`. */
  ghost predicate Mentions(alternatives: map<string, seq<Alternative>>, simplify: Option<string> -> Option<string>, x: string) {
    exists k, a, u | k in alternatives && a in alternatives[k] && u in a.users :: simplify(u.id) == Some(x)
  }

  /**
   * The ids `enrichAlternatives` asks the user service about: the simplified
   * ids of all users of all alternatives, without nulls and without
   * duplicates.  `simplify` is the id service's rewriting of a user's id.
   */
  function UserIds(alternatives: map<string, seq<Alternative>>, order: seq<string>, simplify: Option<string> -> Option<string>)
    : (r: seq<string>)
    requires Enumerates(order, alternatives)
    ensures NoDup(r)
    ensures forall x :: x in r <==> Mentions(alternatives, simplify, x)
  {
    var users := AllUsers(alternatives, order);
    assert forall x :: Mentions(alternatives, simplify, x) ==> exists u | u in users :: simplify(u.id) == Some(x) by {
      forall x | Mentions(alternatives, simplify, x)
        ensures exists u | u in users :: simplify(u.id) == Some(x)
      {
        var k, a, u :| k in alternatives && a in alternatives[k] && u in a.users && simplify(u.id) == Some(x);
        assert u in UsersOf(alternatives[k]);
        assert u in users;
      }
    }
    Dedup(SimplifiedIds(users, simplify))
  }

  /** `userPictures.get(u.getId())`: null for a null id or an id the service did not answer. */
  function Picture(pictures: map<string, string>, id: Option<string>): Option<string> {
    if id.Some? && id.value in pictures then Some(pictures[id.value]) else None
  }

  /** A user after `enrichAlternatives`: its id simplified, then its picture looked up by that id. */
  function EnrichUser(u: UserSummary, simplify: Option<string> -> Option<string>, pictures: map<string, string>): UserSummary {
    var id := simplify(u.id);
    u.(id := id, picture := Picture(pictures, id))
  }

  /** Every user of an alternative enriched. */
  function EnrichAlternative(a: Alternative, simplify: Option<string> -> Option<string>, pictures: map<string, string>): Alternative {
    a.(users := seq(|a.users|, j requires 0 <= j < |a.users| => EnrichUser(a.users[j], simplify, pictures)))
  }

  /**
   * `enrichAlternatives`: every user of every alternative gets its id
   * simplified and the picture the user service returned for that id;
   * nothing else of the instance changes.  `pictures` is the service's
   * answer for `UserIds`.
   */
  function EnrichAlternatives(instance: InstanceFull, simplify: Option<string> -> Option<string>, pictures: map<string, string>)
    : (r: InstanceFull)
    ensures r == instance.(alternatives := r.alternatives)
    ensures r.alternatives.Keys == instance.alternatives.Keys
    ensures forall k | k in r.alternatives :: |r.alternatives[k]| == |instance.alternatives[k]|
    ensures forall k, i | k in r.alternatives && 0 <= i < |r.alternatives[k]| ::
      |r.alternatives[k][i].users| == |instance.alternatives[k][i].users|
    ensures forall k, i, j | k in r.alternatives && 0 <= i < |r.alternatives[k]| && 0 <= j < |r.alternatives[k][i].users| ::
      var u := r.alternatives[k][i].users[j];
      u.id == simplify(instance.alternatives[k][i].users[j].id) && u.picture == Picture(pictures, u.id)
  {
    var alternatives := instance.alternatives;
    instance.(alternatives := map k | k in alternatives ::
      seq(|alternatives[k]|, i requires 0 <= i < |alternatives[k]| => EnrichAlternative(alternatives[k][i], simplify, pictures)))
  }

  /** Every user id left after the enrichment is one of the ids the user service was asked about. */
  lemma EnrichedIdsRequested(
    instance: InstanceFull, order: seq<string>, simplify: Option<string> -> Option<string>, pictures: map<string, string>,
    k: string, i: int, j: int)
    requires Enumerates(order, instance.alternatives)
    requires k in instance.alternatives && 0 <= i < |instance.alternatives[k]|
    requires 0 <= j < |instance.alternatives[k][i].users|
    ensures var u := EnrichAlternatives(instance, simplify, pictures).alternatives[k][i].users[j];
      u.id.Some? ==> u.id.value in UserIds(instance.alternatives, order, simplify)
  {
    var before := instance.alternatives[k][i].users[j];
    var a := instance.alternatives[k][i];
    assert a in instance.alternatives[k] && before in a.users;
    if simplify(before.id).Some? {
      assert Mentions(instance.alternatives, simplify, simplify(before.id).value);
    }
  }

  // ---------------------------------------------------------------------
  // Neighbour trees

  /** A node of the neighbour graph around an instance; each list may be null. */
  datatype Neighbor = Neighbor(
    id: string,
    types: Option<seq<SimpleType>>,
    inbound: Neighbors,
    outbound: Neighbors)

  /** A list of neighbours that may be null. */
  datatype Neighbors = NullNeighbors | Neighbors(items: seq<Neighbor>)

  /** The neighbour and all its inbound and outbound descendants; null lists hold none. */
  function NeighborNodes(n: Neighbor): set<Neighbor>
    decreases n, 1
  {
    {n} + (if n.inbound.Neighbors? then NeighborNodesAll(n.inbound.items) else {})
        + (if n.outbound.Neighbors? then NeighborNodesAll(n.outbound.items) else {})
  }

  /** The nodes of the trees of a list of neighbours. */
  function NeighborNodesAll(ns: seq<Neighbor>): set<Neighbor>
    decreases ns, 0
  {
    if ns == [] then {} else NeighborNodesAll(ns[..|ns| - 1]) + NeighborNodes(ns[|ns| - 1])
  }

  /** The names of a node's own types (none when its list is null). */
  function OwnTypeNames(n: Neighbor): set<string> {
    if n.types.Some? then set t | t in n.types.value :: t.name else {}
  }

  /** The type names of a set of nodes. */
  ghost function TypeNamesOf(nodes: set<Neighbor>): set<string> {
    set m, x | m in nodes && x in OwnTypeNames(m) :: x
  }

  lemma TypeNamesOfUnion(a: set<Neighbor>, b: set<Neighbor>)
    ensures TypeNamesOf(a + b) == TypeNamesOf(a) + TypeNamesOf(b)
  {
  }

  /**
   * `findTypesInNeighbor`: the accumulator grows by the type names of every
   * node of the tree.
   */
  method FindTypesInNeighbor(neighbor: Neighbor, acc: set<string>) returns (r: set<string>)
    ensures r == acc + TypeNamesOf(NeighborNodes(neighbor))
    decreases neighbor, 1
  {
    r := acc;
    if neighbor.types.Some? {
      r := r + set t | t in neighbor.types.value :: t.name;
    }
    var inbound, outbound := {}, {};
    if neighbor.inbound.Neighbors? {
      r := FindTypesInNeighbors(neighbor.inbound.items, r);
      inbound := NeighborNodesAll(neighbor.inbound.items);
    }
    if neighbor.outbound.Neighbors? {
      r := FindTypesInNeighbors(neighbor.outbound.items, r);
      outbound := NeighborNodesAll(neighbor.outbound.items);
    }
    assert TypeNamesOf({neighbor}) == OwnTypeNames(neighbor);
    assert NeighborNodes(neighbor) == {neighbor} + inbound + outbound;
    TypeNamesOfUnion({neighbor}, inbound);
    TypeNamesOfUnion({neighbor} + inbound, outbound);
  }

  /** The `forEach` over a list of neighbours, each visited with the same accumulator. */
  method FindTypesInNeighbors(ns: seq<Neighbor>, acc: set<string>) returns (r: set<string>)
    ensures r == acc + TypeNamesOf(NeighborNodesAll(ns))
    decreases ns, 0
  {
    r := acc;
    for i := 0 to |ns|
      invariant r == acc + TypeNamesOf(NeighborNodesAll(ns[..i]))
    {
      assert ns[..i + 1][..i] == ns[..i];
      TypeNamesOfUnion(NeighborNodesAll(ns[..i]), NeighborNodes(ns[i]));
      r := FindTypesInNeighbor(ns[i], r);
    }
    assert ns[..|ns|] == ns;
  }

  /** A node whose own types are all enriched already: enriching them again changes nothing. */
  predicate TypesEnriched(types: seq<SimpleType>, typesByName: TypeResults) {
    forall t | t in types :: EnrichSimpleType(t, typesByName) == t
  }

  /** The types `enrichTypesInNeighbor` leaves on a node: its own list enriched, a null list kept null. */
  function EnrichOptionalTypes(types: Option<seq<SimpleType>>, typesByName: TypeResults): Option<seq<SimpleType>> {
    if types.Some? then Some(EnrichTypes(types.value, typesByName)) else None
  }

  /** The ids of a set of neighbour nodes. */
  ghost function NeighborIdsOf(nodes: set<Neighbor>): set<string> {
    set m | m in nodes :: m.id
  }

  lemma NeighborIdsOfUnion(a: set<Neighbor>, b: set<Neighbor>)
    ensures NeighborIdsOf(a + b) == NeighborIdsOf(a) + NeighborIdsOf(b)
  {
  }

  /**
   * `enrichTypesInNeighbor`: the node's own types enriched in place, its
   * inbound and outbound lists walked in the same way; null lists stay null.
   */
  function EnrichTypesInNeighbor(n: Neighbor, typesByName: TypeResults): (r: Neighbor)
    ensures r.id == n.id && r.types == EnrichOptionalTypes(n.types, typesByName)
    ensures (r.inbound.Neighbors? <==> n.inbound.Neighbors?) && (r.outbound.Neighbors? <==> n.outbound.Neighbors?)
    ensures r.inbound.Neighbors? ==> |r.inbound.items| == |n.inbound.items|
    ensures r.outbound.Neighbors? ==> |r.outbound.items| == |n.outbound.items|
    decreases n, 1
  {
    n.(types := EnrichOptionalTypes(n.types, typesByName),
       inbound := if n.inbound.Neighbors? then Neighbors(EnrichTypesInNeighbors(n.inbound.items, typesByName)) else NullNeighbors,
       outbound := if n.outbound.Neighbors? then Neighbors(EnrichTypesInNeighbors(n.outbound.items, typesByName)) else NullNeighbors)
  }

  /** The `forEach` of `enrichTypesInNeighbor` over a list: each neighbour enriched where it stands. */
  function EnrichTypesInNeighbors(ns: seq<Neighbor>, typesByName: TypeResults): (r: seq<Neighbor>)
    ensures |r| == |ns|
    ensures forall i | 0 <= i < |ns| :: r[i] == EnrichTypesInNeighbor(ns[i], typesByName)
    decreases ns, 0
  {
    if ns == [] then []
    else EnrichTypesInNeighbors(ns[..|ns| - 1], typesByName) + [EnrichTypesInNeighbor(ns[|ns| - 1], typesByName)]
  }

  /** Enriched types are a fixed point of enrichment. */
  lemma EnrichTypesFixed(types: seq<SimpleType>, typesByName: TypeResults)
    ensures TypesEnriched(EnrichTypes(types, typesByName), typesByName)
  {
    forall t | t in EnrichTypes(types, typesByName)
      ensures EnrichSimpleType(t, typesByName) == t
    {
      var i :| 0 <= i < |types| && EnrichTypes(types, typesByName)[i] == t;
      EnrichSimpleTypeIdempotent(types[i], typesByName);
    }
  }

  /** After `enrichTypesInNeighbor`, no node of the tree has a type left to enrich. */
  lemma {:induction false} EnrichTypesInNeighborComplete(n: Neighbor, typesByName: TypeResults)
    ensures forall m | m in NeighborNodes(EnrichTypesInNeighbor(n, typesByName)) ::
      m.types.Some? ==> TypesEnriched(m.types.value, typesByName)
    decreases n, 1
  {
    if n.types.Some? {
      EnrichTypesFixed(n.types.value, typesByName);
    }
    if n.inbound.Neighbors? {
      EnrichTypesInNeighborsComplete(n.inbound.items, typesByName);
    }
    if n.outbound.Neighbors? {
      EnrichTypesInNeighborsComplete(n.outbound.items, typesByName);
    }
  }

  /** The list form of `EnrichTypesInNeighborComplete`. */
  lemma {:induction false} EnrichTypesInNeighborsComplete(ns: seq<Neighbor>, typesByName: TypeResults)
    ensures forall m | m in NeighborNodesAll(EnrichTypesInNeighbors(ns, typesByName)) ::
      m.types.Some? ==> TypesEnriched(m.types.value, typesByName)
    decreases ns, 0
  {
    if ns != [] {
      var r := EnrichTypesInNeighbors(ns, typesByName);
      assert r[..|r| - 1] == EnrichTypesInNeighbors(ns[..|ns| - 1], typesByName);
      EnrichTypesInNeighborsComplete(ns[..|ns| - 1], typesByName);
      EnrichTypesInNeighborComplete(ns[|ns| - 1], typesByName);
    }
  }

  /** `m` is the node `m0` after enrichment: the same id, its own types enriched. */
  predicate NeighborEnrichedFrom(m0: Neighbor, m: Neighbor, typesByName: TypeResults) {
    m0.id == m.id && m.types == EnrichOptionalTypes(m0.types, typesByName)
  }

  /**
   * `enrichTypesInNeighbor` only enriches types: every node of the result
   * is a node of the original tree with its own types enriched, and the
   * tree holds the same ids.
   */
  lemma {:induction false} EnrichTypesInNeighborKeepsNodes(n: Neighbor, typesByName: TypeResults)
    ensures var r := EnrichTypesInNeighbor(n, typesByName);
      && (forall m | m in NeighborNodes(r) ::
            exists m0 | m0 in NeighborNodes(n) :: NeighborEnrichedFrom(m0, m, typesByName))
      && NeighborIdsOf(NeighborNodes(r)) == NeighborIdsOf(NeighborNodes(n))
    decreases n, 1
  {
    var r := EnrichTypesInNeighbor(n, typesByName);
    var rIn, nIn, rOut, nOut := {}, {}, {}, {};
    if n.inbound.Neighbors? {
      EnrichTypesInNeighborsKeepNodes(n.inbound.items, typesByName);
      rIn, nIn := NeighborNodesAll(r.inbound.items), NeighborNodesAll(n.inbound.items);
    }
    if n.outbound.Neighbors? {
      EnrichTypesInNeighborsKeepNodes(n.outbound.items, typesByName);
      rOut, nOut := NeighborNodesAll(r.outbound.items), NeighborNodesAll(n.outbound.items);
    }
    assert NeighborNodes(r) == {r} + rIn + rOut;
    assert NeighborNodes(n) == {n} + nIn + nOut;
    assert NeighborEnrichedFrom(n, r, typesByName);
    NeighborIdsOfUnion({r}, rIn);
    NeighborIdsOfUnion({r} + rIn, rOut);
    NeighborIdsOfUnion({n}, nIn);
    NeighborIdsOfUnion({n} + nIn, nOut);
  }

  /** The list form of `EnrichTypesInNeighborKeepsNodes`. */
  lemma {:induction false} EnrichTypesInNeighborsKeepNodes(ns: seq<Neighbor>, typesByName: TypeResults)
    ensures var r := EnrichTypesInNeighbors(ns, typesByName);
      && (forall m | m in NeighborNodesAll(r) ::
            exists m0 | m0 in NeighborNodesAll(ns) :: NeighborEnrichedFrom(m0, m, typesByName))
      && NeighborIdsOf(NeighborNodesAll(r)) == NeighborIdsOf(NeighborNodesAll(ns))
    decreases ns, 0
  {
    if ns != [] {
      var r := EnrichTypesInNeighbors(ns, typesByName);
      assert r[..|r| - 1] == EnrichTypesInNeighbors(ns[..|ns| - 1], typesByName);
      var rInit, rLast := NeighborNodesAll(r[..|r| - 1]), NeighborNodes(r[|r| - 1]);
      var nInit, nLast := NeighborNodesAll(ns[..|ns| - 1]), NeighborNodes(ns[|ns| - 1]);
      EnrichTypesInNeighborsKeepNodes(ns[..|ns| - 1], typesByName);
      EnrichTypesInNeighborKeepsNodes(ns[|ns| - 1], typesByName);
      assert NeighborNodesAll(r) == rInit + rLast && NeighborNodesAll(ns) == nInit + nLast;
      forall m | m in NeighborNodesAll(r)
        ensures exists m0 | m0 in NeighborNodesAll(ns) :: NeighborEnrichedFrom(m0, m, typesByName)
      {
        if m in rInit {
          var m0 :| m0 in nInit && NeighborEnrichedFrom(m0, m, typesByName);
        } else {
          var m0 :| m0 in nLast && NeighborEnrichedFrom(m0, m, typesByName);
        }
      }
      NeighborIdsOfUnion(rInit, rLast);
      NeighborIdsOfUnion(nInit, nLast);
    }
  }

  // ---------------------------------------------------------------------
  // Scope trees

  /** A node of the scope of an instance: its types, its children (a list that may be null) and its release status. */
  datatype Scope = Scope(id: string, types: seq<SimpleType>, children: Scopes, status: Option<string>)

  /** A list of scopes that may be null. */
  datatype Scopes = NullScopes | Scopes(items: seq<Scope>)

  /** Release-status results keyed by instance id; a `None` value is a null entry. */
  type StatusResults = map<string, Option<CoreResult<string>>>

  /** The scope and all its descendants. */
  function ScopeNodes(s: Scope): set<Scope>
    decreases s, 1
  {
    {s} + (if s.children.Scopes? then ScopeNodesAll(s.children.items) else {})
  }

  /** The nodes of the trees of a list of scopes. */
  function ScopeNodesAll(ss: seq<Scope>): set<Scope>
    decreases ss, 0
  {
    if ss == [] then {} else ScopeNodesAll(ss[..|ss| - 1]) + ScopeNodes(ss[|ss| - 1])
  }

  /** The ids of a set of nodes. */
  ghost function IdsOf(nodes: set<Scope>): set<string> {
    set m | m in nodes :: m.id
  }

  lemma IdsOfUnion(a: set<Scope>, b: set<Scope>)
    ensures IdsOf(a + b) == IdsOf(a) + IdsOf(b)
  {
  }

  /** The type names of a set of nodes. */
  ghost function ScopeTypeNamesOf(nodes: set<Scope>): set<string> {
    set m, t | m in nodes && t in m.types :: t.name
  }

  /**
   * `findTypesAndIdsInScope`: the accumulators grow by the type names and
   * the ids of every node of the tree.
   */
  method FindTypesAndIdsInScope(scope: Scope, types: set<string>, ids: set<string>)
    returns (typesOut: set<string>, idsOut: set<string>)
    ensures typesOut == types + ScopeTypeNamesOf(ScopeNodes(scope))
    ensures idsOut == ids + IdsOf(ScopeNodes(scope))
    decreases scope, 1
  {
    typesOut := types + set t | t in scope.types :: t.name;
    idsOut := ids + {scope.id};
    var below := {};
    if scope.children.Scopes? {
      typesOut, idsOut := FindTypesAndIdsInScopes(scope.children.items, typesOut, idsOut);
      below := ScopeNodesAll(scope.children.items);
    }
    assert ScopeNodes(scope) == {scope} + below;
    assert ScopeTypeNamesOf({scope} + below) == ScopeTypeNamesOf({scope}) + ScopeTypeNamesOf(below);
    assert IdsOf({scope} + below) == IdsOf({scope}) + IdsOf(below);
  }

  /** The `forEach` over the children, each visited with the same accumulators. */
  method FindTypesAndIdsInScopes(ss: seq<Scope>, types: set<string>, ids: set<string>)
    returns (typesOut: set<string>, idsOut: set<string>)
    ensures typesOut == types + ScopeTypeNamesOf(ScopeNodesAll(ss))
    ensures idsOut == ids + IdsOf(ScopeNodesAll(ss))
    decreases ss, 0
  {
    typesOut, idsOut := types, ids;
    for i := 0 to |ss|
      invariant typesOut == types + ScopeTypeNamesOf(ScopeNodesAll(ss[..i]))
      invariant idsOut == ids + IdsOf(ScopeNodesAll(ss[..i]))
    {
      assert ss[..i + 1][..i] == ss[..i];
      var done, next := ScopeNodesAll(ss[..i]), ScopeNodes(ss[i]);
      assert ScopeTypeNamesOf(done + next) == ScopeTypeNamesOf(done) + ScopeTypeNamesOf(next);
      assert IdsOf(done + next) == IdsOf(done) + IdsOf(next);
      typesOut, idsOut := FindTypesAndIdsInScope(ss[i], typesOut, idsOut);
    }
    assert ss[..|ss|] == ss;
  }

  /** `status != null ? status.getData() : null` for the entry of `id`. */
  function StatusOf(releaseStatus: StatusResults, id: string): Option<string> {
    match Get(releaseStatus, id)
    case None => None
    case Some(res) => res.data
  }

  /** `enrichReleaseStatusInScope`: every node's status set from the entry of its id. */
  function EnrichReleaseStatusInScope(s: Scope, releaseStatus: StatusResults): (r: Scope)
    ensures r.id == s.id && r.types == s.types
    decreases s, 1
  {
    s.(status := StatusOf(releaseStatus, s.id),
       children := if s.children.Scopes? then Scopes(EnrichReleaseStatusInScopes(s.children.items, releaseStatus)) else NullScopes)
  }

  /** `enrichReleaseStatusInScope` over a list of scopes. */
  function EnrichReleaseStatusInScopes(ss: seq<Scope>, releaseStatus: StatusResults): (r: seq<Scope>)
    ensures |r| == |ss|
    decreases ss, 0
  {
    if ss == [] then []
    else EnrichReleaseStatusInScopes(ss[..|ss| - 1], releaseStatus) + [EnrichReleaseStatusInScope(ss[|ss| - 1], releaseStatus)]
  }

  /** `enrichTypesInScope`: the node's own types enriched in place, its children walked in the same way. */
  function EnrichTypesInScope(s: Scope, typesByName: TypeResults): (r: Scope)
    ensures r.id == s.id && r.status == s.status && r.types == EnrichTypes(s.types, typesByName)
    ensures (r.children.Scopes? <==> s.children.Scopes?)
    ensures r.children.Scopes? ==> |r.children.items| == |s.children.items|
    decreases s, 1
  {
    s.(types := EnrichTypes(s.types, typesByName),
       children := if s.children.Scopes? then Scopes(EnrichTypesInScopes(s.children.items, typesByName)) else NullScopes)
  }

  /** The `forEach` of `enrichTypesInScope` over the children: each child enriched where it stands. */
  function EnrichTypesInScopes(ss: seq<Scope>, typesByName: TypeResults): (r: seq<Scope>)
    ensures |r| == |ss|
    ensures forall i | 0 <= i < |ss| :: r[i] == EnrichTypesInScope(ss[i], typesByName)
    decreases ss, 0
  {
    if ss == [] then []
    else EnrichTypesInScopes(ss[..|ss| - 1], typesByName) + [EnrichTypesInScope(ss[|ss| - 1], typesByName)]
  }

  /**
   * Stamping the release status keeps the nodes' ids and types and sets the
   * status of every node from its id's entry; no id is lost.
   */
  lemma {:induction false} ReleaseStatusStamped(s: Scope, releaseStatus: StatusResults)
    ensures var r := EnrichReleaseStatusInScope(s, releaseStatus);
      && (forall m | m in ScopeNodes(r) :: m.status == StatusOf(releaseStatus, m.id) &&
            exists m0 | m0 in ScopeNodes(s) :: m0.id == m.id && m0.types == m.types)
      && IdsOf(ScopeNodes(r)) == IdsOf(ScopeNodes(s))
    decreases s, 1
  {
    var r := EnrichReleaseStatusInScope(s, releaseStatus);
    if s.children.Scopes? {
      ReleaseStatusStampedAll(s.children.items, releaseStatus);
      IdsOfUnion({r}, ScopeNodesAll(r.children.items));
      IdsOfUnion({s}, ScopeNodesAll(s.children.items));
    }
  }

  /** The list form of `ReleaseStatusStamped`. */
  lemma {:induction false} ReleaseStatusStampedAll(ss: seq<Scope>, releaseStatus: StatusResults)
    ensures var r := EnrichReleaseStatusInScopes(ss, releaseStatus);
      && (forall m | m in ScopeNodesAll(r) :: m.status == StatusOf(releaseStatus, m.id) &&
            exists m0 | m0 in ScopeNodesAll(ss) :: m0.id == m.id && m0.types == m.types)
      && IdsOf(ScopeNodesAll(r)) == IdsOf(ScopeNodesAll(ss))
    decreases ss, 0
  {
    if ss != [] {
      var r := EnrichReleaseStatusInScopes(ss, releaseStatus);
      assert r[..|r| - 1] == EnrichReleaseStatusInScopes(ss[..|ss| - 1], releaseStatus);
      ReleaseStatusStampedAll(ss[..|ss| - 1], releaseStatus);
      ReleaseStatusStamped(ss[|ss| - 1], releaseStatus);
      IdsOfUnion(ScopeNodesAll(r[..|r| - 1]), ScopeNodes(r[|r| - 1]));
      IdsOfUnion(ScopeNodesAll(ss[..|ss| - 1]), ScopeNodes(ss[|ss| - 1]));
    }
  }

  /** `m` is the scope node `m0` after type enrichment: the same id and status, its own types enriched. */
  predicate ScopeTypesEnrichedFrom(m0: Scope, m: Scope, typesByName: TypeResults) {
    m0.id == m.id && m0.status == m.status && m.types == EnrichTypes(m0.types, typesByName)
  }

  /**
   * Enriching the types of a scope leaves no type to enrich; every node is a
   * node of the original tree with the same id and status and its own types
   * enriched, and no id is lost.
   */
  lemma {:induction false} TypesInScopeEnriched(s: Scope, typesByName: TypeResults)
    ensures var r := EnrichTypesInScope(s, typesByName);
      && (forall m | m in ScopeNodes(r) :: TypesEnriched(m.types, typesByName) &&
            exists m0 | m0 in ScopeNodes(s) :: ScopeTypesEnrichedFrom(m0, m, typesByName))
      && IdsOf(ScopeNodes(r)) == IdsOf(ScopeNodes(s))
    decreases s, 1
  {
    EnrichTypesFixed(s.types, typesByName);
    var r := EnrichTypesInScope(s, typesByName);
    assert ScopeTypesEnrichedFrom(s, r, typesByName);
    if s.children.Scopes? {
      TypesInScopesEnriched(s.children.items, typesByName);
      IdsOfUnion({r}, ScopeNodesAll(r.children.items));
      IdsOfUnion({s}, ScopeNodesAll(s.children.items));
    }
  }

  /** The list form of `TypesInScopeEnriched`. */
  lemma {:induction false} TypesInScopesEnriched(ss: seq<Scope>, typesByName: TypeResults)
    ensures var r := EnrichTypesInScopes(ss, typesByName);
      && (forall m | m in ScopeNodesAll(r) :: TypesEnriched(m.types, typesByName) &&
            exists m0 | m0 in ScopeNodesAll(ss) :: ScopeTypesEnrichedFrom(m0, m, typesByName))
      && IdsOf(ScopeNodesAll(r)) == IdsOf(ScopeNodesAll(ss))
    decreases ss, 0
  {
    if ss != [] {
      var r := EnrichTypesInScopes(ss, typesByName);
      assert r[..|r| - 1] == EnrichTypesInScopes(ss[..|ss| - 1], typesByName);
      TypesInScopesEnriched(ss[..|ss| - 1], typesByName);
      TypesInScopeEnriched(ss[|ss| - 1], typesByName);
      IdsOfUnion(ScopeNodesAll(r[..|r| - 1]), ScopeNodes(r[|r| - 1]));
      IdsOfUnion(ScopeNodesAll(ss[..|ss| - 1]), ScopeNodes(ss[|ss| - 1]));
    }
  }

  /**
   * `enrichScopeRecursivelyWithTypeAndReleaseStatusInformation` once the
   * services have answered: types first, then release status.
   */
  function EnrichScope(scope: Scope, typesByName: TypeResults, releaseStatus: StatusResults): Scope {
    EnrichReleaseStatusInScope(EnrichTypesInScope(scope, typesByName), releaseStatus)
  }

  /**
   * After the whole scope enrichment every node is a node of the original
   * scope with its own types enriched and the release status of its id,
   * and the tree holds the same ids.
   */
  lemma ScopeFullyEnriched(scope: Scope, typesByName: TypeResults, releaseStatus: StatusResults)
    ensures forall m | m in ScopeNodes(EnrichScope(scope, typesByName, releaseStatus)) ::
      TypesEnriched(m.types, typesByName) && m.status == StatusOf(releaseStatus, m.id)
    ensures forall m | m in ScopeNodes(EnrichScope(scope, typesByName, releaseStatus)) ::
      exists m0 | m0 in ScopeNodes(scope) :: m0.id == m.id && m.types == EnrichTypes(m0.types, typesByName)
    ensures IdsOf(ScopeNodes(EnrichScope(scope, typesByName, releaseStatus))) == IdsOf(ScopeNodes(scope))
  {
    var t := EnrichTypesInScope(scope, typesByName);
    TypesInScopeEnriched(scope, typesByName);
    ReleaseStatusStamped(t, releaseStatus);
    forall m | m in ScopeNodes(EnrichScope(scope, typesByName, releaseStatus))
      ensures TypesEnriched(m.types, typesByName)
      ensures exists m0 | m0 in ScopeNodes(scope) :: m0.id == m.id && m.types == EnrichTypes(m0.types, typesByName)
    {
      var m1 :| m1 in ScopeNodes(t) && m1.id == m.id && m1.types == m.types;
      var m0 :| m0 in ScopeNodes(scope) && ScopeTypesEnrichedFrom(m0, m1, typesByName);
    }
  }
}

=== FILE: instance_view.dfy ===
/**
 * The instance page of the editor (`Instance`): which view a mode opens for
 * the user's permissions, the label of a refused action, where the refusal
 * links to, and when the save bar is hidden.  The type store's verdict on
 * whether the instance's types are supported is an argument.
 */
module Instances {
  import opened Wrappers

  /** The permissions the service grants the user on an instance; a missing flag is false. */
  datatype Permissions = Permissions(
    canRead: bool,
    canCreate: bool,
    canWrite: bool,
    canRelease: bool,
    canDelete: bool,
    canInviteForSuggestion: bool)

  /** An instance as the instance views read it. */
  datatype Instance = Instance(id: string, isNew: bool, permissions: Permissions)

  /** The path of an instance's page in a mode: the view mode has no suffix, every other mode is the last segment. */
  function InstancePath(id: string, mode: string): string {
    if mode == "view" then "/instances/" + id else "/instances/" + id + "/" + mode
  }

  /** The id and mode an instance path names, or `None` for any other path. */
  function ParseInstancePath(path: string): Option<(string, string)> {
    var prefix := "/instances/";
    if |path| < |prefix| || path[..|prefix|] != prefix then None
    else
      var rest := path[|prefix|..];
      match SlashIndex(rest)
      case None => Some((rest, "view"))
      case Some(k) => Some((rest[..k], rest[k + 1..]))
  }

  /** The index of the first `/` of `s`, if any. */
  function SlashIndex(s: string): (r: Option<nat>)
    ensures r.None? <==> '/' !in s
    ensures r.Some? ==> r.value < |s| && s[r.value] == '/' && '/' !in s[..r.value]
  {
    if s == [] then None
    else if s[0] == '/' then Some(0)
    else
      match SlashIndex(s[1..])
      case None => None
      case Some(i) =>
        assert s[..i + 1] == [s[0]] + s[1..][..i];
        Some(i + 1)
  }

  /** Instance paths are unambiguous: parsing the path of an id without `/` gives back the id and the mode. */
  lemma InstancePathRoundTrip(id: string, mode: string)
    requires '/' !in id
    ensures ParseInstancePath(InstancePath(id, mode)) == Some((id, mode))
  {
    var prefix := "/instances/";
    var path := InstancePath(id, mode);
    assert path[..|prefix|] == prefix;
    var rest := path[|prefix|..];
    if mode == "view" {
      assert rest == id;
    } else {
      assert rest == id + "/" + mode;
      assert rest[|id|] == '/' && rest[..|id|] == id;
      var k := SlashIndex(rest).value;
      assert k == |id|;
      assert rest[k + 1..] == mode;
    }
  }
}

module InstanceView {
  import opened Wrappers
  import opened Instances

  /** What the body of the instance page shows. */
  datatype Pane = InstanceForm | InstanceGraph | InstanceRelease | InstanceManage | InstanceRaw | NoPermissionForView

  /**
   * `View`: create, edit, view and release need the matching permission and
   * supported types; graph, manage and raw need only the read permission;
   * any other mode, or a missing permission, gives the refusal.
   */
  function View(mode: string, p: Permissions, typesSupported: bool): (r: Pane)
    ensures r == InstanceForm <==>
      || (mode == "create" && p.canCreate && typesSupported)
      || (mode == "edit" && p.canWrite && typesSupported)
      || (mode == "view" && p.canRead && typesSupported)
    ensures r == InstanceGraph <==> mode == "graph" && p.canRead
    ensures r == InstanceRelease <==> mode == "release" && p.canRelease && typesSupported
    ensures r == InstanceManage <==> mode == "manage" && p.canRead
    ensures r == InstanceRaw <==> mode == "raw" && p.canRead
  {
    if mode == "create" && p.canCreate && typesSupported then InstanceForm
    else if mode == "edit" && p.canWrite && typesSupported then InstanceForm
    else if mode == "view" && p.canRead && typesSupported then InstanceForm
    else if mode == "graph" && p.canRead then InstanceGraph
    else if mode == "release" && p.canRelease && typesSupported then InstanceRelease
    else if mode == "manage" && p.canRead then InstanceManage
    else if mode == "raw" && p.canRead then InstanceRaw
    else NoPermissionForView
  }

  /** The modes the page knows. */
  const Modes: set<string> := {"create", "edit", "view", "graph", "release", "manage", "raw"}

  /** Any mode the page does not know is refused, whatever the permissions. */
  lemma UnknownModeRefused(mode: string, p: Permissions, typesSupported: bool)
    requires mode !in Modes
    ensures View(mode, p, typesSupported) == NoPermissionForView
  {
  }

  /** Without the read permission only the create, edit and release modes can open. */
  lemma ReadlessModes(mode: string, p: Permissions, typesSupported: bool)
    requires !p.canRead && View(mode, p, typesSupported) != NoPermissionForView
    ensures mode in {"create", "edit", "release"} && typesSupported
  {
  }

  /** `getActionLabel`: the verb of the refusal message; raw is "view", graph is "visualize", any other mode is itself. */
  function ActionLabel(mode: string): (r: string)
    ensures mode == "raw" ==> r == "view"
    ensures mode == "graph" ==> r == "visualize"
    ensures mode != "raw" && mode != "graph" ==> r == mode
  {
    if mode == "raw" then "view" else if mode == "graph" then "visualize" else mode
  }

  /** The link of the refusal: the instance's page in view mode when it can be read, the browse page otherwise. */
  function NoPermissionLink(instance: Instance): (r: string)
    ensures instance.permissions.canRead ==> r == InstancePath(instance.id, "view")
    ensures !instance.permissions.canRead ==> r == "/browse"
  {
    if instance.permissions.canRead then "/instances/" + instance.id else "/browse"
  }

  /** The refusal's link to the instance leads to a view it may open. */
  lemma NoPermissionLinkOpens(instance: Instance, typesSupported: bool)
    requires instance.permissions.canRead && typesSupported && '/' !in instance.id
    ensures var target := ParseInstancePath(NoPermissionLink(instance)).value;
      target.0 == instance.id && View(target.1, instance.permissions, typesSupported) != NoPermissionForView
  {
    InstancePathRoundTrip(instance.id, "view");
  }

  /**
   * Refused actions are named unambiguously: every known mode has a verb of
   * the refusal sentence, and two modes share their verb only when they are
   * view and raw, which both need the read permission.
   */
  lemma ActionLabelVerbs(m1: string, m2: string)
    requires m1 in Modes && m2 in Modes
    ensures ActionLabel(m1) in {"create", "edit", "view", "visualize", "release", "manage"}
    ensures ActionLabel(m1) == ActionLabel(m2) <==> m1 == m2 || {m1, m2} == {"view", "raw"}
  {
  }

  /** The refusal pane (`NoPermissionForView`): its sentence and the target of its button. */
  datatype Refusal = Refusal(message: string, link: string)

  /** The refusal of a mode: the sentence names the refused action and the instance, the button follows `NoPermissionLink`. */
  function RefusalFor(instance: Instance, mode: string): (r: Refusal)
    ensures r.link == NoPermissionLink(instance)
    ensures r.message == "You do not have permission to " + ActionLabel(mode) + " the instance \"" + instance.id + "\"."
  {
    Refusal("You do not have permission to " + ActionLabel(mode) + " the instance \"" + instance.id + "\".",
            NoPermissionLink(instance))
  }

  /**
   * A reader whose instance has unsupported types is refused the view mode
   * with the verb "view", and the refusal's button leads back to that same
   * refused view.
   */
  lemma ViewRefusalLoops(instance: Instance)
    requires instance.permissions.canRead && '/' !in instance.id
    ensures View("view", instance.permissions, false) == NoPermissionForView
    ensures ActionLabel("view") == "view"
    ensures ParseInstancePath(RefusalFor(instance, "view").link) == Some((instance.id, "view"))
  {
    InstancePathRoundTrip(instance.id, "view");
  }

  /** The save bar is hidden iff nothing is unsaved and the page is not in edit mode. */
  function SaveBarHidden(hasUnsavedChanges: bool, mode: string): (r: bool)
    ensures r <==> !hasUnsavedChanges && mode != "edit"
    ensures mode == "edit" ==> !r
  {
    !hasUnsavedChanges && mode != "edit"
  }
}

=== FILE: json_string.dfy ===
/**
 * `JSON.stringify` applied to a string (ECMAScript QuoteJSONString): the text is
 * wrapped in double quotes, `"` and `\` are escaped, the five short control
 * escapes are used where they exist and every other code point below U+0020 is
 * written as `\u00xx` with lower-case hex digits.  A decoder is given as the
 * partner, and the round trip is proved.
 */
module JsonString {
  import opened Wrappers

  const HexDigits: string := "0123456789abcdef"

  function EscapeChar(c: char): (r: string)
    ensures |r| >= 1
  {
    if c == '"' then "\\\""
    else if c == '\\' then "\\\\"
    else if c == '\U{8}' then "\\b"
    else if c == '\t' then "\\t"
    else if c == '\n' then "\\n"
    else if c == '\U{C}' then "\\f"
    else if c == '\r' then "\\r"
    else if c < ' ' then "\\u00" + [HexDigits[c as int / 16], HexDigits[c as int % 16]]
    else [c]
  }

  function Escape(s: string): string {
    if s == [] then [] else EscapeChar(s[0]) + Escape(s[1..])
  }

  /** The text `JSON.stringify(s)` produces for a string `s`. */
  function Stringify(s: string): (r: string)
    ensures |r| >= |s| + 2 && r[0] == '"' && r[|r| - 1] == '"'
  {
    EscapeLength(s);
    "\"" + Escape(s) + "\""
  }

  lemma {:induction false} EscapeLength(s: string)
    ensures |Escape(s)| >= |s|
  {
    if s != [] {
      EscapeLength(s[1..]);
    }
  }

  function HexValue(c: char): Option<nat> {
    if '0' <= c <= '9' then Some(c as int - '0' as int)
    else if 'a' <= c <= 'f' then Some(c as int - 'a' as int + 10)
    else if 'A' <= c <= 'F' then Some(c as int - 'A' as int + 10)
    else None
  }

  /** The code point of four hex digits, when they are four hex digits. */
  function Hex4(h: string): (r: Option<nat>)
    requires |h| == 4
    ensures r.Some? ==> r.value < 0x1_0000
  {
    var a, b, c, d := HexValue(h[0]), HexValue(h[1]), HexValue(h[2]), HexValue(h[3]);
    if a.Some? && b.Some? && c.Some? && d.Some? && a.value < 16 && b.value < 16 && c.value < 16 && d.value < 16
    then Some(((a.value * 16 + b.value) * 16 + c.value) * 16 + d.value)
    else None
  }

  /** Decodes the body of a JSON string literal (the part between the quotes). */
  function Unescape(s: string): Option<string>
    decreases |s|
  {
    if s == [] then Some([])
    else if s[0] == '\\' then
      if |s| < 2 then None
      else
        var e := s[1];
        if e == 'u' then
          if |s| < 6 then None
          else match Hex4(s[2..6])
            case None => None
            case Some(v) =>
              if 0xD800 <= v < 0xE000 then None
              else Prepend(v as char, Unescape(s[6..]))
        else
          var c :=
            if e == '"' then Some('"') else if e == '\\' then Some('\\')
            else if e == '/' then Some('/') else if e == 'b' then Some('\U{8}')
            else if e == 't' then Some('\t') else if e == 'n' then Some('\n')
            else if e == 'f' then Some('\U{C}') else if e == 'r' then Some('\r')
            else None;
          if c.None? then None else Prepend(c.value, Unescape(s[2..]))
    else if s[0] == '"' || s[0] < ' ' then None
    else Prepend(s[0], Unescape(s[1..]))
  }

  function Prepend(c: char, rest: Option<string>): Option<string> {
    if rest.None? then None else Some([c] + rest.value)
  }

  /** Decodes a whole JSON string literal. */
  function Parse(t: string): Option<string> {
    if |t| >= 2 && t[0] == '"' && t[|t| - 1] == '"' then Unescape(t[1..|t| - 1]) else None
  }

  /** A control character without a short escape is written as `\u00xx`, and decodes back. */
  lemma UnescapeHexEscape(c: char, rest: string)
    requires c < ' ' && c != '\U{8}' && c != '\t' && c != '\n' && c != '\U{C}' && c != '\r'
    ensures Unescape(EscapeChar(c) + rest) == Prepend(c, Unescape(rest))
  {
    var t := EscapeChar(c) + rest;
    var hi, lo := c as int / 16, c as int % 16;
    assert hi == 0 || hi == 1;
    assert t[2..6] == "00" + [HexDigits[hi], HexDigits[lo]];
    assert HexValue(HexDigits[hi]) == Some(hi);
    assert HexValue(HexDigits[lo]) == Some(lo);
    assert t[6..] == rest;
  }

  /** A character with a two-character escape decodes back. */
  lemma UnescapeShortEscape(c: char, rest: string)
    requires c == '"' || c == '\\' || c == '\U{8}' || c == '\t' || c == '\n' || c == '\U{C}' || c == '\r'
    ensures Unescape(EscapeChar(c) + rest) == Prepend(c, Unescape(rest))
  {
    var t := EscapeChar(c) + rest;
    assert t[2..] == rest;
  }

  /** Every escaped character decodes back, whatever follows it. */
  lemma UnescapeEscapeChar(c: char, rest: string)
    ensures Unescape(EscapeChar(c) + rest) == Prepend(c, Unescape(rest))
  {
    if c < ' ' && c != '\U{8}' && c != '\t' && c != '\n' && c != '\U{C}' && c != '\r' {
      UnescapeHexEscape(c, rest);
    } else if c == '"' || c == '\\' || c == '\U{8}' || c == '\t' || c == '\n' || c == '\U{C}' || c == '\r' {
      UnescapeShortEscape(c, rest);
    } else {
      var t := EscapeChar(c) + rest;
      assert t[1..] == rest;
    }
  }

  lemma {:induction false} UnescapeEscape(s: string)
    ensures Unescape(Escape(s)) == Some(s)
  {
    if s != [] {
      UnescapeEscape(s[1..]);
      UnescapeEscapeChar(s[0], Escape(s[1..]));
      assert [s[0]] + s[1..] == s;
    }
  }

  /** Decoding what `Stringify` wrote gives back the original message. */
  lemma ParseStringify(s: string)
    ensures Parse(Stringify(s)) == Some(s)
  {
    var t := Stringify(s);
    assert t[1..|t| - 1] == Escape(s);
    UnescapeEscape(s);
  }

  /** Hence two different messages never render to the same text. */
  lemma StringifyInjective(s1: string, s2: string)
    ensures Stringify(s1) == Stringify(s2) ==> s1 == s2
  {
    ParseStringify(s1);
    ParseStringify(s2);
  }
}

=== FILE: kg_table_class.dfy ===
/**
 * The store object itself: `KgTableStore` keeps the state of `KgTable.Store`
 * in mutable fields, and each method updates them in place the way the store's
 * actions do (the `forEach` loops over a batch, `visibleInstances++`, the queue
 * `add`/`delete`).  Every method is proved to leave `State()` equal to the
 * matching transition of the old state; that those transitions keep the store
 * invariant is proved once, about the transitions, in `KgTableProperties`.
 */
module KgTableClass {
  import opened Wrappers
  import opened KgTable
  import P = KgTableProperties

  /** The `forEach` of `fetchQueue` before the request: mark each batched record fetching, error cleared. */
  method MarkBatch(records: map<Id, InstanceRecord>, batch: seq<Id>) returns (m: map<Id, InstanceRecord>)
    requires forall id | id in batch :: id in records
    ensures m == MarkFetching(records, batch)
    ensures m.Keys == records.Keys
    ensures forall id | id in batch :: m[id].isFetching && m[id].fetchError == None
  {
    m := records;
    for i := 0 to |batch|
      invariant m == MarkFetching(records, batch[..i])
    {
      assert batch[..i + 1][..i] == batch[..i];
      m := m[batch[i] := m[batch[i]].(isFetching := true, fetchError := None)];
    }
    assert batch[..|batch|] == batch;
  }

  /** One more batched id settled: the records of the longer prefix extend those of the shorter one. */
  lemma SettleAllStep(records: map<Id, InstanceRecord>, batch: seq<Id>, i: nat, response: Response)
    requires NoDup(batch) && (forall id | id in batch :: id in records) && i < |batch|
    ensures NoDup(batch[..i]) && NoDup(batch[..i + 1]) && batch[..i + 1] == batch[..i] + [batch[i]]
    ensures var prior := SettleAll(records, batch[..i], response);
      && batch[i] in prior
      && SettleAll(records, batch[..i + 1], response) == prior[batch[i] := Settle(prior[batch[i]], batch[i], response)]
  {
    assert batch[..i + 1][..i] == batch[..i];
    assert batch[i] !in batch[..i];
  }

  /**
   * The `forEach` of `fetchQueue` after the response: give each batched record
   * its outcome and delete its id from the queue.
   */
  method SettleBatch(records: map<Id, InstanceRecord>, queue: seq<Id>, batch: seq<Id>, response: Response)
    returns (m: map<Id, InstanceRecord>, q: seq<Id>)
    requires NoDup(batch) && forall id | id in batch :: id in records
    ensures m == SettleAll(records, batch, response) && q == Without(queue, batch)
    ensures forall id | id in batch :: !m[id].isFetching && id !in q
  {
    m, q := records, queue;
    P.WithoutNone(queue, []);
    for i := 0 to |batch|
      invariant m == SettleAll(records, batch[..i], response)
      invariant q == Without(queue, batch[..i])
    {
      var id := batch[i];
      SettleAllStep(records, batch, i, response);
      m := m[id := Settle(m[id], id, response)];
      P.WithoutSnoc(queue, batch[..i], id);
      q := Without(q, [id]);
    }
    assert batch[..|batch|] == batch;
    BatchSettled(records, queue, batch, response);
  }

  /** After settling, no batched record is fetching and no batched id is queued. */
  lemma BatchSettled(records: map<Id, InstanceRecord>, queue: seq<Id>, batch: seq<Id>, response: Response)
    requires NoDup(batch) && forall id | id in batch :: id in records
    ensures forall id | id in batch :: !SettleAll(records, batch, response)[id].isFetching && id !in Without(queue, batch)
  {
    WithoutMembers(queue, batch);
  }

  class KgTableStore {
    var value: seq<Id>
    var instances: seq<Id>
    var instancesMap: map<Id, InstanceRecord>
    var queue: seq<Id>
    var isFetchingQueue: bool
    var timerArmed: bool
    var inFlight: seq<Id>
    var visibleInstances: nat
    var defaultVisibleInstances: nat
    var max: Option<nat>
    var optionsCount: nat
    var optionsCurrentTotal: Option<nat>
    var fetchingOptions: bool
    const mappingValue: string
    const mappingLabel: string

    /** The abstract state the fields hold. */
    function State(): Store
      reads this
    {
      Store(value, instances, instancesMap, queue, isFetchingQueue, timerArmed, inFlight,
            visibleInstances, defaultVisibleInstances, max, optionsCount, optionsCurrentTotal, fetchingOptions)
    }

    /** Construction injects the provided value into a fresh store. */
    constructor (provided: seq<Option<Id>>, max: Option<nat>, mappingValue: string, mappingLabel: string)
      ensures State() == Initial().(max := max).InjectValue(provided, mappingValue, mappingLabel)
      ensures State().Valid() && State().Resolvable()
      ensures this.mappingValue == mappingValue && this.mappingLabel == mappingLabel
    {
      value, instances, instancesMap, queue := [], [], map[], [];
      isFetchingQueue, timerArmed, inFlight := false, false, [];
      visibleInstances, defaultVisibleInstances := 0, 10;
      this.max := max;
      optionsCount, optionsCurrentTotal, fetchingOptions := 0, None, false;
      this.mappingValue, this.mappingLabel := mappingValue, mappingLabel;
      new;
      InjectValue(provided);
      P.InjectValueValid(Initial().(max := max), provided, mappingValue, mappingLabel);
    }

    /** `fetchQueue` up to the request: no-op while in flight, else mark the oldest ids fetching. */
    method FetchQueue()
      requires State().Resolvable()
      modifies this
      ensures State() == old(State()).FetchQueue()
    {
      if isFetchingQueue {
        return;
      }
      ghost var s0 := State();
      var batch := queue[..Min(|queue|, QueueThreshold)];
      var m := MarkBatch(instancesMap, batch);
      isFetchingQueue := true;
      instancesMap := m;
      inFlight := batch;
      assert State() == s0.FetchQueue();
    }

    /** `processQueue`: cancel the debounce, re-arm it, or dispatch at once when no fetch is in flight. */
    method ProcessQueue()
      requires State().Resolvable()
      modifies this
      ensures State() == old(State()).ProcessQueue()
    {
      if |queue| == 0 {
        timerArmed := false;
      } else if |queue| < QueueThreshold {
        timerArmed := true;
      } else if !isFetchingQueue {
        timerArmed := false;
        FetchQueue();
      }
    }

    /** The debounced `fetchQueue` call runs. */
    method TimerFires()
      requires State().Resolvable()
      modifies this
      ensures State() == old(State()).TimerFires()
    {
      if timerArmed {
        timerArmed := false;
        FetchQueue();
      }
    }

    /** `fetchInstance`: add the id to the queue and run the policy. */
    method FetchInstance(id: Id)
      requires State().Resolvable() && id in instancesMap
      modifies this
      ensures State() == old(State()).FetchInstance(id)
    {
      queue := Enqueue(queue, id);
      ProcessQueue();
    }

    /** `addInstance`: list a known id once, or create, list and queue an unknown one; returns its record. */
    method AddInstance(id: Id) returns (record: InstanceRecord)
      requires State().Resolvable()
      modifies this
      ensures State() == old(State()).AddInstance(id, mappingValue, mappingLabel)
      ensures id in instancesMap && record == instancesMap[id]
    {
      if id in instancesMap {
        if id !in instances {
          instances := instances + [id];
        }
      } else {
        instancesMap := instancesMap[id := NewRecord(id, mappingValue, mappingLabel)];
        instances := instances + [id];
        FetchInstance(id);
      }
      record := instancesMap[id];
    }

    /**
     * `fetchQueue` once the response is in: every batched record gets its
     * outcome and leaves the queue, then the policy runs again.
     */
    method CompleteFetch(response: Response)
      requires State().Resolvable() && isFetchingQueue
      requires NoDup(inFlight) && forall id | id in inFlight :: id in instancesMap
      modifies this
      ensures State() == old(State()).CompleteFetch(response)
    {
      ghost var s0 := State();
      var m, q := SettleBatch(instancesMap, queue, inFlight, response);
      instancesMap, queue, isFetchingQueue, inFlight := m, q, false, [];
      ghost var t := s0.ApplyResponse(response);
      assert t.instancesMap == m && t.queue == q;
      assert State() == t;
      ProcessQueue();
    }

    /**
     * `showInstance`: mark the record shown and count it, once; for an id
     * without a record it throws (`threw`) and changes nothing.
     */
    method ShowInstance(id: Id) returns (threw: bool)
      modifies this
      ensures threw <==> old(State()).TryShowInstance(id).Throws?
      ensures threw ==> State() == old(State())
      ensures !threw ==> State() == old(State()).TryShowInstance(id).value
    {
      if id !in instancesMap {
        return true;
      }
      var record := instancesMap[id];
      if !record.show {
        instancesMap := instancesMap[id := record.(show := true)];
        visibleInstances := visibleInstances + 1;
      }
      threw := false;
    }

    /**
     * `visibleInstancesCount`: the default-visible prefix plus the shown
     * records, counting down the shown records of that prefix.
     */
    method VisibleInstancesCount() returns (count: int)
      ensures count == P.VisibleInstancesCountSpec(State())
      ensures visibleInstances == State().ShownAmong(instances) ==>
        count == P.VisibleRows(State(), |instances|)
    {
      var d := if defaultVisibleInstances > |instances| then |instances| else defaultVisibleInstances;
      count := d + visibleInstances;
      for i := 0 to d
        invariant count == d + visibleInstances - State().ShownAmong(instances[..i])
      {
        assert instances[..i + 1][..i] == instances[..i];
        var id := instances[i];
        if id in instancesMap && instancesMap[id].show {
          count := count - 1;
        }
      }
      if visibleInstances == State().ShownAmong(instances) {
        P.VisibleCountMatchesRows(State());
      }
    }

    /** `removeInstance`: drop the record and unlist the id. */
    method RemoveInstance(id: Id)
      modifies this
      ensures State() == old(State()).RemoveInstance(id)
    {
      instancesMap := instancesMap - {id};
      instances := Without(instances, [id]);
    }

    /** `removeAllInstancesAndValues`. */
    method RemoveAllInstancesAndValues()
      modifies this
      ensures State() == old(State()).RemoveAllInstancesAndValues()
    {
      value := [];
      instancesMap := map[];
      instances := [];
    }

    /**
     * `injectValue`: empty the value and the list, then add every truthy
     * provided id while fewer than `max` are kept.
     */
    method InjectValue(provided: seq<Option<Id>>)
      requires State().Resolvable()
      modifies this
      ensures State() == old(State()).InjectValue(provided, mappingValue, mappingLabel)
    {
      value := [];
      instances := [];
      ghost var start := State();
      for i := 0 to |provided|
        invariant State() == start.InjectAll(provided[..i], mappingValue, mappingLabel)
        invariant State().Resolvable()
      {
        assert provided[..i + 1][..i] == provided[..i];
        var entry := provided[i];
        if entry.None? || (max.Some? && |value| >= max.value) {
          continue;
        }
        var _ := AddInstance(entry.value);
        value := value + [entry.value];
      }
      assert provided[..|provided|] == provided;
    }
  }
}

=== FILE: kg_table_properties.dfy ===
/**
 * Properties of the label-resolution queue and the instance table: the store
 * invariant is kept by every action, nothing waits without a timer or a fetch
 * to drain it, adding is idempotent, a completed batch is settled id by id and
 * leaves the queue, and the visible-row count agrees with row visibility.
 */
module KgTableProperties {
  import opened Wrappers
  import opened KgTable

  // ------------------------------------------------------------ the invariant

  lemma FetchQueueValid(s: Store)
    requires s.Valid() && s.Resolvable()
    ensures s.FetchQueue().Valid()
  {
    if !s.isFetchingQueue {
      var r := s.FetchQueue();
      var b := s.Batch();
      assert r.inFlight == b == r.queue[..|b|];
    }
  }

  lemma ProcessQueueValid(s: Store)
    requires s.Valid() && s.Resolvable()
    ensures s.ProcessQueue().Valid()
  {
    if |s.queue| >= QueueThreshold && !s.isFetchingQueue {
      FetchQueueValid(s.(timerArmed := false));
    }
  }

  lemma TimerFiresValid(s: Store)
    requires s.Valid() && s.Resolvable()
    ensures s.TimerFires().Valid()
  {
    if s.timerArmed {
      FetchQueueValid(s.(timerArmed := false));
    }
  }

  lemma FetchInstanceValid(s: Store, id: Id)
    requires s.Valid() && s.Resolvable() && id in s.instancesMap
    ensures s.FetchInstance(id).Valid()
  {
    var s1 := s.(queue := Enqueue(s.queue, id));
    assert s1.queue[..|s1.inFlight|] == s.queue[..|s.inFlight|];
    ProcessQueueValid(s1);
  }

  lemma AddInstanceValid(s: Store, id: Id, mappingValue: string, mappingLabel: string)
    requires s.Valid() && s.Resolvable()
    ensures s.AddInstance(id, mappingValue, mappingLabel).Valid()
  {
    if id !in s.instancesMap {
      var s1 := s.(instancesMap := s.instancesMap[id := NewRecord(id, mappingValue, mappingLabel)],
                   instances := s.instances + [id]);
      assert id !in s.queue;
      assert id !in s.inFlight;
      assert s1.Valid();
      FetchInstanceValid(s1, id);
    }
  }

  /** Removing the leading `n` ids of a duplicate-free queue leaves its suffix. */
  lemma {:induction false} WithoutPrefix(q: seq<Id>, n: nat)
    requires NoDup(q) && n <= |q|
    ensures Without(q, q[..n]) == q[n..]
  {
    if n == 0 {
      WithoutNone(q, q[..0]);
    } else {
      assert q[0] in q[..n];
      var t := q[1..];
      assert NoDup(t);
      WithoutPrefix(t, n - 1);
      // dropping q[0] from the ids changes nothing on the tail, which lacks it
      WithoutIrrelevant(t, q[..n], t[..n - 1]);
    }
  }

  /** Deleting one more id (`Set.delete`) is removing it along with the earlier ones. */
  lemma {:induction false} WithoutSnoc(q: seq<Id>, ids: seq<Id>, id: Id)
    ensures Without(Without(q, ids), [id]) == Without(q, ids + [id])
  {
    if q != [] {
      var t := q[1..];
      WithoutSnoc(t, ids, id);
      var w := Without(t, ids);
      assert (q[0] in ids + [id]) <==> q[0] in ids || q[0] == id;
      if q[0] in ids {
        assert Without(q, ids) == w;
        assert Without(q, ids + [id]) == Without(t, ids + [id]);
      } else {
        var x := [q[0]] + w;
        assert Without(q, ids) == x;
        assert x[0] == q[0] && x[1..] == w;
        assert Without(x, [id]) == (if q[0] == id then [] else [q[0]]) + Without(w, [id]);
      }
    }
  }

  lemma {:induction false} WithoutNone(q: seq<Id>, ids: seq<Id>)
    requires forall k | k in q :: k !in ids
    ensures Without(q, ids) == q
  {
    if q != [] {
      WithoutNone(q[1..], ids);
    }
  }

  /** Two id lists that agree on the elements of `q` remove the same elements. */
  lemma {:induction false} WithoutIrrelevant(q: seq<Id>, ids1: seq<Id>, ids2: seq<Id>)
    requires forall k | k in q :: (k in ids1 <==> k in ids2)
    ensures Without(q, ids1) == Without(q, ids2)
  {
    if q != [] {
      WithoutIrrelevant(q[1..], ids1, ids2);
    }
  }

  lemma ApplyResponseValid(s: Store, response: Response)
    requires s.Valid() && s.Resolvable() && s.isFetchingQueue
    ensures s.ApplyResponse(response).Valid()
  {
    var t := s.ApplyResponse(response);
    WithoutPrefix(s.queue, |s.inFlight|);
    assert t.queue == s.queue[|s.inFlight|..];
    assert NoDup(t.queue);
    assert forall id | id in t.instances :: id in t.instancesMap;
    forall k | k in t.instancesMap
      ensures t.instancesMap[k].id == k && !t.instancesMap[k].isFetching
    {
      if k in s.inFlight {
        assert t.instancesMap[k] == Settle(s.instancesMap[k], k, response);
      } else {
        assert t.instancesMap[k] == s.instancesMap[k];
      }
    }
  }

  lemma CompleteFetchValid(s: Store, response: Response)
    requires s.Valid() && s.Resolvable() && s.isFetchingQueue
    ensures s.CompleteFetch(response).Valid()
  {
    ApplyResponseValid(s, response);
    ProcessQueueValid(s.ApplyResponse(response));
  }

  lemma ShowInstanceValid(s: Store, id: Id)
    requires s.Valid() && id in s.instancesMap
    ensures s.ShowInstance(id).Valid()
  {
  }

  lemma RemoveInstanceValid(s: Store, id: Id)
    requires s.Valid()
    ensures s.RemoveInstance(id).Valid()
  {
    WithoutNoDup(s.instances, [id]);
  }

  lemma {:induction false} WithoutNoDup(q: seq<Id>, ids: seq<Id>)
    requires NoDup(q)
    ensures NoDup(Without(q, ids))
  {
    if q != [] {
      assert NoDup(q[1..]);
      WithoutNoDup(q[1..], ids);
      WithoutMembers(q[1..], ids);
      assert q[0] !in q[1..];
    }
  }

  lemma RemoveAllInstancesAndValuesValid(s: Store)
    requires s.Valid()
    ensures s.RemoveAllInstancesAndValues().Valid()
  {
  }

  lemma {:induction false} InjectAllValid(s: Store, provided: seq<Option<Id>>, mv: string, ml: string)
    requires s.Valid() && s.Resolvable()
    ensures s.InjectAll(provided, mv, ml).Valid()
  {
    if provided != [] {
      var prior := s.InjectAll(provided[..|provided| - 1], mv, ml);
      InjectAllValid(s, provided[..|provided| - 1], mv, ml);
      var e := provided[|provided| - 1];
      if !(e.None? || (prior.max.Some? && |prior.value| >= prior.max.value)) {
        AddInstanceValid(prior, e.value, mv, ml);
      }
    }
  }

  lemma InjectValueValid(s: Store, provided: seq<Option<Id>>, mv: string, ml: string)
    requires s.Valid() && s.Resolvable()
    ensures s.InjectValue(provided, mv, ml).Valid()
  {
    InjectAllValid(s.(value := [], instances := []), provided, mv, ml);
  }

  // --------------------------------------------------------------- progress

  /**
   * Every action keeps `Progressing`: once the policy has run, a non-empty
   * queue always has the debounce armed or a fetch in flight, so no queued id
   * is stranded.
   */
  lemma ActionsKeepProgress(s: Store, id: Id, mv: string, ml: string)
    requires s.Resolvable() && s.Progressing()
    ensures s.AddInstance(id, mv, ml).Progressing()
    ensures s.TimerFires().Progressing()
    ensures id in s.instancesMap ==> s.ShowInstance(id).Progressing()
    ensures s.RemoveInstance(id).Progressing()
    ensures s.RemoveAllInstancesAndValues().Progressing()
  {
  }

  // ------------------------------------------------------------ idempotence

  /** Adding the same id twice is the same as adding it once: no second enqueue, no second listing. */
  lemma AddInstanceIdempotent(s: Store, id: Id, mv: string, ml: string)
    requires s.Resolvable()
    ensures var once := s.AddInstance(id, mv, ml); once.AddInstance(id, mv, ml) == once
  {
  }

  /** Showing a record twice counts it once. */
  lemma ShowInstanceIdempotent(s: Store, id: Id)
    requires id in s.instancesMap
    ensures s.ShowInstance(id).ShowInstance(id) == s.ShowInstance(id)
  {
  }

  // ------------------------------------------------------------- completion

  /**
   * Completion settles every batched id: it leaves the queue, is no longer
   * fetching, and its record is the outcome `Settle` assigns (and is not part
   * of a batch dispatched right away by the re-run policy).
   */
  lemma CompleteFetchSettlesBatch(s: Store, response: Response, id: Id)
    requires s.Valid() && s.Resolvable() && s.isFetchingQueue && id in s.inFlight
    ensures var r := s.CompleteFetch(response);
      && id !in r.queue && id !in r.inFlight
      && r.instancesMap[id] == Settle(s.instancesMap[id], id, response)
      && !r.instancesMap[id].isFetching
  {
    var t := s.ApplyResponse(response);
    assert s.CompleteFetch(response) == t.ProcessQueue();
    ProcessQueueSpares(t, id);
  }

  /** The policy touches no record outside the queue and the batch in flight. */
  lemma ProcessQueueSpares(t: Store, k: Id)
    requires t.Resolvable() && k in t.instancesMap && k !in t.queue && k !in t.inFlight
    ensures var r := t.ProcessQueue();
      r.instancesMap[k] == t.instancesMap[k] && k !in r.inFlight && k !in r.queue
  {
    if |t.queue| >= QueueThreshold && !t.isFetchingQueue {
      assert k !in t.Batch();
    }
  }

  /**
   * Ids not in the batch keep their records, except those of a batch the
   * re-run policy dispatches at once, which are marked as fetching.
   */
  lemma CompleteFetchKeepsOthers(s: Store, response: Response, k: Id)
    requires s.Valid() && s.Resolvable() && s.isFetchingQueue
    requires k in s.instancesMap && k !in s.inFlight
    ensures var r := s.CompleteFetch(response);
      || r.instancesMap[k] == s.instancesMap[k]
      || (k in r.inFlight && r.instancesMap[k] == s.instancesMap[k].(isFetching := true, fetchError := None))
  {
  }

  /**
   * The completed batch leaves the front of the queue, and the store stays
   * in flight only when the remaining ids reach the threshold (an immediate
   * next dispatch of the oldest remaining ids).
   */
  lemma CompleteFetchDrainsFront(s: Store, response: Response)
    requires s.Valid() && s.Resolvable() && s.isFetchingQueue
    ensures var r := s.CompleteFetch(response);
      && r.queue == s.queue[|s.inFlight|..]
      && (r.isFetchingQueue <==> |r.queue| >= QueueThreshold)
      && (r.isFetchingQueue ==> r.inFlight == r.queue[..QueueThreshold])
      && (0 < |r.queue| < QueueThreshold ==> r.timerArmed)
  {
    WithoutPrefix(s.queue, |s.inFlight|);
  }

  /**
   * The three per-id outcomes and the transport failure, as they stand after
   * completion.  A successful id keeps the cleared error from dispatch.
   */
  lemma CompleteFetchOutcome(s: Store, response: Response, id: Id)
    requires s.Valid() && s.Resolvable() && s.isFetchingQueue && id in s.inFlight
    ensures var before := s.instancesMap[id];
      var after := s.CompleteFetch(response).instancesMap[id];
      && !after.isFetching && after.show == before.show
      && (response.TransportFailed? ==>
            after.fetchError == Some("Error fetching instance " + id + " (" + response.detail + ")")
            && after.fields == before.fields && after.isFetched == before.isFetched)
      && (response.Received? && id !in response.data ==>
            after.fetchError == Some("Error fetching instance " + id)
            && after.fields == before.fields && after.isFetched == before.isFetched)
      && (response.Received? && id in response.data && response.data[id].ErrorEntry? ==>
            after.fetchError == StringifyMessage(response.data[id].message)
            && after.fields == before.fields && after.isFetched == before.isFetched)
      && (response.Received? && id in response.data && response.data[id].DataEntry? ==>
            after.isFetched && after.fetchError == None
            && NameFieldKey in after.fields
            && after.fields[NameFieldKey]["value"] == response.data[id].name)
  {
    CompleteFetchSettlesBatch(s, response, id);
  }

  /**
   * The columns follow the first listed record: once its fetch succeeds the
   * table is initialised without error and has the name column; once it
   * fails for want of an entry, or the request fails, the table is in its
   * initialisation error and shows only the id column.
   */
  lemma FirstRecordDecidesColumns(s: Store, response: Response)
    requires s.Valid() && s.Resolvable() && s.isFetchingQueue
    requires |s.instances| > 0 && s.instances[0] in s.inFlight
    ensures s.CompleteFetch(response).Valid()
    ensures var r := s.CompleteFetch(response); var first := s.instances[0];
      && (response.Received? && first in response.data && response.data[first].DataEntry? ==>
            r.IsInitialized() && !r.HasInitializationError() && NameFieldKey in r.DataColumns())
      && (response.TransportFailed? || (response.Received? && first !in response.data) ==>
            r.IsInitialized() && r.HasInitializationError() && r.DataColumns() == {"id"})
      && (response.Received? && first in response.data && response.data[first].ErrorEntry?
          && !response.data[first].message.Undefined? ==>
            r.IsInitialized() && r.HasInitializationError() && r.DataColumns() == {"id"})
  {
    var r := s.CompleteFetch(response);
    var first := s.instances[0];
    CompleteFetchValid(s, response);
    CompleteFetchOutcome(s, response, first);
    assert r.instances[0] == first;
    ColumnsFromFirst(r);
  }

  /** The columns as the first listed record's error and fields decide them. */
  lemma ColumnsFromFirst(r: Store)
    requires r.Valid() && |r.instances| > 0
    ensures var first := r.instancesMap[r.instances[0]];
      && (first.fetchError == None && NameFieldKey in first.fields ==>
            r.IsInitialized() && !r.HasInitializationError() && NameFieldKey in r.DataColumns())
      && (Truthy(first.fetchError) ==> r.IsInitialized() && r.HasInitializationError() && r.DataColumns() == {"id"})
  {
  }

  /**
   * More options can be loaded only while no options request runs, always
   * while the total is unknown (`Infinity`), and never once the total is
   * reached.
   */
  lemma HasMoreOptionsCases(s: Store)
    ensures s.fetchingOptions ==> !s.HasMoreOptions()
    ensures !s.fetchingOptions && s.optionsCurrentTotal.None? ==> s.HasMoreOptions()
    ensures s.optionsCurrentTotal.Some? && s.optionsCount >= s.optionsCurrentTotal.value ==> !s.HasMoreOptions()
    ensures !s.fetchingOptions && s.optionsCurrentTotal.Some? && s.optionsCount < s.optionsCurrentTotal.value ==>
      s.HasMoreOptions()
  {
  }

  // --------------------------------------------------------------- visibility

  /** How many of the first `n` rows `isInstanceVisible` reports visible. */
  function VisibleRows(s: Store, n: nat): nat
    requires n <= |s.instances|
  {
    if n == 0 then 0
    else VisibleRows(s, n - 1) + (if s.IsInstanceVisible(n - 1, s.instances[n - 1]) then 1 else 0)
  }

  lemma {:induction false} VisibleRowsSplit(s: Store, n: nat)
    requires n <= |s.instances|
    ensures VisibleRows(s, n)
      == Min(n, s.defaultVisibleInstances) + s.ShownAmong(s.instances[..n])
         - s.ShownAmong(s.instances[..Min(n, s.defaultVisibleInstances)])
  {
    if n > 0 {
      VisibleRowsSplit(s, n - 1);
      assert s.instances[..n][..n - 1] == s.instances[..n - 1];
      if n <= s.defaultVisibleInstances {
        assert s.instances[..Min(n, s.defaultVisibleInstances)] == s.instances[..n];
      } else {
        assert Min(n - 1, s.defaultVisibleInstances) == Min(n, s.defaultVisibleInstances);
      }
    }
  }

  /**
   * The count of visible rows (`visibleInstancesCount`) equals the number of
   * rows `isInstanceVisible` accepts, as long as `visibleInstances` counts
   * exactly the shown records of the list.
   */
  lemma VisibleCountMatchesRows(s: Store)
    requires s.visibleInstances == s.ShownAmong(s.instances)
    ensures VisibleInstancesCountSpec(s) == VisibleRows(s, |s.instances|)
  {
    VisibleRowsSplit(s, |s.instances|);
    assert s.instances[..|s.instances|] == s.instances;
  }

  // --------------------------------------------------------------- the rows

  /** The row of a record that is not settled: its id and the record, nothing else. */
  function BareRow(id: Id): Row {
    map["id" := Text(Some(id)), "instance" := InstanceRef(id)]
  }

  /**
   * While no listed record is settled, `list` is defined and every row is
   * bare: the columns are not read at all.
   */
  lemma UnsettledRowsAreBare(s: Store)
    requires s.Valid()
    requires forall i | 0 <= i < |s.instances| :: !s.Settled(s.instances[i])
    ensures s.List().Some?
    ensures forall i | 0 <= i < |s.instances| :: s.List().value[i] == BareRow(s.instances[i])
  {
  }

  /**
   * A settled row holds one cell per data column, the `value` of that field
   * (undefined when the field has none); the id and the record stay in their
   * own cells unless a data column of the same name overwrites them.
   */
  lemma SettledRowCells(s: Store, i: nat)
    requires s.Valid() && s.ListDefined() && i < |s.instances| && s.Settled(s.instances[i])
    ensures var row := s.List().value[i];
      var f := s.instancesMap[s.instances[i]].fields;
      && row.Keys == s.DataColumns() + {"id", "instance"}
      && (forall c | c in s.DataColumns() ::
            row[c] == Text(if "value" in f[c] then Some(f[c]["value"]) else None))
      && ("id" !in s.DataColumns() ==> row["id"] == Text(Some(s.instances[i])))
      && ("instance" !in s.DataColumns() ==> row["instance"] == InstanceRef(s.instances[i]))
  {
    assert s.List().value[i] == s.RowOf(s.instances[i]);
  }

  /**
   * Once the first record has been fetched without error, its name column is
   * shown: the first row's name cell is the fetched name.
   */
  lemma FetchedNameShows(s: Store, name: string)
    requires s.Valid() && s.ListDefined() && |s.instances| > 0
    requires var first := s.instancesMap[s.instances[0]];
      && s.Settled(s.instances[0]) && first.fetchError == None
      && NameFieldKey in first.fields && first.fields[NameFieldKey] == map["name" := "Name", "value" := name]
    ensures NameFieldKey in s.List().value[0]
    ensures s.List().value[0][NameFieldKey] == Text(Some(name))
  {
    ColumnsFromFirst(s);
    SettledRowCells(s, 0);
  }

  /**
   * When the first record failed, the only data column is "id", and a later
   * settled record without an "id" field makes `list` throw: it reads
   * `.value` of the missing field.
   */
  lemma FirstErrorBreaksList(s: Store)
    requires s.Valid() && |s.instances| >= 2
    requires Truthy(s.instancesMap[s.instances[0]].fetchError)
    requires s.Settled(s.instances[1]) && "id" !in s.instancesMap[s.instances[1]].fields
    ensures s.List().None?
  {
    ColumnsFromFirst(s);
    assert "id" in s.DataColumns();
  }

  /** The value `visibleInstancesCount` computes. */
  function VisibleInstancesCountSpec(s: Store): int {
    var d := s.DefaultShownRows();
    d + s.visibleInstances - s.ShownAmong(s.instances[..d])
  }

  lemma {:induction false} ShownAmongAfterShow(s: Store, id: Id, ids: seq<Id>)
    requires id in s.instancesMap && NoDup(ids)
    ensures s.ShowInstance(id).ShownAmong(ids)
      == s.ShownAmong(ids) + (if id in ids && !s.Shown(id) then 1 else 0)
  {
    if ids != [] {
      var init := ids[..|ids| - 1];
      assert NoDup(init);
      ShownAmongAfterShow(s, id, init);
      assert forall k :: k in ids <==> k in init || k == ids[|ids| - 1];
    }
  }

  /** `showInstance` of a listed record keeps `visibleInstances` equal to the shown records of the list. */
  lemma ShowInstanceKeepsAccounting(s: Store, id: Id)
    requires s.Valid() && id in s.instances
    requires s.visibleInstances == s.ShownAmong(s.instances)
    ensures s.ShowInstance(id).visibleInstances == s.ShowInstance(id).ShownAmong(s.ShowInstance(id).instances)
  {
    ShownAmongAfterShow(s, id, s.instances);
  }

  // ---------------------------------------------------------- single flight

  /**
   * While a request is in flight, no action but its completion sends another
   * or replaces the batch: at most one request is outstanding.
   */
  lemma NoSecondDispatch(s: Store, id: Id, mv: string, ml: string)
    requires s.Resolvable() && s.isFetchingQueue
    ensures s.FetchQueue().isFetchingQueue && s.FetchQueue().inFlight == s.inFlight
    ensures s.ProcessQueue().isFetchingQueue && s.ProcessQueue().inFlight == s.inFlight
    ensures s.TimerFires().isFetchingQueue && s.TimerFires().inFlight == s.inFlight
    ensures id in s.instancesMap ==>
      s.FetchInstance(id).isFetchingQueue && s.FetchInstance(id).inFlight == s.inFlight
    ensures s.AddInstance(id, mv, ml).isFetchingQueue && s.AddInstance(id, mv, ml).inFlight == s.inFlight
  {
    if s.timerArmed {
      assert s.TimerFires() == s.(timerArmed := false);
    }
    if id !in s.instancesMap {
      var s1 := s.(instancesMap := s.instancesMap[id := NewRecord(id, mv, ml)], instances := s.instances + [id]);
      assert s.AddInstance(id, mv, ml) == s1.FetchInstance(id);
    }
  }

  // ------------------------------------------------------------ injectValue

  /** The ids of the truthy entries, in order. */
  function Truthful(provided: seq<Option<Id>>): (ids: seq<Id>)
    ensures |ids| <= |provided|
  {
    if provided == [] then []
    else (if provided[0].Some? then [provided[0].value] else []) + Truthful(provided[1..])
  }

  /** The first `max` of `ids` (all of them without a maximum). */
  function Cap(ids: seq<Id>, max: Option<nat>): seq<Id> {
    if max.Some? && max.value < |ids| then ids[..max.value] else ids
  }

  /** The ids `injectValue` keeps: the first `max` truthy entries. */
  function Accepted(provided: seq<Option<Id>>, max: Option<nat>): seq<Id> {
    Cap(Truthful(provided), max)
  }

  lemma {:induction false} TruthfulSnoc(p: seq<Option<Id>>, e: Option<Id>)
    ensures Truthful(p + [e]) == Truthful(p) + (if e.Some? then [e.value] else [])
  {
    if p != [] {
      assert (p + [e])[1..] == p[1..] + [e];
      TruthfulSnoc(p[1..], e);
    }
  }

  /** One more entry is kept exactly when it is truthy and fewer than `max` ids are kept so far. */
  lemma AcceptedSnoc(init: seq<Option<Id>>, e: Option<Id>, max: Option<nat>)
    ensures Accepted(init + [e], max)
      == if e.Some? && !(max.Some? && |Accepted(init, max)| >= max.value)
         then Accepted(init, max) + [e.value] else Accepted(init, max)
  {
    TruthfulSnoc(init, e);
  }

  /**
   * `injectValue` keeps the first `max` truthy entries as the value, lists
   * each of their ids once in order of first occurrence, knows a record for
   * each, and queues every id it had no record for.
   */
  lemma {:induction false} InjectAllShape(t: Store, provided: seq<Option<Id>>, mv: string, ml: string)
    requires t.Resolvable() && t.value == [] && t.instances == []
    ensures var r := t.InjectAll(provided, mv, ml);
      && r.value == Accepted(provided, t.max)
      && r.instances == Dedup(r.value)
      && (forall k :: k in r.instancesMap <==> k in t.instancesMap || k in r.value)
      && t.queue <= r.queue
      && (forall k | k in r.value && k !in t.instancesMap :: k in r.queue)
      && r.max == t.max
  {
    if provided != [] {
      var init := provided[..|provided| - 1];
      var e := provided[|provided| - 1];
      assert provided == init + [e];
      InjectAllShape(t, init, mv, ml);
      AcceptedSnoc(init, e, t.max);
      var prior := t.InjectAll(init, mv, ml);
      assert t.InjectAll(provided, mv, ml) == prior.InjectOne(e, mv, ml);
      InjectOneKeepsShape(t, prior, e, mv, ml);
    }
  }

  /** One injected entry keeps the list the deduplicated value and keeps every new id queued. */
  lemma InjectOneKeepsShape(t: Store, prior: Store, e: Option<Id>, mv: string, ml: string)
    requires prior.Resolvable() && prior.instances == Dedup(prior.value) && prior.max == t.max
    requires forall k :: k in prior.instancesMap <==> k in t.instancesMap || k in prior.value
    requires t.queue <= prior.queue
    requires forall k | k in prior.value && k !in t.instancesMap :: k in prior.queue
    ensures var r := prior.InjectOne(e, mv, ml);
      && r.instances == Dedup(r.value)
      && (forall k :: k in r.instancesMap <==> k in t.instancesMap || k in r.value)
      && t.queue <= r.queue
      && (forall k | k in r.value && k !in t.instancesMap :: k in r.queue)
      && r.max == t.max
      && r.value == if e.Some? && !(t.max.Some? && |prior.value| >= t.max.value) then prior.value + [e.value] else prior.value
  {
    var r := prior.InjectOne(e, mv, ml);
    if e.Some? && !(prior.max.Some? && |prior.value| >= prior.max.value) {
      var id := e.value;
      assert id in prior.instances ==> id in prior.value;
      assert r.instances == if id in prior.instances then prior.instances else prior.instances + [id];
      DedupSnoc(prior.value, id);
    }
  }

  lemma InjectValueShape(s: Store, provided: seq<Option<Id>>, mv: string, ml: string)
    requires s.Resolvable()
    ensures var r := s.InjectValue(provided, mv, ml);
      && r.value == Accepted(provided, s.max)
      && r.instances == Dedup(r.value)
      && (forall k :: k in r.instancesMap <==> k in s.instancesMap || k in r.value)
      && (forall k | k in r.value && k !in s.instancesMap :: k in r.queue)
  {
    InjectAllShape(s.(value := [], instances := []), provided, mv, ml);
  }
}

=== FILE: kg_table_store.dfy ===
/**
 * The linked-instance table store of the editor (`KgTableStore`): the list of
 * linked instances shown in a table, the record cache keyed by instance id, and
 * the batched label-resolution queue that fetches instance summaries.
 *
 * The pure `Store` datatype and its transition functions specify every action;
 * the class `KgTableStore` (module `KgTableClass`) keeps the same state in
 * mutable fields and its methods are proved to perform exactly those
 * transitions.
 *
 * Time and the network are not modelled: the debounce timer is the flag
 * `timerArmed` plus the action `TimerFires`, and the suspended `fetchQueue` is
 * split into `FetchQueue` (everything up to the request) and `CompleteFetch`
 * (everything after the response, which is a parameter).
 */
module KgTable {
  import opened Wrappers
  import JsonString

  type Id = string

  /** One field descriptor of a summary: property name (`name`, `value`, a label key, ...) to text. */
  type FieldProps = map<string, string>

  /** The `fields` object of a record: field name to descriptor. */
  type Fields = map<string, FieldProps>

  /** Both the queue size that triggers an immediate dispatch and the batch-size cap. */
  const QueueThreshold: nat := 5000

  /** The debounce delay in milliseconds; time itself is not modelled. */
  const QueueTimeout: nat := 250

  /** The key under which every successful fetch stores the display name. */
  const NameFieldKey: string := "http://schema.org/name"

  /** The record kept for every linked instance (an entry of `instancesMap`). */
  datatype InstanceRecord = InstanceRecord(
    id: Id,
    mappingValue: string,
    mappingLabel: string,
    fetchError: Option<string>,
    isFetching: bool,
    isFetched: bool,
    fields: Fields,
    show: bool)

  function NewRecord(id: Id, mappingValue: string, mappingLabel: string): (r: InstanceRecord)
    ensures r.id == id && r.fetchError == None && !r.isFetching && !r.isFetched
    ensures r.fields == map[] && !r.show
  {
    InstanceRecord(id, mappingValue, mappingLabel, None, false, false, map[], false)
  }

  /** The `message` of an error entry: absent (undefined), `null`, or a string. */
  datatype ErrorMessage = Undefined | Null | Str(text: string)

  /**
   * One per-id entry of the summary response.  `ErrorEntry` is an entry whose
   * `error` is set; `DataEntry` is any other entry, with `fields` None when
   * the payload's `fields` is not an object.
   */
  datatype Entry =
    | ErrorEntry(message: ErrorMessage)
    | DataEntry(name: string, fields: Option<Fields>)

  /**
   * What the summary request delivers: the per-id entries (an id without an
   * entry is missing from the map), or a transport failure whose `detail` is
   * the text interpolated into the error (the exception's message, or the
   * exception itself when it has none).
   */
  datatype Response =
    | Received(data: map<Id, Entry>)
    | TransportFailed(detail: string)

  function Min(a: int, b: int): int {
    if a < b then a else b
  }

  /** `Set.add` on an insertion-ordered set. */
  function Enqueue(q: seq<Id>, id: Id): (r: seq<Id>)
    ensures id in r
    ensures forall k :: k in r <==> k in q || k == id
    ensures NoDup(q) ==> NoDup(r)
    ensures |r| <= |q| + 1
    ensures q <= r
  {
    if id in q then q else q + [id]
  }

  /** The elements of `q` that are not in `ids`, in their order (`Set.delete` / lodash `remove`). */
  function Without(q: seq<Id>, ids: seq<Id>): (r: seq<Id>)
    ensures |r| <= |q|
  {
    if q == [] then []
    else (if q[0] in ids then [] else [q[0]]) + Without(q[1..], ids)
  }

  /**
   * The message recorded for an error entry, `JSON.stringify(message)`:
   * undefined for an absent message, the text `null` for null, and the
   * quoted string otherwise.  Only an absent message leaves the record
   * without a (truthy) error.
   */
  function StringifyMessage(message: ErrorMessage): (r: Option<string>)
    ensures r.None? <==> message.Undefined?
    ensures message.Null? ==> r == Some("null")
    ensures message.Str? ==> r.Some? && JsonString.Parse(r.value) == Some(message.text)
    ensures Truthy(r) <==> !message.Undefined?
  {
    match message
    case Undefined => None
    case Null => Some("null")
    case Str(text) =>
      JsonString.ParseStringify(text);
      Some(JsonString.Stringify(text))
  }

  /** The fields stored on success: the payload's fields (or `{}`) with the name field set. */
  function NamedFields(fields: Option<Fields>, name: string): (r: Fields)
    ensures NameFieldKey in r && r[NameFieldKey] == map["name" := "Name", "value" := name]
    ensures forall k | k != NameFieldKey :: (k in r <==> fields.Some? && k in fields.value)
    ensures forall k | k != NameFieldKey && k in r :: r[k] == fields.value[k]
  {
    fields.GetOr(map[])[NameFieldKey := map["name" := "Name", "value" := name]]
  }

  /** What completing a batch does to the record of one batched id. */
  function Settle(r: InstanceRecord, id: Id, response: Response): (settled: InstanceRecord)
    ensures !settled.isFetching
    ensures settled.id == r.id && settled.show == r.show
    ensures settled.isFetched <==> r.isFetched || (response.Received? && id in response.data && response.data[id].DataEntry?)
  {
    match response
    case TransportFailed(detail) =>
      r.(fetchError := Some("Error fetching instance " + id + " (" + detail + ")"), isFetching := false)
    case Received(data) =>
      if id !in data then
        r.(fetchError := Some("Error fetching instance " + id), isFetching := false)
      else
        match data[id]
        case ErrorEntry(message) =>
          r.(fetchError := StringifyMessage(message), isFetching := false)
        case DataEntry(name, fields) =>
          r.(fields := NamedFields(fields, name), isFetched := true, isFetching := false)
  }

  /** The records after every id of `batch` is marked as fetching, one id at a time. */
  function MarkFetching(m: map<Id, InstanceRecord>, batch: seq<Id>): (r: map<Id, InstanceRecord>)
    requires forall id | id in batch :: id in m
    ensures r.Keys == m.Keys
    ensures forall k | k in m ::
      r[k] == if k in batch then m[k].(isFetching := true, fetchError := None) else m[k]
  {
    if batch == [] then m
    else
      var id := batch[|batch| - 1];
      var prior := MarkFetching(m, batch[..|batch| - 1]);
      assert forall k :: k in batch <==> k in batch[..|batch| - 1] || k == id;
      prior[id := prior[id].(isFetching := true, fetchError := None)]
  }

  /** The records after the response is applied to every id of `batch`, one id at a time. */
  function SettleAll(m: map<Id, InstanceRecord>, batch: seq<Id>, response: Response): (r: map<Id, InstanceRecord>)
    requires NoDup(batch) && forall id | id in batch :: id in m
    ensures r.Keys == m.Keys
    ensures forall k | k in m :: r[k] == if k in batch then Settle(m[k], k, response) else m[k]
  {
    if batch == [] then m
    else
      var id := batch[|batch| - 1];
      var prior := SettleAll(m, batch[..|batch| - 1], response);
      assert forall k :: k in batch <==> k in batch[..|batch| - 1] || k == id;
      assert id !in batch[..|batch| - 1];
      prior[id := Settle(m[id], id, response)]
  }

  /** Rows of `list`: cell name to cell. */
  datatype Cell = Text(text: Option<string>) | InstanceRef(ref: Id)
  type Row = map<string, Cell>

  /**
   * The state of one store.  `queue` is `instancesQueue` (a Set, kept here as
   * a sequence in insertion order), `timerArmed` says that the debounced fetch
   * is pending, and `inFlight` is the batch (`toProcess`) of the request that
   * has been sent and not yet answered.
   */
  datatype Store = Store(
    value: seq<Id>,
    instances: seq<Id>,
    instancesMap: map<Id, InstanceRecord>,
    queue: seq<Id>,
    isFetchingQueue: bool,
    timerArmed: bool,
    inFlight: seq<Id>,
    visibleInstances: nat,
    defaultVisibleInstances: nat,
    max: Option<nat>,
    optionsCount: nat,
    optionsCurrentTotal: Option<nat>,
    fetchingOptions: bool)
  {
    /**
     * The invariant every action keeps: no duplicates in the list or the queue,
     * every listed id has its record, the batch in flight is a capped prefix of
     * the queue and exists only while a fetch is in flight, and a record is
     * fetching only while its id is in flight with its error cleared.
     */
    ghost predicate Valid() {
      && NoDup(instances)
      && NoDup(queue)
      && (forall id | id in instances :: id in instancesMap)
      && (forall id | id in instancesMap :: instancesMap[id].id == id)
      && |inFlight| <= |queue|
      && inFlight == queue[..|inFlight|]
      && |inFlight| <= QueueThreshold
      && (!isFetchingQueue ==> inFlight == [])
      && (forall id | id in instancesMap && instancesMap[id].isFetching :: id in inFlight)
      && (forall id | id in inFlight && id in instancesMap :: instancesMap[id].fetchError == None)
    }

    /**
     * Every queued id still has its record.  The source dereferences the record
     * of every batched id, so each queue action needs this.
     */
    predicate Resolvable() {
      forall id | id in queue :: id in instancesMap
    }

    /** Nothing is stranded: while ids wait, the timer is armed or a fetch is in flight. */
    predicate Progressing() {
      queue != [] ==> timerArmed || isFetchingQueue
    }

    /** The ids the next dispatch sends: the oldest `QueueThreshold` queued ids. */
    function Batch(): (b: seq<Id>)
      ensures |b| == Min(|queue|, QueueThreshold) && b == queue[..|b|]
    {
      queue[..Min(|queue|, QueueThreshold)]
    }

    // ---------------------------------------------------------------- actions

    /** `fetchQueue` up to the request: mark the batch as fetching and send it. */
    function FetchQueue(): (r: Store)
      requires Resolvable()
      ensures r.Resolvable() && r.isFetchingQueue
      ensures r.value == value && r.instances == instances && r.queue == queue
      ensures r.instancesMap.Keys == instancesMap.Keys
      ensures r.timerArmed == timerArmed && r.visibleInstances == visibleInstances
      ensures isFetchingQueue ==> r == this
      ensures !isFetchingQueue ==> r.inFlight == Batch()
      ensures !isFetchingQueue ==> forall id | id in r.inFlight ::
        r.instancesMap[id].isFetching && r.instancesMap[id].fetchError == None
    {
      if isFetchingQueue then this
      else
        var batch := Batch();
        this.(isFetchingQueue := true, inFlight := batch, instancesMap := MarkFetching(instancesMap, batch))
    }

    /** `processQueue`: cancel, re-arm, dispatch at once, or wait for the fetch in flight. */
    function ProcessQueue(): (r: Store)
      requires Resolvable()
      ensures r.Resolvable() && r.Progressing()
      ensures r.value == value && r.instances == instances && r.queue == queue
      ensures r.instancesMap.Keys == instancesMap.Keys && r.visibleInstances == visibleInstances
      ensures queue == [] ==> !r.timerArmed && r.instancesMap == instancesMap
      ensures 0 < |queue| < QueueThreshold ==> r.timerArmed && r.instancesMap == instancesMap
      ensures |queue| >= QueueThreshold ==> r.isFetchingQueue
      ensures |queue| >= QueueThreshold && !isFetchingQueue ==> !r.timerArmed && r.inFlight == Batch()
      ensures |queue| >= QueueThreshold && isFetchingQueue ==> r == this
    {
      if |queue| == 0 then this.(timerArmed := false)
      else if |queue| < QueueThreshold then this.(timerArmed := true)
      else if !isFetchingQueue then this.(timerArmed := false).FetchQueue()
      else this
    }

    /** The debounced call of `fetchQueue` runs; a cancelled timer never fires. */
    function TimerFires(): (r: Store)
      requires Resolvable()
      ensures r.Resolvable() && !r.timerArmed
      ensures timerArmed ==> r.isFetchingQueue
      ensures !timerArmed ==> r == this
    {
      if timerArmed then this.(timerArmed := false).FetchQueue() else this
    }

    /** `fetchInstance`: queue the id and run the policy. */
    function FetchInstance(id: Id): (r: Store)
      requires Resolvable() && id in instancesMap
      ensures r.Resolvable() && r.Progressing()
      ensures r.queue == Enqueue(queue, id)
      ensures r.instancesMap.Keys == instancesMap.Keys
      ensures r.value == value && r.instances == instances
    {
      this.(queue := Enqueue(queue, id)).ProcessQueue()
    }

    /**
     * `addInstance`: a known id is (re)listed without being queued again; an
     * unknown id gets a fresh record, is listed and is queued for fetching.
     * The record the source returns is `instancesMap[id]` of the result.
     */
    function AddInstance(id: Id, mappingValue: string, mappingLabel: string): (r: Store)
      requires Resolvable()
      ensures r.Resolvable()
      ensures id in r.instancesMap && id in r.instances
      ensures r.instancesMap.Keys == instancesMap.Keys + {id}
      ensures r.value == value && r.max == max && queue <= r.queue
      ensures id in instancesMap || id !in instances ==>
        r.instances == if id in instances then instances else instances + [id]
      ensures id in instancesMap ==>
        r == (if id in instances then this else this.(instances := instances + [id]))
      ensures id !in instancesMap ==>
        r.instances == instances + [id] && r.queue == Enqueue(queue, id) && r.Progressing()
    {
      if id in instancesMap then
        if id in instances then this else this.(instances := instances + [id])
      else
        var s1 := this.(instancesMap := instancesMap[id := NewRecord(id, mappingValue, mappingLabel)],
                        instances := instances + [id]);
        s1.FetchInstance(id)
    }

    /**
     * `fetchQueue` once the response is in: every batched id is settled and
     * dropped from the queue, and the store is no longer fetching.
     */
    function ApplyResponse(response: Response): (r: Store)
      requires Resolvable()
      requires NoDup(inFlight) && forall id | id in inFlight :: id in instancesMap
      ensures r.Resolvable() && !r.isFetchingQueue && r.inFlight == []
      ensures r.value == value && r.instances == instances
      ensures r.queue == Without(queue, inFlight)
      ensures forall k :: k in r.queue <==> k in queue && k !in inFlight
      ensures r.instancesMap.Keys == instancesMap.Keys
      ensures forall k | k in instancesMap ::
        r.instancesMap[k] == if k in inFlight then Settle(instancesMap[k], k, response) else instancesMap[k]
    {
      WithoutMembers(queue, inFlight);
      this.(
        instancesMap := SettleAll(instancesMap, inFlight, response),
        queue := Without(queue, inFlight),
        isFetchingQueue := false,
        inFlight := [])
    }

    /** `fetchQueue` after the response: settle every batched id, then run the policy again. */
    function CompleteFetch(response: Response): (r: Store)
      requires isFetchingQueue && Resolvable()
      requires NoDup(inFlight) && forall id | id in inFlight :: id in instancesMap
      ensures r.Resolvable() && r.Progressing()
      ensures r.value == value && r.instances == instances
      ensures r.queue == Without(queue, inFlight)
      ensures r.instancesMap.Keys == instancesMap.Keys
    {
      ApplyResponse(response).ProcessQueue()
    }

    /** `showInstance`: mark the record shown, counting it only the first time. */
    function ShowInstance(id: Id): (r: Store)
      requires id in instancesMap
      ensures id in r.instancesMap && r.instancesMap[id].show
      ensures r.instancesMap.Keys == instancesMap.Keys
      ensures r.visibleInstances == visibleInstances + (if instancesMap[id].show then 0 else 1)
      ensures forall k | k in instancesMap && k != id :: r.instancesMap[k] == instancesMap[k]
    {
      if !instancesMap[id].show then
        this.(instancesMap := instancesMap[id := instancesMap[id].(show := true)],
              visibleInstances := visibleInstances + 1)
      else this
    }

    /**
     * `showInstance` for any id: reading `show` of the missing record throws
     * a TypeError before anything changes; a known record is shown.
     */
    function TryShowInstance(id: Id): (r: Outcome<Store>)
      ensures r.Throws? <==> id !in instancesMap
      ensures r.Done? ==> r.value == ShowInstance(id)
    {
      if id in instancesMap then Done(ShowInstance(id)) else Throws
    }

    /** `removeInstance`: forget the record and unlist the id; the queue is left as it is. */
    function RemoveInstance(id: Id): (r: Store)
      ensures r.instancesMap.Keys == instancesMap.Keys - {id}
      ensures forall k | k in r.instancesMap :: r.instancesMap[k] == instancesMap[k]
      ensures r.instances == Without(instances, [id]) && id !in r.instances
      ensures forall k :: k in r.instances <==> k in instances && k != id
      ensures r.queue == queue && r.inFlight == inFlight && r.isFetchingQueue == isFetchingQueue
      ensures r.Resolvable() <==> Resolvable() && id !in queue
    {
      WithoutMembers(instances, [id]);
      this.(instancesMap := instancesMap - {id}, instances := Without(instances, [id]))
    }

    /** `removeAllInstancesAndValues`: empty the value, the records and the list. */
    function RemoveAllInstancesAndValues(): (r: Store)
      ensures r.value == [] && r.instancesMap == map[] && r.instances == []
      ensures r.queue == queue && r.inFlight == inFlight && r.isFetchingQueue == isFetchingQueue
      ensures r.Resolvable() <==> queue == []
    {
      assert queue != [] ==> queue[0] in queue;
      this.(value := [], instancesMap := map[], instances := [])
    }

    /**
     * One step of `injectValue`'s loop: a falsy entry, or any entry once the
     * value holds `max` items, is skipped; otherwise the instance is added and
     * appended to the value.
     */
    function InjectOne(entry: Option<Id>, mappingValue: string, mappingLabel: string): (r: Store)
      requires Resolvable()
      ensures r.Resolvable()
      ensures entry.None? || (max.Some? && |value| >= max.value) ==> r == this
      ensures entry.Some? && !(max.Some? && |value| >= max.value) ==>
        && r.value == value + [entry.value]
        && r.instancesMap.Keys == instancesMap.Keys + {entry.value}
        && (entry.value !in instancesMap ==> entry.value in r.queue)
        && (entry.value in instancesMap || entry.value !in instances ==>
              r.instances == if entry.value in instances then instances else instances + [entry.value])
      ensures r.max == max && queue <= r.queue
    {
      if entry.None? || (max.Some? && |value| >= max.value) then this
      else
        var s1 := AddInstance(entry.value, mappingValue, mappingLabel);
        s1.(value := s1.value + [entry.value])
    }

    /** `injectValue` over the provided values: reset value and list, then inject each entry. */
    function InjectValue(provided: seq<Option<Id>>, mappingValue: string, mappingLabel: string): (r: Store)
      requires Resolvable()
      ensures r.Resolvable()
    {
      this.(value := [], instances := []).InjectAll(provided, mappingValue, mappingLabel)
    }

    function InjectAll(provided: seq<Option<Id>>, mappingValue: string, mappingLabel: string): (r: Store)
      requires Resolvable()
      ensures r.Resolvable()
    {
      if provided == [] then this
      else
        InjectAll(provided[..|provided| - 1], mappingValue, mappingLabel)
          .InjectOne(provided[|provided| - 1], mappingValue, mappingLabel)
    }

    // ---------------------------------------------------------------- getters

    /** A record counts as shown when it exists and its `show` flag is set. */
    predicate Shown(id: Id) {
      id in instancesMap && instancesMap[id].show
    }

    /** How many of `ids` are shown. */
    function ShownAmong(ids: seq<Id>): (n: nat)
      ensures n <= |ids|
    {
      if ids == [] then 0
      else ShownAmong(ids[..|ids| - 1]) + (if Shown(ids[|ids| - 1]) then 1 else 0)
    }

    /** The size of the prefix of the list that is visible by default. */
    function DefaultShownRows(): (d: nat)
      ensures d <= |instances| && d <= defaultVisibleInstances
    {
      if defaultVisibleInstances > |instances| then |instances| else defaultVisibleInstances
    }

    /** `isInstanceVisible`: the first rows are always visible, later ones once shown. */
    predicate IsInstanceVisible(index: int, id: Id) {
      index < defaultVisibleInstances || Shown(id)
    }

    /** `hasMoreOptions`: no options request running and fewer options than the total (None: Infinity). */
    predicate HasMoreOptions() {
      !fetchingOptions && (optionsCurrentTotal.None? || optionsCount < optionsCurrentTotal.value)
    }

    /** `hasInitializationError`: the first listed record carries a (truthy) fetch error. */
    predicate HasInitializationError()
      requires Valid()
    {
      |instances| > 0 && Truthy(instancesMap[instances[0]].fetchError)
    }

    /** `isInitialized`: the first record failed, or it has at least one field. */
    predicate IsInitialized()
      requires Valid()
    {
      HasInitializationError() || (|instances| > 0 && |instancesMap[instances[0]].fields| > 0)
    }

    /**
     * The names of the data columns (`columns` without the trailing "delete"
     * column): the first record's field names once it is initialised without
     * error, otherwise the single default column "id".
     */
    function DataColumns(): set<string>
      requires Valid()
    {
      if IsInitialized() && !HasInitializationError()
      then instancesMap[instances[0]].fields.Keys - {"delete"}
      else {"id"}
    }

    /** A record whose fetch completed successfully and is not fetching again. */
    predicate Settled(id: Id)
      requires id in instancesMap
    {
      !instancesMap[id].isFetching && instancesMap[id].isFetched
    }

    /** The row of `list` for one listed id; its cells are filled only once it is settled. */
    function RowOf(id: Id): Row
      requires Valid() && id in instancesMap
      requires Settled(id) ==> forall c | c in DataColumns() :: c in instancesMap[id].fields
    {
      var base := map["id" := Text(Some(id)), "instance" := InstanceRef(id)];
      if Settled(id) then
        var f := instancesMap[id].fields;
        base + map c | c in DataColumns() :: Text(if "value" in f[c] then Some(f[c]["value"]) else None)
      else base
    }

    /** Whether `list` can be computed: every settled listed record has every data column. */
    predicate ListDefined()
      requires Valid()
    {
      forall i | 0 <= i < |instances| ::
        Settled(instances[i]) ==> forall c | c in DataColumns() :: c in instancesMap[instances[i]].fields
    }

    /**
     * `list`: one row per listed instance, or None where the source reads
     * `.value` of a missing field and throws.
     */
    function List(): (rows: Option<seq<Row>>)
      requires Valid()
      ensures rows.Some? <==> ListDefined()
      ensures rows.Some? ==> |rows.value| == |instances|
      ensures rows.Some? ==> forall i | 0 <= i < |instances| ::
        rows.value[i] == RowOf(instances[i])
    {
      if ListDefined() then Some(seq(|instances|, i requires 0 <= i < |instances| => RowOf(instances[i])))
      else None
    }
  }

  /** The store right after construction, before `injectValue` runs. */
  function Initial(): (s: Store)
    ensures s.Valid() && s.Resolvable() && s.Progressing()
  {
    Store([], [], map[], [], false, false, [], 0, 10, None, 0, None, false)
  }

  // ------------------------------------------------------------ sequence facts

  lemma {:induction false} WithoutMembers(q: seq<Id>, ids: seq<Id>)
    ensures forall k :: k in Without(q, ids) <==> k in q && k !in ids
  {
    if q != [] {
      WithoutMembers(q[1..], ids);
      assert forall k :: k in q <==> k == q[0] || k in q[1..];
    }
  }

  lemma WithoutSubset(q: seq<Id>, ids: seq<Id>)
    ensures forall k | k in Without(q, ids) :: k in q
  {
    WithoutMembers(q, ids);
  }
}

=== FILE: list_item.dfy ===
/**
 * One linked instance of a dynamic dropdown field (`ListItem`): the label it
 * shows for the instance record of the instance store, the derived error,
 * fetching and disabled flags, which handlers it attaches, and which events
 * it forwards to the field.
 */
module ListItemView {
  import opened Wrappers

  /** The instance store's record of the linked instance: the part this model reads. */
  datatype Record = Record(
    id: string,
    name: string,
    fetchError: Option<string>,
    fetchLabelError: Option<string>,
    isFetching: bool,
    isFetchingLabel: bool)

  /** `hasError`: the record is missing or has a fetch error or a label fetch error. */
  predicate HasError(instance: Option<Record>) {
    instance.None? || Truthy(instance.value.fetchError) || Truthy(instance.value.fetchLabelError)
  }

  /** `isFetching`: the record exists and it, or its label, is being fetched. */
  predicate IsFetching(instance: Option<Record>) {
    instance.Some? && (instance.value.isFetching || instance.value.isFetchingLabel)
  }

  /** `getLabel`: "Unknown instance" without a record, then "Not found" on error, then the id while fetching, then the name. */
  function GetLabel(instance: Option<Record>, hasError: bool, isFetching: bool): (r: string)
    ensures instance.None? ==> r == "Unknown instance"
    ensures instance.Some? && hasError ==> r == "Not found"
    ensures instance.Some? && !hasError && isFetching ==> r == instance.value.id
    ensures instance.Some? && !hasError && !isFetching ==> r == instance.value.name
  {
    if instance.None? then "Unknown instance"
    else if hasError then "Not found"
    else if isFetching then instance.value.id
    else instance.value.name
  }

  /** The label of the item for a record, with the flags derived from it. */
  function Label(instance: Option<Record>): string {
    GetLabel(instance, HasError(instance), IsFetching(instance))
  }

  /**
   * The item shows the instance's name exactly when its record exists with
   * no error and nothing is being fetched; an error outranks fetching.
   */
  lemma LabelPrecedence(instance: Option<Record>)
    ensures instance.Some? && !HasError(instance) && !IsFetching(instance) ==> Label(instance) == instance.value.name
    ensures instance.Some? && HasError(instance) ==> Label(instance) == "Not found"
    ensures instance.Some? && !HasError(instance) && IsFetching(instance) ==> Label(instance) == instance.value.id
    ensures instance.None? ==> HasError(instance) && !IsFetching(instance) && Label(instance) == "Unknown instance"
  {
  }

  /** `isDisabled`: the item is disabled iff the field is disabled or the link points to its own instance. */
  function IsDisabled(disabled: bool, isCircular: bool): (r: bool)
    ensures r <==> disabled || isCircular
    ensures !r ==> !isCircular
  {
    disabled || isCircular
  }

  /** The events the item can receive. */
  datatype Event = Click | Delete | DragEnd | DragStart | Drop | KeyDown | Focus | Blur | MouseOver | MouseOut

  /** The events forwarded only while pointer events are enabled. */
  predicate PointerEvent(e: Event) {
    e in {Click, Delete, DragEnd, DragStart, Drop, KeyDown}
  }

  /** The flags of the item that decide its rendering and handlers. */
  datatype Item = Item(readOnly: bool, disabled: bool, isCircular: bool, enablePointerEvents: bool)

  /**
   * The handlers attached in each rendering: a read-only item that points to
   * itself, or has pointer events off, is plain text with none; another
   * read-only item handles click, focus, blur and mouse over and out; an
   * editable item that points to itself handles the drag events, drop and
   * keys; any other editable item handles everything.  The delete icon of an
   * editable item is there only when the field is not disabled.
   */
  function Attached(item: Item, e: Event): (r: bool)
    ensures item.readOnly ==> (r <==> !item.isCircular && item.enablePointerEvents && e in {Click, Focus, Blur, MouseOver, MouseOut})
    ensures !item.readOnly && e == Delete ==> (r <==> !item.disabled)
    ensures !item.readOnly && item.isCircular && e != Delete ==> (r <==> e in {DragEnd, DragStart, Drop, KeyDown})
    ensures !item.readOnly && !item.isCircular && e != Delete ==> r
  {
    if item.readOnly then
      !item.isCircular && item.enablePointerEvents && e in {Click, Focus, Blur, MouseOver, MouseOut}
    else if e == Delete then !item.disabled
    else if item.isCircular then e in {DragEnd, DragStart, Drop, KeyDown}
    else true
  }

  /**
   * The event reaches the field's callback: the handler is attached, the
   * field provided the callback, and pointer events are enabled unless the
   * event is a focus, blur or mouse event.
   */
  function Forwarded(item: Item, e: Event, provided: set<Event>): (r: bool)
    ensures r ==> Attached(item, e) && e in provided
    ensures PointerEvent(e) && !item.enablePointerEvents ==> !r
    ensures !PointerEvent(e) && Attached(item, e) && e in provided ==> r
  {
    Attached(item, e) && e in provided && (!PointerEvent(e) || item.enablePointerEvents)
  }

  /** A read-only item never forwards deletion, dragging, dropping or keys. */
  lemma ReadOnlyForwardsNoEdits(item: Item, e: Event, provided: set<Event>)
    requires item.readOnly && e in {Delete, DragEnd, DragStart, Drop, KeyDown}
    ensures !Forwarded(item, e, provided)
  {
  }

  /** With pointer events off, an item forwards only focus, blur and mouse events, and a read-only one forwards nothing. */
  lemma PointerEventsOff(item: Item, e: Event, provided: set<Event>)
    requires !item.enablePointerEvents && Forwarded(item, e, provided)
    ensures e in {Focus, Blur, MouseOver, MouseOut} && !item.readOnly && !item.isCircular
  {
  }

  /**
   * Whether the browser lets the item be dragged: an editable item carries
   * `draggable={!isDisabled}`, a read-only one no `draggable` at all.
   */
  predicate Draggable(item: Item) {
    !item.readOnly && !IsDisabled(item.disabled, item.isCircular)
  }

  /**
   * Only a plain editable item of an enabled field can be dragged; an item
   * that points to itself is shown disabled and cannot be dragged, although
   * its drag-start handler is attached.
   */
  lemma DragOnlyPlainItems(item: Item)
    ensures Draggable(item) <==> !item.readOnly && !item.disabled && !item.isCircular
    ensures Draggable(item) ==> Attached(item, DragStart)
    ensures !item.readOnly && item.isCircular ==>
      IsDisabled(item.disabled, item.isCircular) && Attached(item, DragStart) && !Draggable(item)
  {
  }

  /** The props of one rendering that the label effect depends on. */
  datatype LabelProps = LabelProps(instanceId: string, fetchLabel: bool)

  /** The effect runs on the first rendering and whenever its dependencies changed since the previous one. */
  predicate EffectRuns(renders: seq<LabelProps>, i: nat)
    requires i < |renders|
  {
    i == 0 || renders[i] != renders[i - 1]
  }

  /**
   * The label fetches the item asks of the instance store over a sequence of
   * renderings, in order: the effect asks for the current instance's label
   * each time it runs with `fetchLabel` set.
   */
  function LabelRequests(renders: seq<LabelProps>): (r: seq<string>)
    ensures |r| <= |renders|
    ensures forall id | id in r :: LabelProps(id, true) in renders
  {
    if renders == [] then []
    else
      var i := |renders| - 1;
      var prior := LabelRequests(renders[..i]);
      assert renders == renders[..i] + [renders[i]];
      prior + if EffectRuns(renders, i) && renders[i].fetchLabel then [renders[i].instanceId] else []
  }

  /** Rendering again with the same props asks for nothing more. */
  lemma RerenderRequestsNothing(renders: seq<LabelProps>)
    requires renders != []
    ensures LabelRequests(renders + [renders[|renders| - 1]]) == LabelRequests(renders)
  {
    var longer := renders + [renders[|renders| - 1]];
    assert longer[..|renders|] == renders;
    assert !EffectRuns(longer, |renders|);
  }

  /** Switching to another instance with `fetchLabel` set asks for its label exactly once more. */
  lemma NewInstanceRequestsOnce(renders: seq<LabelProps>, id: string)
    requires renders != [] && renders[|renders| - 1].instanceId != id
    ensures LabelRequests(renders + [LabelProps(id, true)]) == LabelRequests(renders) + [id]
  {
    assert (renders + [LabelProps(id, true)])[..|renders|] == renders;
  }

  /** Without `fetchLabel` no rendering asks for a label. */
  lemma NoFetchLabelNoRequests(renders: seq<LabelProps>)
    requires forall i | 0 <= i < |renders| :: !renders[i].fetchLabel
    ensures LabelRequests(renders) == []
  {
  }
}

=== FILE: tabs.dfy ===
/**
 * The tab bar of the instance page (`Tabs`): which mode tabs are shown,
 * disabled and active for the current mode, which of them can be clicked,
 * and the page a click navigates to.
 */
module InstanceTabs {
  import opened Wrappers
  import opened Instances
  import InstanceView

  /** The modes of the tabs, top to bottom. */
  const TabModes: seq<string> := ["view", "edit", "invite", "graph", "release", "manage", "raw"]

  /** The tabs hidden while the instance is new. */
  const ExistingOnly: set<string> := {"invite", "graph", "release", "manage", "raw"}

  /** The flags the bar passes to one tab. */
  datatype TabProps = TabProps(show: bool, disabled: bool, active: bool)

  /** What a tab renders: nothing, a tab that only displays its state, or a tab with a click handler. */
  datatype Rendered = Nothing | Inert(disabled: bool, active: bool) | Clickable

  /**
   * The flags of the tab of `tabMode` while the page is in `mode`: every tab
   * but edit is disabled in create mode; a tab is active in its own mode,
   * and edit also in create mode; view needs read, edit needs write or
   * create, and the other tabs exist only for an instance that is not new,
   * with their own permission.
   */
  function Tab(tabMode: string, mode: string, instance: Instance): (t: TabProps)
    requires tabMode in TabModes
    ensures t.disabled <==> tabMode != "edit" && mode == "create"
    ensures t.active <==> tabMode == mode || (tabMode == "edit" && mode == "create")
    ensures tabMode == "view" ==> (t.show <==> instance.permissions.canRead)
    ensures tabMode == "edit" ==> (t.show <==> instance.permissions.canWrite || instance.permissions.canCreate)
    ensures tabMode in ExistingOnly && instance.isNew ==> !t.show
    ensures tabMode == "invite" ==> (t.show <==> !instance.isNew && instance.permissions.canInviteForSuggestion)
    ensures tabMode in {"graph", "raw"} ==> (t.show <==> !instance.isNew && instance.permissions.canRead)
    ensures tabMode == "release" ==> (t.show <==> !instance.isNew && instance.permissions.canRelease)
    ensures tabMode == "manage" ==>
      (t.show <==> !instance.isNew && (instance.permissions.canDelete || instance.permissions.canCreate))
  {
    var p := instance.permissions;
    var show :=
      if tabMode == "view" then p.canRead
      else if tabMode == "edit" then p.canWrite || p.canCreate
      else if tabMode == "invite" then !instance.isNew && p.canInviteForSuggestion
      else if tabMode == "graph" then !instance.isNew && p.canRead
      else if tabMode == "release" then !instance.isNew && p.canRelease
      else if tabMode == "manage" then !instance.isNew && (p.canDelete || p.canCreate)
      else !instance.isNew && p.canRead;
    var active := if tabMode == "edit" then mode == "edit" || mode == "create" else mode == tabMode;
    TabProps(show, tabMode != "edit" && mode == "create", active)
  }

  /** `Tab`: a hidden tab renders nothing; a disabled or active tab has no click handler. */
  function Render(t: TabProps): (r: Rendered)
    ensures r == Nothing <==> !t.show
    ensures r == Clickable <==> t.show && !t.disabled && !t.active
    ensures r.Inert? ==> r.disabled == t.disabled && r.active == t.active
  {
    if !t.show then Nothing
    else if t.disabled || t.active then Inert(t.disabled, t.active)
    else Clickable
  }

  /** `handleClick`: the page a click on the tab of `tabMode` opens. */
  function HandleClick(instance: Instance, tabMode: string): (path: string)
    ensures tabMode == "view" ==> path == "/instances/" + instance.id
    ensures tabMode != "view" ==> path == "/instances/" + instance.id + "/" + tabMode
  {
    InstancePath(instance.id, tabMode)
  }

  /** The page a click on the tab of `tabMode` opens while the page is in `mode`, if the tab can be clicked. */
  function Click(tabMode: string, mode: string, instance: Instance): Option<string>
    requires tabMode in TabModes
  {
    if Render(Tab(tabMode, mode, instance)) == Clickable then Some(HandleClick(instance, tabMode)) else None
  }

  /** At most one tab is active, whatever the mode. */
  lemma OneActiveTab(mode: string, instance: Instance, i: nat, j: nat)
    requires i < |TabModes| && j < |TabModes|
    requires Tab(TabModes[i], mode, instance).active && Tab(TabModes[j], mode, instance).active
    ensures i == j
  {
  }

  /** In create mode no tab can be clicked: edit is active and every other tab is disabled. */
  lemma CreateModeLocksTabs(tabMode: string, instance: Instance)
    requires tabMode in TabModes
    ensures Click(tabMode, "create", instance).None?
  {
  }

  /** A click never reopens the current mode: it opens the tab's own mode, which differs from the page's. */
  lemma ClickLeavesMode(tabMode: string, mode: string, instance: Instance)
    requires tabMode in TabModes && '/' !in instance.id
    requires Click(tabMode, mode, instance).Some?
    ensures var target := ParseInstancePath(Click(tabMode, mode, instance).value).value;
      target == (instance.id, tabMode) && target.1 != mode
  {
    InstancePathRoundTrip(instance.id, tabMode);
  }

  /**
   * Where the page opens in a mode of a tab, that tab is shown, except the
   * manage tab: the manage view needs only read, the manage tab needs
   * delete or create.
   */
  lemma OpenModeHasTab(mode: string, instance: Instance, typesSupported: bool)
    requires mode in TabModes && mode != "manage" && (mode in ExistingOnly ==> !instance.isNew)
    requires InstanceView.View(mode, instance.permissions, typesSupported) != InstanceView.NoPermissionForView
    ensures Tab(mode, mode, instance).show && Tab(mode, mode, instance).active
  {
  }

  /**
   * The manage view opens for every reader of an existing instance, while
   * its tab stays hidden for each of them who may neither delete nor create.
   */
  lemma ManageOpensWithoutTab(instance: Instance, typesSupported: bool)
    requires !instance.isNew && instance.permissions.canRead
    requires !instance.permissions.canDelete && !instance.permissions.canCreate
    ensures InstanceView.View("manage", instance.permissions, typesSupported) == InstanceView.InstanceManage
    ensures !Tab("manage", "manage", instance).show
  {
  }

  /**
   * The save bar beside the tabs: shown whenever changes are unsaved and
   * always in edit mode, where the edit tab is active; the only page whose
   * active edit tab comes without a save bar is a create page with nothing
   * unsaved.
   */
  lemma SaveBarBesideEditTab(hasUnsavedChanges: bool, mode: string, instance: Instance)
    ensures hasUnsavedChanges ==> !InstanceView.SaveBarHidden(hasUnsavedChanges, mode)
    ensures mode == "edit" ==> !InstanceView.SaveBarHidden(hasUnsavedChanges, mode) && Tab("edit", mode, instance).active
    ensures Tab("edit", mode, instance).active && InstanceView.SaveBarHidden(hasUnsavedChanges, mode) <==>
      mode == "create" && !hasUnsavedChanges
  {
  }
}

=== FILE: user_profile.dfy ===
/**
 * The user-profile endpoints of the service layer.  Two controllers answer
 * with the signed-in user's profile: `Users` (`/users/me`) and `User`
 * (`/user`).  Both replace the profile's id by its simplified UUID and keep
 * only the spaces relevant to the user; `User` also attaches the picture.
 * They differ in what "relevant" means.
 *
 * The user, space and id services are not called: their answers are
 * arguments (`profile`, `spaces`, `pictures`, and `simplify`, the id
 * service's simplification of a fully qualified id, null when it has none).
 */
module UserProfiles {
  import opened Wrappers

  /** The permissions of the user on a space (`Permissions`): the flag read here. */
  datatype Permissions = Permissions(canRead: bool)

  /** A space as the space service lists it; each flag may be null. */
  datatype Space = Space(
    name: string,
    clientSpace: Option<bool>,
    internalSpace: Option<bool>,
    permissions: Option<Permissions>)

  /** The profile of the signed-in user (`UserProfile`): the parts the endpoints update. */
  datatype UserProfile = UserProfile(id: Option<string>, spaces: Option<seq<Space>>, picture: Option<string>)


  /** A nullable Java `Boolean` read as a condition: null counts as false. */
  predicate IsTrue(b: Option<bool>) {
    b == Some(true)
  }

  /** `spaces.stream().filter(relevant)`: the relevant spaces in their order. */
  function Keep(spaces: seq<Space>, relevant: Space -> bool): (r: seq<Space>)
    ensures forall w :: w in r <==> w in spaces && relevant(w)
    ensures |r| <= |spaces|
  {
    if spaces == [] then []
    else (if relevant(spaces[0]) then [spaces[0]] else []) + Keep(spaces[1..], relevant)
  }

  /** Filtering keeps the order: the spaces kept from a concatenation are those kept from each part, in turn. */
  lemma {:induction false} KeepAppend(a: seq<Space>, b: seq<Space>, relevant: Space -> bool)
    ensures Keep(a + b, relevant) == Keep(a, relevant) + Keep(b, relevant)
  {
    if a != [] {
      assert (a + b)[1..] == a[1..] + b;
      KeepAppend(a[1..], b, relevant);
    } else {
      assert a + b == b;
    }
  }

  /** Filtering twice by the same condition is filtering once. */
  lemma {:induction false} KeepIdempotent(spaces: seq<Space>, relevant: Space -> bool)
    ensures Keep(Keep(spaces, relevant), relevant) == Keep(spaces, relevant)
  {
    if spaces != [] {
      var head, rest := [spaces[0]], spaces[1..];
      assert spaces == head + rest;
      KeepAppend(head, rest, relevant);
      KeepAppend(Keep(head, relevant), Keep(rest, relevant), relevant);
      KeepIdempotent(rest, relevant);
      assert head[1..] == [];
      assert Keep(Keep(head, relevant), relevant) == Keep(head, relevant);
    }
  }

  /** The id after `setId`: the simplified UUID when there is one, otherwise the old id. */
  function SimplifiedId(id: Option<string>, simplify: Option<string> -> Option<string>): (r: Option<string>)
    ensures simplify(id).Some? ==> r == simplify(id)
    ensures simplify(id).None? ==> r == id
  {
    if simplify(id).Some? then simplify(id) else id
  }
}

/** `Users` (`/users/me`): a space is relevant when it is neither a client nor an internal space and is readable. */
module UsersApi {
  import opened Wrappers
  import opened UserProfiles

  /** `isUserRelevantSpace` of `Users`. */
  function IsUserRelevantSpace(w: Space): (r: bool)
    ensures r <==> !IsTrue(w.clientSpace) && !IsTrue(w.internalSpace) && w.permissions.Some? && w.permissions.value.canRead
  {
    (w.clientSpace.None? || !w.clientSpace.value) && (w.internalSpace.None? || !w.internalSpace.value)
      && (w.permissions.Some? && w.permissions.value.canRead)
  }

  /**
   * `getUserProfile` of `Users`: null without a profile; otherwise the
   * profile with its id simplified when the id service has a UUID for it and
   * with the relevant spaces, in order, when the space service answers.
   */
  function GetUserProfile(profile: Option<UserProfile>, simplify: Option<string> -> Option<string>, spaces: Option<seq<Space>>)
    : (r: Option<CoreResult<UserProfile>>)
    ensures r.None? <==> profile.None?
    ensures r.Some? ==> r.value.data.Some?
    ensures r.Some? ==>
      var p := r.value.data.value;
      && p.id == SimplifiedId(profile.value.id, simplify)
      && p.picture == profile.value.picture
      && (spaces.None? ==> p.spaces == profile.value.spaces)
      && (spaces.Some? ==> p.spaces == Some(Keep(spaces.value, IsUserRelevantSpace)))
  {
    match profile
    case None => None
    case Some(p) =>
      var withId := p.(id := SimplifiedId(p.id, simplify));
      var withSpaces := if spaces.Some? then withId.(spaces := Some(Keep(spaces.value, IsUserRelevantSpace))) else withId;
      Some(CoreResult(Some(withSpaces)))
  }
}

/** `User` (`/user`): a space is relevant when it is neither a client nor an internal space; the picture is attached. */
module UserApi {
  import opened Wrappers
  import opened UserProfiles
  import UsersApi

  /** `isUserRelevantSpace` of `User`: there is no permission check. */
  function IsUserRelevantSpace(w: Space): (r: bool)
    ensures r <==> !IsTrue(w.clientSpace) && !IsTrue(w.internalSpace)
  {
    (w.clientSpace.None? || !w.clientSpace.value) && (w.internalSpace.None? || !w.internalSpace.value)
  }

  /** The space is readable by the user. */
  predicate Readable(w: Space) {
    w.permissions.Some? && w.permissions.value.canRead
  }

  /** The spaces `/users/me` keeps are those `/user` keeps that are readable, in the same order. */
  lemma {:induction false} UsersKeepsReadableOfUser(spaces: seq<Space>)
    ensures Keep(spaces, UsersApi.IsUserRelevantSpace) == Keep(Keep(spaces, IsUserRelevantSpace), Readable)
  {
    if spaces != [] {
      var head, rest := [spaces[0]], spaces[1..];
      assert spaces == head + rest;
      UsersKeepsReadableOfUser(rest);
      KeepAppend(head, rest, UsersApi.IsUserRelevantSpace);
      KeepAppend(head, rest, IsUserRelevantSpace);
      KeepAppend(Keep(head, IsUserRelevantSpace), Keep(rest, IsUserRelevantSpace), Readable);
      assert head[1..] == [];
      assert Keep(head, UsersApi.IsUserRelevantSpace) == Keep(Keep(head, IsUserRelevantSpace), Readable);
    }
  }

  /** The picture the user service returned for the id, when its answer and that entry are both non-null. */
  function PictureFor(pictures: Option<map<string, Option<string>>>, id: Option<string>): Option<string> {
    if pictures.Some? && id.Some? && id.value in pictures.value then pictures.value[id.value] else None
  }

  /**
   * `getUserProfile` of `User`: null without a profile; otherwise the
   * profile with its id simplified when there is a UUID, the relevant
   * spaces when the space service answers, and the picture of the (new) id
   * when the picture service has a non-null one.  `pictures` is the
   * picture service's answer for that id.
   */
  function GetUserProfile(
    profile: Option<UserProfile>, simplify: Option<string> -> Option<string>,
    spaces: Option<seq<Space>>, pictures: Option<map<string, Option<string>>>)
    : (r: Option<CoreResult<UserProfile>>)
    ensures r.None? <==> profile.None?
    ensures r.Some? ==> r.value.data.Some?
    ensures r.Some? ==>
      var p := r.value.data.value;
      && p.id == SimplifiedId(profile.value.id, simplify)
      && (spaces.None? ==> p.spaces == profile.value.spaces)
      && (spaces.Some? ==> p.spaces == Some(Keep(spaces.value, IsUserRelevantSpace)))
      && (PictureFor(pictures, p.id).Some? ==> p.picture == PictureFor(pictures, p.id))
      && (PictureFor(pictures, p.id).None? ==> p.picture == profile.value.picture)
  {
    match profile
    case None => None
    case Some(p) =>
      var withId := p.(id := SimplifiedId(p.id, simplify));
      var withSpaces := if spaces.Some? then withId.(spaces := Some(Keep(spaces.value, IsUserRelevantSpace))) else withId;
      var picture := PictureFor(pictures, withSpaces.id);
      var withPicture := if picture.Some? then withSpaces.(picture := picture) else withSpaces;
      Some(CoreResult(Some(withPicture)))
  }
}

=== FILE: wrappers.dfy ===
/**
 * Shared vocabulary: Option for values that may be null or undefined, Outcome
 * for computations that may throw, and a few sequence predicates.
 */
module Wrappers {

  datatype Option<+T> = None | Some(value: T) {

    /** The wrapped value, or `default` when there is none. */
    function GetOr(default: T): T {
      match this
      case Some(v) => v
      case None => default
    }
  }

  /** A `KGCoreResult`: the envelope of a service answer, whose `data` may be null. */
  datatype CoreResult<+T> = CoreResult(data: Option<T>)

  /** The result of a computation that either returns a value or throws an exception. */
  datatype Outcome<+T> = Done(value: T) | Throws

  /** JavaScript truthiness of an optional string: null, undefined and "" are falsy. */
  predicate Truthy(s: Option<string>) {
    s.Some? && s.value != ""
  }

  /** No element occurs twice. */
  predicate NoDup<T(==)>(s: seq<T>) {
    forall i, j | 0 <= i < j < |s| :: s[i] != s[j]
  }

  /** The distinct elements of `s`, in the order of their first occurrence (a stream's `distinct()`). */
  function Dedup<T(==,!new)>(s: seq<T>): (d: seq<T>)
    ensures NoDup(d) && forall x :: x in d <==> x in s
  {
    if s == [] then []
    else
      var prior := Dedup(s[..|s| - 1]);
      var last := s[|s| - 1];
      assert forall x :: x in s <==> x in s[..|s| - 1] || x == last;
      if last in prior then prior else prior + [last]
  }

  /** Appending an element extends the distinct elements exactly when it is new. */
  lemma DedupSnoc<T(!new)>(s: seq<T>, x: T)
    ensures Dedup(s + [x]) == if x in Dedup(s) then Dedup(s) else Dedup(s) + [x]
  {
    assert (s + [x])[..|s|] == s;
  }
}
